=== FILE: README.md ===
# Garden manager client core, modelled in Dafny

This project models the game-side core of the Godot garden manager client:

- the game clock: time of day, speed steps, the monthly rollover at 08:00, and the calendar tables;
- the weighted loading-progress tracker;
- the crop picker in its two variants, a view and a submenu. It ranks crops, labels the buttons and builds the planting request;
- the plot events list, which splits a plot's events into upcoming and done;
- the garden node's wind speed and size;
- the world manager's arithmetic:
  - the seasonal twig colour and scale;
  - the sun position and light;
  - the garden-to-world coordinates;
  - the tree seed;
  - the hourly tree refresh;
  - the plot-loading progress split;
- the weighted random tree-type pick;
- the tool manager, the token store and the crop cache;
- the mower brush that paints the growth image;
- the interaction overlay's disc mesh and icon;
- the grass scatter over a mesh's triangles.

Floating-point values are modelled as `real`. C# integer behaviour is written out:

- casts truncate toward zero (`Common.Trunc`);
- `%` takes the sign of the dividend (`Common.IntRem`, `Common.FMod`);
- an unchecked `int` addition wraps (`Common.Wrap32`).

C# events are returned as sequences of notifications, in the order the code raises them. LINQ's `OrderBy` is modelled as a stable insertion sort (`Sorting`). Its contract is what LINQ promises: the output is sorted, a permutation of the input, and stable.

Some things the model cannot compute are passed in as parameters:

- sine and cosine;
- random draws, `GetHashCode`, and the host clock's month and year;
- HTTP answers and texture loads;
- the triangle area, which needs a square root;
- the string comparer.

Two behaviours of the code are worth stating:

- **Tick event order.** In a frame that crosses the 08:00 rollover, `TimeManager._Process` raises `DateChanged` (inside `AdvanceMonth`) before `TimeChanged`. `TimeManager.Tick` emits them in that order.
- **January sun elevation.** The sun's elevation offset for January comes out as +3 degrees, not the -15 that the code's own comment describes. The model follows the code, and `WorldManager.MonthAdjustmentProfile` states that value.

## Model

| member | source | states |
|---|---|---|
| Common.Clamp | Scripts/World/Garden.cs:120 | the result lies in [lo, hi] when the range is proper; inside the range the value is kept, below it gives lo, above it gives hi |
| Common.Lerp | Scripts/Managers/TimeManager.cs:251-303 | weight 0 gives the start and weight 1 the end; a weight in [0, 1] stays between the two ends |
| Common.Trunc | Scripts/Managers/TimeManager.cs:131-132 | the C# cast rounds toward zero: the integer is within one of the value, on the value's side of zero |
| Common.IntRem | Scripts/World/WorldManager.cs:1278-1283 | C#'s `%` takes the dividend's sign and equals the Euclidean remainder of the absolute value, with that sign |
| Common.Wrap32 | Scripts/World/WorldManager.cs:1278 | the wrapped sum is a 32-bit int, and it equals the sum whenever the sum is already in range |
| TimeManager.Ready | Scripts/Managers/TimeManager.cs:8-40 | the clock starts valid at 08:00 at normal speed with the host's month and year; it raises TimeChanged then DateChanged |
| TimeManager.AdvanceMonth | Scripts/Managers/TimeManager.cs:114-127 | the month moves exactly one step forward on the absolute month line and stays in 1..12; it raises one DateChanged and nothing else changes |
| TimeManager.Tick | Scripts/Managers/TimeManager.cs:42-66 | time advances by delta × speed and wraps once past 1440; the month rolls exactly when 08:00 is crossed upwards on a day that has not yet rolled; DateChanged comes before TimeChanged |
| TimeManager.TickKeepsValid | Scripts/Managers/TimeManager.cs:42-66 | a step shorter than a day keeps the clock within the day, the month in range and the speed in the table |
| TimeManager.LongStepLeavesClockPastMidnight | Scripts/Managers/TimeManager.cs:51-55 | the wrap subtracts a single day, so a frame longer than a day leaves the time past 1440 |
| TimeManager.AtMostOneRolloverPerDay | Scripts/Managers/TimeManager.cs:57-63 | over any run of frames that never reaches midnight, the month rolls at most once, and not at all once today's rollover has happened |
| TimeManager.DayScenario | Scripts/Managers/TimeManager.cs:50-63 | a full day from 08:00 keeps the month, and passing midnight clears the day's flag without rolling |
| TimeManager.SlowDown | Scripts/Managers/TimeManager.cs:68-76 | one step down the speed table, or nothing at the slowest speed; the time and the date are untouched |
| TimeManager.SpeedUp | Scripts/Managers/TimeManager.cs:78-86 | one step up the speed table, or nothing at the fastest speed; the time and the date are untouched |
| TimeManager.SpeedControlsAreMonotone | Scripts/Managers/TimeManager.cs:30-86 | the controls never leave the table; slowing down never speeds up and vice versa, strictly so away from the ends |
| TimeManager.SpeedControlsInverse | Scripts/Managers/TimeManager.cs:68-86 | away from the ends, slowing down undoes speeding up and the other way round |
| TimeManager.PressSlowDown | Scripts/Managers/TimeManager.cs:68-76 | any number of presses keeps the speed index inside the table |
| TimeManager.RepeatedSlowDownStopsAtMinimum | Scripts/Managers/TimeManager.cs:68-76 | enough presses reach the slowest speed, 0.25, and stay there |
| TimeManager.NextMonth | Scripts/Managers/TimeManager.cs:88-94 | jumps to 08:00 of the next month with today's rollover spent, keeps the speed, and raises DateChanged |
| TimeManager.PreviousMonth | Scripts/Managers/TimeManager.cs:96-112 | jumps to 08:00 of the previous month with today's rollover spent, keeps the speed, and raises DateChanged |
| TimeManager.MonthJumpsAreInverse | Scripts/Managers/TimeManager.cs:88-112 | next then previous, or previous then next, returns to the same month and year |
| TimeManager.MonthRolloverArithmetic | Scripts/Managers/TimeManager.cs:96-127 | December advances to January of the next year; January goes back to December of the previous year |
| TimeManager.TimeString | Scripts/Managers/TimeManager.cs:129-134 | for a time within the day the string is five characters: two digits, a colon, two digits |
| TimeManager.TimeFields | Scripts/Managers/TimeManager.cs:131-132 | the truncated hours are in 0..23 and the truncated minutes in 0..59, and together they give the whole minute of the day |
| TimeManager.TimeStringRoundTrip | Scripts/Managers/TimeManager.cs:129-134 | reading the `HH:MM` string back gives the whole minute the clock is in |
| TimeManager.Pad2Reads | Scripts/Managers/TimeManager.cs:133 | the two-digit `D2` field of a number below 100 reads back as that number |
| TimeManager.TimeStringExamples | Scripts/Managers/TimeManager.cs:129-134 | 90 minutes shows as 01:30, midnight as 00:00, and the last minute as 23:59 |
| TimeManager.MonthName | Scripts/Managers/TimeManager.cs:136-139 | there is a name exactly for the months 1..12 of the years 1..9999, and it is that month's English name; any other date throws |
| TimeManager.MonthJumpsLeaveTheNamedYears | Scripts/Managers/TimeManager.cs:96-139 | the month jumps keep the name defined inside the years 1..9999, but stepping back from January of year 1 (or forward from December 9999) reaches a date whose name throws |
| TimeManager.Sunrise | Scripts/Managers/TimeManager.cs:145-175 | the sunrise table stays between 05:00 and 08:00; 06:00 is the fallback outside 1..12 |
| TimeManager.Sunset | Scripts/Managers/TimeManager.cs:181-211 | the sunset table stays between 16:00 and 21:00; 18:00 is the fallback outside 1..12 |
| TimeManager.DaylightByMonth | Scripts/Managers/TimeManager.cs:145-211 | every month has sunrise before sunset; June has the longest day, and December and January the shortest |
| TimeManager.SeasonOf | Scripts/Managers/TimeManager.cs:216-244 | every month up to February is winter |
| TimeManager.SeasonIsQuarterFromDecember | Scripts/Managers/TimeManager.cs:224-244 | the seasons are the four consecutive quarters of the year starting in December |
| TimeManager.TwigMultiplierIsAnchorCurve | Scripts/Managers/TimeManager.cs:251-303 | the multiplier is the cyclic piecewise-linear curve through January 0, April 0.25, July 1 and October 0.5; it stays in [0, 1] and peaks in July |
| TimeManager.TwigScaleMultiplier | Scripts/Managers/TimeManager.cs:251-303 | for a calendar month the multiplier lies in [0, 1], is 0 exactly in January and 1 exactly in July |
| LoadingProgress.New | Scripts/Managers/LoadingProgressTracker.cs:26-29 | a new tracker is valid, has no phases and is at 0 percent |
| LoadingProgress.Find | Scripts/Managers/LoadingProgressTracker.cs:37-55 | finds the phase with the given name if one is registered, and otherwise reports that no phase has it |
| LoadingProgress.SumWeightsAppend | Scripts/Managers/LoadingProgressTracker.cs:37-55 | registering a phase adds its weight to the total |
| LoadingProgress.SumWeightsKeepsUnderProgressUpdate | Scripts/Managers/LoadingProgressTracker.cs:83-113 | changing a phase's progress leaves the total weight unchanged |
| LoadingProgress.RegisterPhase | Scripts/Managers/LoadingProgressTracker.cs:37-55 | a new name is appended with progress 0 and its weight is added to the total; a known name changes nothing; names stay distinct |
| LoadingProgress.RegisterEqualPhases | Scripts/Managers/LoadingProgressTracker.cs:63-78 | a null or empty list is a no-op; otherwise the existing phases stay in front, every added phase is named from the list with the total divided by the number of names, at progress 0 and incomplete, at most one per name, every name ends up registered, and the overall progress and spinner are untouched; with distinct new names the added phases are exactly one per name in list order |
| LoadingProgress.RegisterAll | Scripts/Managers/LoadingProgressTracker.cs:73-76 | existing phases are kept as a prefix; every added phase is named from the list, carries the given weight, and starts at progress 0 and incomplete; at most one phase per name is added; every name ends up registered; the overall progress and spinner are untouched |
| LoadingProgress.RegisterAllAddsEachName | Scripts/Managers/LoadingProgressTracker.cs:36-78 | registering distinct names none of which is known appends exactly one fresh phase per name, in list order |
| LoadingProgress.EqualPhasesShareTheTotal | Scripts/Managers/LoadingProgressTracker.cs:63-78 | every newly registered name carries exactly the equal share |
| LoadingProgress.UpdateUI | Scripts/Managers/LoadingProgressTracker.cs:182-192 | the spinner shows the percentage when one exists; an empty status keeps the previous line |
| LoadingProgress.UpdateOverall | Scripts/Managers/LoadingProgressTracker.cs:163-180 | with a total weight of 0 nothing happens; otherwise the current progress becomes the weighted average of the phases |
| LoadingProgress.UpdatePhaseProgress | Scripts/Managers/LoadingProgressTracker.cs:83-95 | a known phase gets the progress clamped to [0, 1] and every other phase is unchanged, and with a non-zero total the overall progress is recomputed and shown; an unknown name is a no-op |
| LoadingProgress.CompletePhase | Scripts/Managers/LoadingProgressTracker.cs:100-113 | a known phase gets progress 1 and is marked complete, and every other phase is unchanged, and with a non-zero total the overall progress is recomputed and shown; an unknown name is a no-op |
| LoadingProgress.UpdateItemProgress | Scripts/Managers/LoadingProgressTracker.cs:123-137 | zero items completes the phase; otherwise the phase's progress becomes done/total clamped to [0, 1]; other phases are unchanged; with a non-zero total the spinner shows the recomputed overall progress and the "Completed" or item-count status; an unknown name is a no-op |
| LoadingProgress.ItemStatus | Scripts/Managers/LoadingProgressTracker.cs:131-133 | the status starts with "phase: ", ends with "done/total" (followed by ")" when an item is named), and a named item follows the prefix with " (" after it |
| LoadingProgress.LastItemFillsButDoesNotComplete | Scripts/Managers/LoadingProgressTracker.cs:100-137 | reporting n of n items brings the phase to progress 1 as completing it does, but leaves its completion flag as it was; the resulting phases differ from CompletePhase's only in that flag |
| LoadingProgress.SetProgress | Scripts/Managers/LoadingProgressTracker.cs:143-147 | the progress is clamped to [0, 100]: kept inside the range, 0 below it and 100 above; a present spinner shows it with the new status (or its old line for an empty status); the phases are not touched |
| LoadingProgress.Reset | Scripts/Managers/LoadingProgressTracker.cs:152-161 | every phase goes back to progress 0 and incomplete; names, weights and the total are kept; a present spinner shows 0 with "Initializing..." |
| LoadingProgress.ResetPhases | Scripts/Managers/LoadingProgressTracker.cs:152-161 | each phase is reset in place and the sum of the weights is unchanged |
| LoadingProgress.ResetClearsCompletion | Scripts/Managers/LoadingProgressTracker.cs:152-161 | after a reset the tracker is complete exactly when it has no phases |
| LoadingProgress.WeightedProgressScales | Scripts/Managers/LoadingProgressTracker.cs:163-180 | the sum of (w/W)·100·p is 100 · Σ w·p / W |
| LoadingProgress.SumWeightedProgressBounds | Scripts/Managers/LoadingProgressTracker.cs:171-176 | with weights ≥ 0 and progress in [0, 1], Σ w·p lies between 0 and Σ w |
| LoadingProgress.SumWeightedProgressFull | Scripts/Managers/LoadingProgressTracker.cs:171-176 | when every phase is at progress 1, Σ w·p equals Σ w |
| LoadingProgress.OverallProgressIsPercentage | Scripts/Managers/LoadingProgressTracker.cs:163-180 | with non-negative weights the overall progress is in [0, 100], and it is 100 when every phase is at full progress |
| Sorting.Insert | Scripts/UI/PlotEventsView.cs:88-94 | inserting adds exactly one element: one more in length, and the multiset gains x |
| Sorting.Sort | Scripts/UI/PlotEventsView.cs:88-94 | the sort keeps the length and the multiset of elements |
| Sorting.InsertSorted | Scripts/UI/PlotEventsView.cs:88-94 | inserting into a sorted list keeps it sorted |
| Sorting.InsertTies | Scripts/UI/PlotEventsView.cs:88-94 | an inserted element goes in front of the elements equal to it |
| Sorting.SortIsStableOrdering | Scripts/UI/CropSelectionView.cs:139-142 | the result is sorted, a permutation of the input, and keeps elements that compare equal in their input order |
| PlotEvents.Upcoming | Scripts/UI/PlotEventsView.cs:88-90 | exactly the events that are not done and not executed |
| PlotEvents.Done | Scripts/UI/PlotEventsView.cs:92-94 | exactly the events that are done or executed |
| PlotEvents.PartitionIsExact | Scripts/UI/PlotEventsView.cs:88-94 | the two filters are complementary, so each event lands in exactly one list |
| PlotEvents.KeyOrdersArePreorders | Scripts/UI/PlotEventsView.cs:88-94 | ordering by window start, and by execution date descending, are total preorders |
| PlotEvents.ListsAreOrderedPartition | Scripts/UI/PlotEventsView.cs:88-94 | upcoming is sorted by window start and done by execution date, latest first; both are stable, and together they hold every event once |
| PlotEvents.DateLine | Scripts/UI/PlotEventsView.cs:146-163 | a card has a date line exactly when the event has a window start or an execution date |
| PlotEvents.EventCard | Scripts/UI/PlotEventsView.cs:134-188 | the title comes first ("Unknown Event" when there is no type, orange on an upcoming card); then the date line when there is one, the notes when present, and "Status: " with the status last when it is non-empty, in white, white and yellow on an upcoming card; no other line; a done card is all grey |
| PlotEvents.Cards | Scripts/UI/PlotEventsView.cs:104-111 | one card per event, in list order |
| PlotEvents.UpdateEvents | Scripts/UI/PlotEventsView.cs:61-129 | nothing happens without the containers; no events gives "No events found"; each empty list gets its placeholder exactly when its filter is empty; otherwise the upcoming column is one upcoming-style card per event of the ordered upcoming list, and the done column one done-style card per event of the ordered done list |
| PlotEvents.UpcomingColumnIsOrdered | Scripts/UI/PlotEventsView.cs:88-111 | the upcoming column shows exactly the upcoming events, ordered by window start, each under an orange title |
| PlotEvents.DoneColumnIsOrdered | Scripts/UI/PlotEventsView.cs:92-129 | the done column shows exactly the done events, latest execution date first, every line grey |
| PlotEvents.OneCardPerEvent | Scripts/UI/PlotEventsView.cs:61-129 | with events present, the cards shown number exactly the events |
| PlotEvents.CardCountOfCards | Scripts/UI/PlotEventsView.cs:104-128 | a list of cards counts one card per event |
| PlotEvents.DateLineMatchesList | Scripts/UI/PlotEventsView.cs:146-163 | an upcoming card shows "Due: start - end" or no date line; a done card shows "Completed: date" whenever the event was executed |
| CropSelection.RankIsPreorder | Scripts/UI/CropSelectionView.cs:139-142 | allowed-first then score-descending is a total preorder |
| CropSelection.RankingOrder | Scripts/UI/CropSelectionView.cs:139-142 | allowed crops come before disallowed ones, each group is by descending score (a missing score counts as 0), ties keep input order, and nothing is dropped |
| CropSelection.Label | Scripts/UI/CropSelectionView.cs:158-181 | the label starts with the crop name; it is just the name when there is no family, no group other than misc, and no suitability, and the name plus " [group]" for a group other than "" and misc alone |
| CropSelection.LabelParts | Scripts/UI/CropSelectionView.cs:158-181 | the family shows in parentheses, the group in brackets, the score after "Score:" and the soil after "Soil:", and with all four present they follow the name in that order |
| CropSelection.CurrentDate | Scripts/UI/CropSelectionView.cs:226-238 | without a clock the system date; with one, "year-MM-01" |
| CropSelection.CurrentDateRoundTrip | Scripts/UI/CropSelectionView.cs:226-238 | the date string reads back as the clock's year and month |
| CropSelection.PlantRequest | Scripts/UI/CropSelectionView.cs:186-206 | a request exists exactly when both UUIDs are present; it has the four keys plot_uuid, crop_uuid, date_planted and method=direct_sowing |
| CropSelection.LoadCrops | Scripts/UI/CropSelectionView.cs:64-152 | the guards leave the list untouched; no crops gives "no crops"; a non-empty answer gives one button per fetched suitability, in the order of Ranked, each labelled by its crop |
| CropSelection.ButtonsAreRanked | Scripts/UI/CropSelectionView.cs:139-152 | the buttons of a non-empty answer are a permutation of it with allowed crops first, each group by descending score, and ties in the server's order |
| CropSelection.ViewSelect | Scripts/UI/CropSelectionView.cs:186-221 | the view sends the planting request, and signals back exactly when a request was sent and the server confirmed it |
| CropSelection.OpenForPlot | Scripts/UI/CropSelectionMenu.cs:83-141 | a missing UUID changes nothing; otherwise the UUIDs are stored, the menu is shown and open, and the crops are loaded |
| CropSelection.BackPressed | Scripts/UI/CropSelectionMenu.cs:314-320 | hides the menu and marks it closed; nothing else changes |
| CropSelection.HideMenu | Scripts/UI/CropSelectionMenu.cs:325-339 | closes the menu and clears the buttons, keeping the UUIDs |
| CropSelection.MenuSelect | Scripts/UI/CropSelectionMenu.cs:250-292 | nothing happens without a plot service; the request is the view's request; a confirmed planting hides the menu, and nothing else does |
| CropSelection.HideThenSelectKeepsTarget | Scripts/UI/CropSelectionMenu.cs:250-339 | hiding does not change which request a selection makes, and the menu and the view build the same request |
| Garden.WindSpeed | Scripts/World/Garden.cs:113-120 | the wind is proportional to the clock speed and capped to [0.5, 4] |
| Garden.WindOverSpeedTable | Scripts/World/Garden.cs:113-120 | over the eight clock speeds the wind is 0.5, 0.5, 1, 2, 4, 4, 4, 4 |
| Garden.UpdateWind | Scripts/World/Garden.cs:106-135 | without the clock or the grass nothing happens; a change over 0.01 is stored, and written to the shader when there is one; a smaller change does nothing |
| Garden.WindSettles | Scripts/World/Garden.cs:122-125 | after one update at a speed, further frames at that speed change nothing |
| Garden.FirstFrameAtNormalSpeed | Scripts/World/Garden.cs:17-20 | the initial 1.0 means the first frame at normal speed writes nothing, while 2x does |
| Garden.IsReady | Scripts/World/Garden.cs:25-44 | ready exactly when the plane and its mesh exist and the grass multimesh has at least one instance |
| Garden.SizeInMeters | Scripts/World/Garden.cs:150-159 | feet are converted at 0.3048; any other unit is taken as meters |
| Garden.UpdateGardenSize | Scripts/World/Garden.cs:145-160 | without the plane nothing happens; otherwise the plane takes the size in meters |
| Garden.SetSize | Scripts/World/Garden.cs:137-144 | stores the three fields and resizes the plane |
| Garden.SetSizeConverts | Scripts/World/Garden.cs:137-160 | a size in feet equals the converted size in meters, and setting the same size twice is the same as once |
| WorldManager.TwigColorIsAnchorCurve | Scripts/World/WorldManager.cs:348-396 | each channel of the twig colour follows the cyclic four-anchor curve, exact at January, April, July and October, and within the anchor range |
| WorldManager.TwigColor | Scripts/World/WorldManager.cs:348-396 | for a calendar month each channel stays within its anchors' range, and the April colour is reached in April only |
| WorldManager.MonthAdjustmentProfile | Scripts/World/WorldManager.cs:596-619 | the offset stays within ±15, rises from January (+3) to May and June, falls to December, and the sky-colour copy agrees |
| WorldManager.MonthAdjustment | Scripts/World/WorldManager.cs:596-619 | for a calendar month the offset lies in [-15, 15] and reaches +15 exactly in May and June |
| WorldManager.SkyMonthAdjustment | Scripts/World/WorldManager.cs:744-753 | the sky-colour copy gives the same offset as the sun-position one, for every month |
| WorldManager.SunPosition | Scripts/World/WorldManager.cs:565-643 | it is day exactly between sunrise and sunset; by day the day fraction is (time − sunrise)/(sunset − sunrise), the azimuth is 180 × that fraction and the elevation is the clamped sine term plus the month offset; at night the elevation is -10 and the azimuth 0 before sunrise and 180 after sunset |
| WorldManager.AzimuthSweepsEastToWest | Scripts/World/WorldManager.cs:581-643 | the azimuth never decreases over the day, from 0 at sunrise to 180 at sunset |
| WorldManager.HorizonElevationIsMonthOffset | Scripts/World/WorldManager.cs:583-622 | at sunrise the elevation is just the month's offset |
| WorldManager.Intensity | Scripts/World/WorldManager.cs:663-673 | 0.1 at or below the horizon, in (0.3, 1] above it, and 1 at the zenith |
| WorldManager.IntensityIsMonotone | Scripts/World/WorldManager.cs:663-673 | a higher sun never gives dimmer light |
| WorldManager.Band | Scripts/World/WorldManager.cs:678-692 | warm exactly in (-5, 10), daylight exactly above 10, night otherwise, including exactly 10 |
| WorldManager.BandColor | Scripts/World/WorldManager.cs:678-692 | warm and daylight colours are full red, only the night colour is bluer than red, and only daylight has full green |
| WorldManager.NightLight | Scripts/World/WorldManager.cs:627-692 | at night the light is 0.1 and the night colour; elevation exactly 10 also gets the night colour |
| WorldManager.InMeters | Scripts/World/WorldManager.cs:1008-1016 | feet are converted at 0.3048; any other unit is taken as meters |
| WorldManager.GardenToWorld | Scripts/World/WorldManager.cs:1006-1031 | the point is shifted by half the garden size in meters |
| WorldManager.GardenToWorldIsCentredTranslation | Scripts/World/WorldManager.cs:1006-1031 | the garden's corners are symmetric about the origin, the map is a translation, and it round-trips with its inverse |
| WorldManager.TreeSeed | Scripts/World/WorldManager.cs:1272-1285 | the seed is always in 0..9999 |
| WorldManager.TreeSeedIsAbsoluteRemainder | Scripts/World/WorldManager.cs:1272-1285 | the seed is the absolute value of (type seed + hash remainder) modulo 10000, or of the hash alone |
| WorldManager.ScaleFactor | Scripts/World/WorldManager.cs:1144-1166 | the factor is always in [0.1, 0.6] |
| WorldManager.ScaleFactorProfile | Scripts/World/WorldManager.cs:1156-1166 | between average sides 0.5 m and 3 m the factor is proportional, and a larger plot never gets a smaller tree |
| WorldManager.BaseTwigScale | Scripts/World/WorldManager.cs:1368-1370 | the base is between 0.1 and 0.6 times the type's twig scale (0.6 when absent) |
| WorldManager.TwigScaleIsShareOfBase | Scripts/World/WorldManager.cs:1287-1374 | creation and the seasonal update agree; the scale is a share of the base, all of it in July and without a clock, none in January |
| WorldManager.CreationTwigScale | Scripts/World/WorldManager.cs:1287-1374 | without a clock the base scale, with one the seasonal scale of that month |
| WorldManager.SeasonalTwigScale | Scripts/World/WorldManager.cs:1287-1374 | for a calendar month the scale lies between 0 and the base, all of it in July and none in January |
| WorldManager.UpdateAllTreesForSeason | Scripts/World/WorldManager.cs:283-342 | without a clock or the material nothing changes; otherwise exactly the live trees are kept, every live tree appears with base × multiplier and the month's colour, and every kept tree is such a tree |
| WorldManager.Refresh | Scripts/World/WorldManager.cs:306-339 | keeps one tree per live tree, each with the seasonal scale and colour |
| WorldManager.RefreshKeepsLiveTrees | Scripts/World/WorldManager.cs:306-339 | every live tree is kept with its base, and refreshing twice in a month is the same as once |
| WorldManager.OnTimeChanged | Scripts/World/WorldManager.cs:257-275 | the trees refresh exactly when some are registered and the hour differs from the last refreshed one |
| WorldManager.RefreshOncePerHour | Scripts/World/WorldManager.cs:257-275 | the first notification always refreshes, and a second within the same hour never does |
| WorldManager.FilterWhere | Scripts/World/WorldManager.cs:910-922 | exactly the rectangle vegetable plots, or exactly the fruit-tree plots |
| WorldManager.ItemUpdates | Scripts/World/WorldManager.cs:953-983 | per-item updates keep the phase names and the total, and never un-complete a phase |
| WorldManager.StartLoad | Scripts/World/WorldManager.cs:895-908 | on a fresh tracker, GettingPlots (weight 10) is registered and then complete |
| WorldManager.BuildKind | Scripts/World/WorldManager.cs:953-990 | a kind with items ends with its phase complete, and every other phase keeps its completion |
| WorldManager.LoadPlots | Scripts/World/WorldManager.cs:885-995 | loading ends at 100 percent with the tracker valid |
| WorldManager.LoadingWeightsSumToHundred | Scripts/World/WorldManager.cs:924-940 | each non-empty kind gets its share of 90 in proportion to its count, so the total weight is 100 |
| WorldManager.RegisterLoadPhases | Scripts/World/WorldManager.cs:924-940 | the old phases stay in front, at most two new incomplete phases at progress 0 are added, each named "VegetablePlots" or "FruitTrees", each kind with items is found afterwards, and the overall progress and spinner are kept |
| WorldManager.LoadPhasesLayout | Scripts/World/WorldManager.cs:924-940 | after registration "GettingPlots" comes first and complete, "VegetablePlots" is found at index 1 and "FruitTrees" last, one phase per non-empty kind |
| WorldManager.LoadPlotsCompletesEveryPhase | Scripts/World/WorldManager.cs:885-995 | loading into a fresh tracker leaves every registered phase complete |
| TreeTypes.FirstReaching | Scripts/World/TreeTypeLoader.cs:68-78 | the first index whose running sum reaches the target, or the last index |
| TreeTypes.GetRandomTreeType | Scripts/World/TreeTypeLoader.cs:53-82 | the loop's pick equals the reference pick; null exactly for an empty list; the result is one of the types |
| TreeTypes.FirstReachingIs | Scripts/World/TreeTypeLoader.cs:69-78 | the reference choice is determined by the running sums |
| TreeTypes.FallbackUnreachable | Scripts/World/TreeTypeLoader.cs:80-81 | with a draw in [0, 1] the running sum reaches the target, so the fallback is never taken |
| TreeTypes.ReachedBy | Scripts/World/TreeTypeLoader.cs:71-81 | a target no larger than the total is reached by the chosen type's running sum |
| TreeTypes.ReachedWithin | Scripts/World/TreeTypeLoader.cs:71-78 | a target in (0, total] lies inside the chosen type's interval of running sums, so that type's weight is positive |
| TreeTypes.PickScalesDraw | Scripts/World/TreeTypeLoader.cs:62-68 | with a positive total the pick is the type chosen for draw × total |
| TreeTypes.TargetRange | Scripts/World/TreeTypeLoader.cs:68 | a draw in [0, 1] scales to a target in [0, total], and a positive draw to a positive target |
| TreeTypes.ZeroWeightNeverPicked | Scripts/World/TreeTypeLoader.cs:61-78 | for a draw in (0, 1] the target lies in (0, total], so a type of weight 0 is never picked |
| ToolManager.Initial | Scripts/Managers/ToolManager.cs:11 | the player starts with the hands |
| ToolManager.SetTool | Scripts/Managers/ToolManager.cs:13-25 | the tool is set, and ToolChanged fires exactly when the value differs |
| ToolManager.Requested | Scripts/Managers/ToolManager.cs:34-47 | a key-1 press asks for the hands and a key-2 press for the mower; nothing else asks for a tool |
| ToolManager.Input | Scripts/Managers/ToolManager.cs:34-47 | events that ask for no tool change nothing; a request goes through the setter |
| ToolManager.ToolName | Scripts/Managers/ToolManager.cs:49-57 | "Hands" exactly for the hands and "Mower" exactly for the mower |
| ToolManager.ToolNameRoundTrip | Scripts/Managers/ToolManager.cs:49-57 | a tool's name reads back as the tool |
| ToolManager.RunAnnouncesEveryChange | Scripts/Managers/ToolManager.cs:13-47 | over any input the tool ends where the last number key put it; every announcement is a real change; the last announcement names the final tool |
| ToolManager.LastRequestedCons | Scripts/Managers/ToolManager.cs:34-47 | the last requested tool can equally be computed from the front |
| TokenManager.Initial | Scripts/Auth/TokenManager.cs:5-11 | starts with empty tokens, not authenticated and not refreshing |
| TokenManager.SetTokens | Scripts/Auth/TokenManager.cs:18-23 | stores both tokens; authenticated exactly when the access token is non-empty |
| TokenManager.ClearTokens | Scripts/Auth/TokenManager.cs:25-30 | both tokens become empty and the user is signed out; the refreshing flag is kept |
| TokenManager.SetRefreshing | Scripts/Auth/TokenManager.cs:37-40 | sets the flag and leaves the tokens alone |
| TokenManager.RefreshingFlagIsLastSet | Scripts/Auth/TokenManager.cs:18-40 | after any run of operations the flag is the last value set, or the starting one |
| TokenManager.LastRefreshingCons | Scripts/Auth/TokenManager.cs:37-40 | the last value set can equally be computed from the front |
| TokenManager.ClearSignsOut | Scripts/Auth/TokenManager.cs:11-30 | clearing signs out whatever was set, and setting the same tokens twice is the same as once |
| CropManager.Initial | Scripts/Managers/CropManager.cs:12-13 | the cache starts empty and not loaded |
| CropManager.LoadAllCrops | Scripts/Managers/CropManager.cs:28-55 | skipped when already loaded or there is no API; a fetched list replaces the cache; a failed fetch changes nothing |
| CropManager.RotationFilteredCrops | Scripts/Managers/CropManager.cs:60-72 | empty until loaded, then the whole cached list for any plot |
| CropManager.ClearCache | Scripts/Managers/CropManager.cs:77-82 | the cache returns to its initial state |
| CropManager.LoadOnce | Scripts/Managers/CropManager.cs:28-72 | once loaded the cache never fetches again, and queries return the first fetched list |
| CropManager.ClearForgets | Scripts/Managers/CropManager.cs:60-82 | after a clear, queries answer empty and the next load fetches again |
| CropManager.CacheServesFirstFetchSinceClear | Scripts/Managers/CropManager.cs:28-82 | over any run of loads and clears, the cache holds the first successful fetch since the last clear, if there is one |
| BrushOverlay.Painted | Scripts/World/BrushOverlay.cs:244-257 | a stroke keeps the image's size |
| BrushOverlay.PaintDisc | Scripts/World/BrushOverlay.cs:244-257 | the scan paints exactly the disc pixels inside the image white and leaves every other pixel alone |
| BrushOverlay.PaintIsIdempotentAndCommutes | Scripts/World/BrushOverlay.cs:244-257 | painting twice is the same as once, and two strokes commute |
| BrushOverlay.SmallBrushes | Scripts/World/BrushOverlay.cs:242-257 | radius 0 paints at most the centre pixel, and a negative radius paints nothing |
| BrushOverlay.PixelOf | Scripts/World/BrushOverlay.cs:239-240 | a clamped coordinate scaled to n pixels and truncated is a pixel index in [0, n], and below n unless the coordinate is 1 |
| BrushOverlay.Centre | Scripts/World/BrushOverlay.cs:225-240 | the clamped centre lies in [0, width] × [0, height] |
| BrushOverlay.PaintAt | Scripts/World/BrushOverlay.cs:220-262 | a stroke at a garden position keeps the image valid and the same size |
| BrushOverlay.FarCornerStaysInImage | Scripts/World/BrushOverlay.cs:230-240 | at the far corner the centre is one past the image, and only the in-image part of the disc is painted |
| BrushOverlay.Initial | Scripts/World/BrushOverlay.cs:19-53 | the brush starts hidden and not painting |
| BrushOverlay.OnToolChanged | Scripts/World/BrushOverlay.cs:96-100 | the brush is visible exactly when the mower is chosen |
| BrushOverlay.PaintOverlay | Scripts/World/BrushOverlay.cs:220-262 | painting keeps the overlay valid and its image present |
| BrushOverlay.Input | Scripts/World/BrushOverlay.cs:166-187 | the guards ignore input; the left button sets painting to its pressed state, a press paints the stroke and a release leaves the image; motion paints the stroke while painting and nothing otherwise; keys change nothing |
| BrushOverlay.HandsNeverPaint | Scripts/World/BrushOverlay.cs:96-187 | the brush stays visible exactly while the mower is held; with the hands held and no key events, the image is never painted |
| BrushOverlay.Strokes | Scripts/World/BrushOverlay.cs:220-262 | painting a list of strokes in turn keeps the image valid and the same size |
| BrushOverlay.DragPaintsEveryStroke | Scripts/World/BrushOverlay.cs:166-187 | with the mower held and the button down, each motion paints its stroke, so a drag gives the image with every stroke painted in order; with the button up, motion changes nothing |
| InteractionOverlay.FanIndices | Scripts/UI/InteractionOverlay.cs:59-65 | 96 indices: triangle k is (0, k+1, next ring vertex), and every index is in 0..32 |
| InteractionOverlay.FanClosesRing | Scripts/UI/InteractionOverlay.cs:59-65 | every triangle has the centre, consecutive triangles share an edge, the last one closes the ring, and each ring vertex opens and closes exactly one triangle |
| InteractionOverlay.DiscVertices | Scripts/UI/InteractionOverlay.cs:42-73 | 33 vertices: the centre, then the ring at radius diameter/2, all on the ground plane |
| InteractionOverlay.DiscMesh | Scripts/UI/InteractionOverlay.cs:28-99 | every index names a vertex, and every triangle starts at the origin |
| InteractionOverlay.Initial | Scripts/UI/InteractionOverlay.cs:10-21 | the overlay starts hidden with the icon hidden, at diameter 0.1 |
| InteractionOverlay.ShowAt | Scripts/UI/InteractionOverlay.cs:209-219 | shows the overlay at the point, lifted to 0.1 when it is on or under the ground |
| InteractionOverlay.ShowAtIsStable | Scripts/UI/InteractionOverlay.cs:209-219 | showing again at the shown place is a no-op; any point under the ground is the same as ground level |
| InteractionOverlay.HideOverlay | Scripts/UI/InteractionOverlay.cs:224-227 | hides the overlay and changes nothing else |
| InteractionOverlay.UpdateIconPixelSize | Scripts/UI/InteractionOverlay.cs:146-165 | the icon is sized to 60% of the disc; without a sprite, without a texture, or with zero width nothing changes |
| InteractionOverlay.OnToolChangedDetailed | Scripts/UI/InteractionOverlay.cs:170-204 | the disc takes the tool's diameter; the icon shows exactly when its path is non-empty and it loads, sized to 60% of the disc |
| InteractionOverlay.LastToolChangeWins | Scripts/UI/InteractionOverlay.cs:170-204 | two tool changes end where the second alone would |
| Grass.RandomBarycentric | Scripts/World/GrassManager.cs:283-293 | the weights sum to 1; a pair beyond the diagonal is reflected; draws in [0, 1) give valid weights |
| Grass.SquareFoldsOntoTriangle | Scripts/World/GrassManager.cs:283-293 | a point inside the triangle comes both from itself and from its mirror pair |
| Grass.ConvexBetween | Scripts/World/GrassManager.cs:295-298 | a convex combination lies between its least and greatest values |
| Grass.FromBarycentricInBox | Scripts/World/GrassManager.cs:295-298 | with valid weights the point lies in the triangle's bounding box |
| Grass.CornersAreVertices | Scripts/World/GrassManager.cs:295-298 | the unit weights give back the three corners |
| Grass.BladeParamInRange | Scripts/World/GrassManager.cs:264-267 | a draw in [0, 1) gives a parameter in [lo, hi) |
| Grass.RoundHalfEven | Scripts/World/GrassManager.cs:239 | rounds to the nearest integer, ties to the even one |
| Grass.Blades | Scripts/World/GrassManager.cs:242-277 | a triangle gets exactly n blades |
| Grass.GenerateGrassSpawns | Scripts/World/GrassManager.cs:146-281 | the loop equals the triangle-by-triangle reference; a missing or mistyped mesh gives no grass |
| Grass.WellFormedNeverCrashes | Scripts/World/GrassManager.cs:217-278 | on a well-formed mesh the scan never throws, and makes round(area·density) blades per triangle |
| Grass.SpawnsLieOnTheirTriangles | Scripts/World/GrassManager.cs:242-251 | every blade is a barycentric combination of the corners of the triangle it was made for, and its normal the same combination of the corner normals |
| Grass.BladesLieOnTriangle | Scripts/World/GrassManager.cs:242-251 | every blade of one triangle is on that triangle, with weights from the fold of its two draws |
| Grass.OnTriangleInBox | Scripts/World/GrassManager.cs:242-248 | a blade on its triangle lies inside the triangle's bounding box |

## Left out

- I/O, logging, node lookups, scene building and rendering are not modelled. This covers meshes, materials, the sky renderer, the perimeter and the plot rectangles. None of it changes the modelled state.
- Floating point is modelled as `real`. Single-precision rounding is not modelled, so equalities such as `0.3048 × w` are exact here.
- `sin`/`cos`, `sqrt`, the quaternion blade rotation and normal normalisation are not computed. The sine and the ring's cosine/sine are parameters; the triangle area is a parameter.
- Grass.GenerateGrassSpawns: a spawn keeps its position and the interpolated normal. The random Y rotation and the four blade parameters are not attached to spawns; `Grass.BladeParamInRange` states their range separately. The normal is not normalised.
- Random draws, the host clock, `GetHashCode`, HTTP answers and resource loads are parameters.
- The asynchronous control flow is replaced by the sequence of state changes it performs. This covers `await`, frame yields and event subscription.
- TimeManager.MonthName: the month name uses the invariant culture's English names; culture-dependent formatting is not modelled. The throw for a date outside the supported range is the `None` result.
- PlotEvents.ListsAreOrderedPartition: the string comparer of `OrderBy` is an arbitrary total preorder, not the culture's collation.
- WorldManager.IsVegetablePlot: `ToLower` is ASCII lower-casing only.
- BrushOverlay.Centre: requires a non-zero garden width and depth. With a zero size the division in the source yields infinities or NaN, which `real` cannot express.
- BrushOverlay.Input: the brush position in the garden's frame is an input. The physics ray cast of `UpdateBrushPosition` and the inverse transform are not modelled.
- InteractionOverlay.OnToolChangedDetailed: the subscription to `ToolChangedDetailed` and `GetToolInfo` is not modelled, because `Scripts/Managers/ToolManager.cs` declares neither. The handler's tool, icon path and diameter are inputs.
- CropManager.RotationFilteredCrops: the source returns a fresh copy of the list. The model returns the same value; object identity is not modelled.
- TokenManager: `_Ready` only logs and is not modelled.
- CropManager.LoadAllCrops: `_isLoaded` is tested before the `await` and set only after it. Overlapping calls are not modelled: two of them both fetch and the later answer wins, and a `ClearCache` during a pending fetch is undone when the fetch completes. `CropManager.CacheServesFirstFetchSinceClear` holds only for calls that do not overlap.
- Grass.GenerateGrassSpawns: the model reads the three surface arrays once their variant types check. The source reads them through `AsGodotObject()` and `Call("size")`. The Godot binding is not part of this model; if it returns null for a packed-array variant, the source throws a null reference at that point for every well-typed mesh, and the model does not show that throw.
- WorldManager.UpdateAllTreesForSeason: the twig colour is set on every live tree. The source sets it only when the tree's twig material is, or duplicates to, a `StandardMaterial3D`; material types are not modelled.
- WorldManager: `OnDateChanged` only calls `UpdateAllTreesForSeason` on every DateChanged; the subscription is not modelled, and the update is the modelled member.
- CropSelection.LoadCrops: the two variants differ only in who creates the plot service. The menu creates it when missing; the view requires it. `ready` stands for that difference.
- Plot interaction menu reopening and the rest of `Scripts/UI/PlotInteractionMenu.cs` are not part of this model.
- WorldManager.LoadPlots: the plot list comes from the server as an input. A null list, which makes the source throw, is not modelled.
- TimeManager.Tick: a step of a day or more wraps only once, as in the source. Validity is proved only for steps shorter than a day (`TimeManager.TickKeepsValid`).

=== FILE: brush_overlay.dfy ===
/** BrushOverlay: the mower brush. While the mower is the tool in hand, a
    left-button drag paints white discs into the garden's growth image. The
    brush position in the garden's local frame (a physics ray cast in the
    game) is an input. */
module BrushOverlay {
  import opened Common
  import TM = ToolManager

  const White := Color(1.0, 1.0, 1.0)

  /** A Godot `Image`: `height` rows of `width` pixels. */
  datatype Image = Image(width: nat, height: nat, pixels: seq<seq<Color>>)
  {
    predicate Valid() {
      |pixels| == height && forall y :: 0 <= y < height ==> |pixels[y]| == width
    }
  }

  /** The pixel offset (dx, dy) from the centre lies in the brush disc of the
      given radius: inside the scanned square and the circle. */
  predicate InDisc(dx: int, dy: int, radius: int) {
    -radius <= dx <= radius && -radius <= dy <= radius && dx * dx + dy * dy <= radius * radius
  }

  /** The reference definition of a paint stroke: every pixel of the disc
      that lies in the image turns white, every other pixel keeps its
      colour. */
  function Painted(img: Image, cx: int, cy: int, radius: int): (r: Image)
    requires img.Valid()
    ensures r.Valid() && r.width == img.width && r.height == img.height
  {
    Image(img.width, img.height,
      seq(img.height, py requires 0 <= py < img.height =>
        seq(img.width, px requires 0 <= px < img.width =>
          if InDisc(px - cx, py - cy, radius) then White else img.pixels[py][px])))
  }

  /** The pixels the scan has reached once it is at offset (x, y): the rows
      above and the start of the current row. */
  predicate Scanned(dx: int, dy: int, x: int, y: int) {
    dy < y || (dy == y && dx < x)
  }

  /** The scan of `PaintAtPosition`: every offset of the square of side
      2·radius+1 around the centre, row by row, writing only pixels that are
      in the circle and inside the image. */
  method PaintDisc(img: Image, cx: int, cy: int, radius: int) returns (out: Image)
    requires img.Valid()
    ensures out == Painted(img, cx, cy, radius)
    ensures forall py, px :: 0 <= py < img.height && 0 <= px < img.width && !InDisc(px - cx, py - cy, radius) ==>
              out.pixels[py][px] == img.pixels[py][px]
  {
    out := img;
    var y := -radius;
    while y <= radius
      invariant out.Valid() && out.width == img.width && out.height == img.height
      invariant radius >= 0 ==> -radius <= y <= radius + 1
      invariant forall py, px :: 0 <= py < img.height && 0 <= px < img.width ==>
                  out.pixels[py][px] == (if InDisc(px - cx, py - cy, radius) && py - cy < y
                                         then White else img.pixels[py][px])
      decreases radius + 1 - y
    {
      var x := -radius;
      while x <= radius
        invariant out.Valid() && out.width == img.width && out.height == img.height
        invariant -radius <= x <= radius + 1
        invariant forall py, px :: 0 <= py < img.height && 0 <= px < img.width ==>
                    out.pixels[py][px] == (if InDisc(px - cx, py - cy, radius) && Scanned(px - cx, py - cy, x, y)
                                           then White else img.pixels[py][px])
        decreases radius + 1 - x
      {
        if x * x + y * y <= radius * radius {
          var px := cx + x;
          var py := cy + y;
          if 0 <= px < img.width && 0 <= py < img.height {
            assert InDisc(x, y, radius);
            out := out.(pixels := out.pixels[py := out.pixels[py][px := White]]);
          }
        }
        x := x + 1;
      }
      y := y + 1;
    }
    assert out.pixels == Painted(img, cx, cy, radius).pixels by {
      forall py | 0 <= py < img.height
        ensures out.pixels[py] == Painted(img, cx, cy, radius).pixels[py]
      {
        forall px | 0 <= px < img.width
          ensures out.pixels[py][px] == Painted(img, cx, cy, radius).pixels[py][px]
        {
        }
      }
    }
  }

  /** Painting is idempotent (the paint colour is fixed) and two strokes
      commute. */
  lemma PaintIsIdempotentAndCommutes(img: Image, cx: int, cy: int, r: int, dx: int, dy: int, s: int)
    requires img.Valid()
    ensures Painted(Painted(img, cx, cy, r), cx, cy, r) == Painted(img, cx, cy, r)
    ensures Painted(Painted(img, cx, cy, r), dx, dy, s) == Painted(Painted(img, dx, dy, s), cx, cy, r)
  {
    var once := Painted(img, cx, cy, r);
    var twice := Painted(once, cx, cy, r);
    forall py | 0 <= py < img.height
      ensures twice.pixels[py] == once.pixels[py]
    {
    }
    var ab := Painted(once, dx, dy, s);
    var ba := Painted(Painted(img, dx, dy, s), cx, cy, r);
    forall py | 0 <= py < img.height
      ensures ab.pixels[py] == ba.pixels[py]
    {
    }
  }

  /** A brush of radius 0 paints at most the centre pixel; a negative radius
      paints nothing. */
  lemma SmallBrushes(img: Image, cx: int, cy: int, r: int)
    requires img.Valid()
    requires r <= 0
    ensures forall py, px :: 0 <= py < img.height && 0 <= px < img.width && (px != cx || py != cy || r < 0) ==>
              Painted(img, cx, cy, r).pixels[py][px] == img.pixels[py][px]
  {
    forall py, px | 0 <= py < img.height && 0 <= px < img.width && (px != cx || py != cy || r < 0)
      ensures Painted(img, cx, cy, r).pixels[py][px] == img.pixels[py][px]
    {
      assert !InDisc(px - cx, py - cy, r);
    }
  }

  /** A coordinate in [0, 1] scaled to `n` pixels and truncated toward
      zero: a pixel index in [0, n], and n only for the coordinate 1. */
  function PixelOf(u: real, n: nat): (k: int)
    requires 0.0 <= u <= 1.0
    ensures 0 <= k <= n
    ensures u < 1.0 && n > 0 ==> k < n
  {
    ScaleWithinUnitLeft(u, n as real);
    TruncWithin(u * n as real, n);
    Trunc(u * n as real)
  }

  /** The centre pixel of a brush at garden-local (x, z): the position is
      normalised to (u, v), clamped to the garden, and scaled to the image.
      On the far edges (u or v = 1) the centre is one past the last pixel. */
  function Centre(img: Image, width: real, depth: real, x: real, z: real): (c: (int, int))
    requires width != 0.0 && depth != 0.0
    ensures 0 <= c.0 <= img.width && 0 <= c.1 <= img.height
  {
    var u := Clamp((x + width / 2.0) / width, 0.0, 1.0);
    var v := Clamp((z + depth / 2.0) / depth, 0.0, 1.0);
    (PixelOf(u, img.width), PixelOf(v, img.height))
  }

  /** The brush radius in pixels: the brush size in garden units scaled to
      the image, truncated toward zero. */
  function Radius(img: Image, width: real, brushSize: real): int
    requires width != 0.0
  {
    Trunc(brushSize * img.width as real / width)
  }

  /** `PaintAtPosition`. */
  function PaintAt(img: Image, width: real, depth: real, brushSize: real, x: real, z: real): (r: Image)
    requires img.Valid()
    requires width != 0.0 && depth != 0.0
    ensures r.Valid() && r.width == img.width && r.height == img.height
  {
    var c := Centre(img, width, depth, x, z);
    Painted(img, c.0, c.1, Radius(img, width, brushSize))
  }

  /** At the far corner of the garden the centre is outside the image, yet
      the stroke still paints the in-image part of its disc and nothing
      else. */
  lemma FarCornerStaysInImage(img: Image, width: real, depth: real, brushSize: real)
    requires img.Valid() && width > 0.0 && depth > 0.0
    ensures Centre(img, width, depth, width, depth) == (img.width, img.height)
    ensures PaintAt(img, width, depth, brushSize, width, depth) == Painted(img, img.width, img.height, Radius(img, width, brushSize))
  {
    assert (width + width / 2.0) / width > 1.0;
    assert (depth + depth / 2.0) / depth > 1.0;
  }

  /** The brush node's state: whether it is shown, whether a drag is under
      way, and the growth image once the garden has supplied it. */
  datatype Overlay = Overlay(visible: bool, painting: bool, image: Option<Image>, hasGarden: bool)
  {
    predicate Valid() {
      image.Some? ==> image.value.Valid()
    }
  }

  /** The garden's size and the brush position in the garden's frame. */
  datatype Stroke = Stroke(width: real, depth: real, brushSize: real, x: real, z: real)

  function Initial(image: Option<Image>, hasGarden: bool): (o: Overlay)
    ensures !o.visible && !o.painting
  {
    Overlay(false, false, image, hasGarden)
  }

  /** `OnToolChanged`: the brush shows exactly while the mower is held. */
  function OnToolChanged(o: Overlay, tool: TM.ToolType): (r: Overlay)
    ensures r.visible <==> tool == TM.Mower
    ensures r == o.(visible := r.visible)
  {
    o.(visible := tool == TM.Mower)
  }

  function PaintOverlay(o: Overlay, s: Stroke): (r: Overlay)
    requires o.Valid() && o.image.Some?
    requires s.width != 0.0 && s.depth != 0.0
    ensures r.Valid() && r.image.Some?
  {
    o.(image := Some(PaintAt(o.image.value, s.width, s.depth, s.brushSize, s.x, s.z)))
  }

  /** `_Input`. `tool` is the tool manager's current tool, `None` when there
      is no tool manager. */
  function Input(o: Overlay, tool: Option<TM.ToolType>, e: TM.InputEvent, s: Stroke): (r: Overlay)
    requires o.Valid()
    requires s.width != 0.0 && s.depth != 0.0
    ensures r.Valid() && r.visible == o.visible && r.hasGarden == o.hasGarden
    ensures !o.visible || o.image.None? || !o.hasGarden || tool != Some(TM.Mower) ==> r == o
    ensures e.MouseButtonEvent? && e.button == TM.Left && o.visible && o.image.Some? && o.hasGarden && tool == Some(TM.Mower) ==>
              r.painting == e.pressed
    ensures !(e.MouseButtonEvent? && e.button == TM.Left) ==> r.painting == o.painting
    ensures e.MouseMotion? && !o.painting ==> r == o
    ensures e.OtherEvent? || e.KeyEvent? ==> r == o
    ensures o.visible && o.image.Some? && o.hasGarden && tool == Some(TM.Mower) ==>
              && (e.MouseButtonEvent? && e.button == TM.Left && e.pressed ==>
                    r.image == Some(PaintAt(o.image.value, s.width, s.depth, s.brushSize, s.x, s.z)))
              && (e.MouseButtonEvent? && e.button == TM.Left && !e.pressed ==> r.image == o.image)
              && (e.MouseMotion? && o.painting ==>
                    r.image == Some(PaintAt(o.image.value, s.width, s.depth, s.brushSize, s.x, s.z)))
  {
    if !o.visible || o.image.None? || !o.hasGarden then o
    else if tool != Some(TM.Mower) then o
    else match e
      case MouseButtonEvent(button, pressed) =>
        if button != TM.Left then o
        else
          var o1 := o.(painting := pressed);
          if pressed then PaintOverlay(o1, s) else o1
      case MouseMotion => if o.painting then PaintOverlay(o, s) else o
      case _ => o
  }

  /** A stroke the brush can paint: the garden has a non-zero size. */
  predicate Usable(s: Stroke) {
    s.width != 0.0 && s.depth != 0.0
  }

  /** The image after painting each stroke in turn: the reference a drag is
      measured against. */
  function Strokes(img: Image, ss: seq<Stroke>): (r: Image)
    requires img.Valid()
    requires forall i :: 0 <= i < |ss| ==> Usable(ss[i])
    ensures r.Valid() && r.width == img.width && r.height == img.height
    decreases |ss|
  {
    if ss == [] then img
    else
      assert Usable(ss[0]);
      Strokes(PaintAt(img, ss[0].width, ss[0].depth, ss[0].brushSize, ss[0].x, ss[0].z), ss[1..])
  }

  /** One mouse motion per stroke, fed to `Input` with the mower held. */
  function Motions(o: Overlay, ss: seq<Stroke>): (r: Overlay)
    requires o.Valid()
    requires forall i :: 0 <= i < |ss| ==> Usable(ss[i])
    ensures r.Valid()
    decreases |ss|
  {
    if ss == [] then o
    else
      assert Usable(ss[0]);
      Motions(Input(o, Some(TM.Mower), TM.MouseMotion, ss[0]), ss[1..])
  }

  /** A drag with the mower: once the left button is down, every motion
      paints its stroke, so the image is the reference with each stroke
      painted in order; after the button is released, motion changes
      nothing. */
  lemma {:induction false} DragPaintsEveryStroke(o: Overlay, ss: seq<Stroke>)
    requires o.Valid() && o.visible && o.image.Some? && o.hasGarden
    requires forall i :: 0 <= i < |ss| ==> Usable(ss[i])
    ensures o.painting ==> Motions(o, ss) == o.(image := Some(Strokes(o.image.value, ss)))
    ensures !o.painting ==> Motions(o, ss) == o
    decreases |ss|
  {
    if ss != [] {
      var o1 := Input(o, Some(TM.Mower), TM.MouseMotion, ss[0]);
      DragPaintsEveryStroke(o1, ss[1..]);
    }
  }

  /** Input on the brush follows the tool manager: over any run of events
      routed to both, while the hands are in use the growth image is never
      touched, and once the left button is released motion paints nothing
      until it is pressed again. */
  function RunInput(o: Overlay, t: TM.Tools, es: seq<TM.InputEvent>, s: Stroke): (r: (Overlay, TM.Tools))
    requires o.Valid()
    requires s.width != 0.0 && s.depth != 0.0
    ensures r.0.Valid()
    decreases |es|
  {
    if es == [] then (o, t)
    else
      var (t1, changes) := TM.Input(t, es[0]);
      var o1 := if changes == [] then o else OnToolChanged(o, changes[0]);
      var o2 := Input(o1, Some(t1.current), es[0], s);
      RunInput(o2, t1, es[1..], s)
  }

  /** A listener that has seen every change agrees with the tool manager:
      the brush is visible iff the mower is held. With the hands held the
      image is never painted, whatever the events. */
  lemma {:induction false} HandsNeverPaint(o: Overlay, t: TM.Tools, es: seq<TM.InputEvent>, s: Stroke)
    requires o.Valid() && s.width != 0.0 && s.depth != 0.0
    requires o.visible <==> t.current == TM.Mower
    ensures RunInput(o, t, es, s).0.visible <==> RunInput(o, t, es, s).1.current == TM.Mower
    ensures TM.LastRequested(t.current, es) == TM.Hands ==> !RunInput(o, t, es, s).0.visible
    ensures t.current == TM.Hands && (forall e :: e in es ==> !e.KeyEvent?) ==> RunInput(o, t, es, s).0.image == o.image
    decreases |es|
  {
    TM.RunAnnouncesEveryChange(t, es);
    if es != [] {
      var (t1, changes) := TM.Input(t, es[0]);
      var o1 := if changes == [] then o else OnToolChanged(o, changes[0]);
      var o2 := Input(o1, Some(t1.current), es[0], s);
      HandsNeverPaint(o2, t1, es[1..], s);
      TM.LastRequestedCons(t.current, es);
      RunToolsIsRun(o, t, es, s);
    } else {
      RunToolsIsRun(o, t, es, s);
    }
  }

  /** The tool state `RunInput` ends in is the tool manager's own run. */
  lemma {:induction false} RunToolsIsRun(o: Overlay, t: TM.Tools, es: seq<TM.InputEvent>, s: Stroke)
    requires o.Valid() && s.width != 0.0 && s.depth != 0.0
    ensures RunInput(o, t, es, s).1 == TM.Run(t, es).0
    decreases |es|
  {
    if es != [] {
      var (t1, changes) := TM.Input(t, es[0]);
      var o1 := if changes == [] then o else OnToolChanged(o, changes[0]);
      var o2 := Input(o1, Some(t1.current), es[0], s);
      RunToolsIsRun(o2, t1, es[1..], s);
    }
  }
}

=== FILE: common.dfy ===
/** Shared vocabulary of the garden client model: optional values, the engine's
    numeric helpers (clamp, lerp, truncating casts) and the decimal formatting
    that the C# string interpolations perform. */
module Common {

  /** A value that may be absent: the model of a C# null reference or a
      nullable value type. */
  datatype Option<+T> = None | Some(value: T)

  /** `string.IsNullOrEmpty` */
  predicate IsNullOrEmpty(s: Option<string>) {
    s.None? || s.value == ""
  }

  /** A colour as three real channels (alpha is always 1 where it is used). */
  datatype Color = Color(r: real, g: real, b: real)

  /** A 3-component vector. */
  datatype Vec3 = Vec3(x: real, y: real, z: real)

  function Min(a: real, b: real): real { if a <= b then a else b }
  function Max(a: real, b: real): real { if a <= b then b else a }

  /** `Mathf.Clamp(value, min, max)`: below the range gives min, above gives max. */
  function Clamp(x: real, lo: real, hi: real): (r: real)
    ensures lo <= hi ==> lo <= r <= hi
    ensures lo <= x <= hi ==> r == x
    ensures x < lo ==> r == lo
    ensures lo <= hi && hi < x ==> r == hi
  {
    if x < lo then lo else if x > hi then hi else x
  }

  /** `Mathf.Lerp(from, to, weight)`: unclamped linear interpolation. */
  function Lerp(a: real, b: real, t: real): (r: real)
    ensures t == 0.0 ==> r == a
    ensures t == 1.0 ==> r == b
    ensures 0.0 <= t <= 1.0 ==> Min(a, b) <= r <= Max(a, b)
  {
    if 0.0 <= t <= 1.0 then ScaleWithin(b - a, t); a + (b - a) * t
    else a + (b - a) * t
  }

  /** Scaling by a weight in [0,1] stays between 0 and the scaled value. */
  lemma ScaleWithin(d: real, t: real)
    requires 0.0 <= t <= 1.0
    ensures Min(0.0, d) <= d * t <= Max(0.0, d)
  {
    if d >= 0.0 {
      assert d * t <= d * 1.0;
    } else {
      assert (-d) * t <= (-d) * 1.0;
    }
  }

  /** The product of two non-negative reals is non-negative. */
  lemma MulNonNegative(a: real, b: real)
    requires a >= 0.0 && b >= 0.0
    ensures a * b >= 0.0
  {
  }

  /** The product of two positive reals is positive. */
  lemma MulPositive(a: real, b: real)
    requires a > 0.0 && b > 0.0
    ensures a * b > 0.0
  {
  }

  /** Scaling a non-negative value `n` by a factor `u` in [0, 1] keeps it
      between 0 and `n`. */
  lemma ScaleWithinUnit(n: real, u: real)
    requires n >= 0.0 && 0.0 <= u <= 1.0
    ensures 0.0 <= n * u <= n
  {
    MulNonNegative(n, u);
    MulNonNegative(n, 1.0 - u);
    assert n * (1.0 - u) == n - n * u;
  }

  /** A factor of 1 keeps a value unchanged. */
  lemma MulOne(n: real, u: real)
    requires u == 1.0
    ensures n * u == n
  {
  }

  /** `ScaleWithinUnit` with the factor written first; a factor below 1
      keeps a positive value strictly below itself. */
  lemma ScaleWithinUnitLeft(u: real, n: real)
    requires n >= 0.0 && 0.0 <= u <= 1.0
    ensures 0.0 <= u * n <= n
    ensures u < 1.0 && n > 0.0 ==> u * n < n
  {
    MulNonNegative(u, n);
    MulNonNegative(1.0 - u, n);
    assert (1.0 - u) * n == n - u * n;
    if u < 1.0 && n > 0.0 {
      MulPositive(1.0 - u, n);
    }
  }

  /** A share `u` of an amount `n`. */
  function Scale(u: real, n: real): real {
    u * n
  }

  /** A share in [0, 1] of a positive amount lies in [0, n], and is positive
      for a positive share. */
  lemma ScaleBounds(u: real, n: real)
    requires n > 0.0 && 0.0 <= u <= 1.0
    ensures 0.0 <= Scale(u, n) <= n
    ensures u > 0.0 ==> Scale(u, n) > 0.0
  {
    ScaleWithinUnitLeft(u, n);
    if u > 0.0 {
      MulPositive(u, n);
    }
  }

  /** Shares of `w` in proportion to `a` and `b` add back up to `w`. */
  lemma SharesSum(w: real, a: real, b: real)
    requires a + b > 0.0
    ensures w * a / (a + b) + w * b / (a + b) == w
  {
    var s := a + b;
    assert w * a / s + w * b / s == (w * a + w * b) / s;
    assert w * a + w * b == w * s;
  }

  /** `Color.Lerp`: channel-wise linear interpolation. */
  function LerpColor(c: Color, d: Color, t: real): (r: Color)
    ensures t == 0.0 ==> r == c
    ensures t == 1.0 ==> r == d
  {
    Color(Lerp(c.r, d.r, t), Lerp(c.g, d.g, t), Lerp(c.b, d.b, t))
  }

  /** A C# cast `(int)x` of a floating value: rounds toward zero. */
  function Trunc(x: real): (r: int)
    ensures 0.0 <= x ==> 0 <= r && r as real <= x < r as real + 1.0
    ensures x < 0.0 ==> r <= 0 && r as real - 1.0 < x <= r as real
  {
    if x >= 0.0 then x.Floor else -((-x).Floor)
  }

  /** Truncating a value in [0, n] gives an integer in [0, n], below n when
      the value is. */
  lemma TruncWithin(x: real, n: int)
    requires 0.0 <= x <= n as real
    ensures 0 <= Trunc(x) <= n
    ensures x < n as real ==> Trunc(x) < n
  {
  }

  /** C#'s floating `%`: the remainder takes the sign of the dividend. */
  function FMod(x: real, m: real): real
    requires m != 0.0
  {
    x - m * (Trunc(x / m) as real)
  }

  /** C#'s integer `%` (truncated division): the remainder takes the sign of
      the dividend, unlike Dafny's Euclidean `%`. */
  function IntRem(a: int, m: int): (r: int)
    requires m > 0
    ensures -m < r < m
    ensures a >= 0 ==> r >= 0 && r == a % m
    ensures a < 0 ==> r <= 0 && r == -((-a) % m)
  {
    if a >= 0 then a % m else -((-a) % m)
  }

  const Int32Min: int := -0x8000_0000
  const Int32Max: int := 0x7FFF_FFFF

  predicate IsInt32(x: int) { Int32Min <= x <= Int32Max }

  /** Two's-complement wrap-around of an unchecked C# `int` addition. */
  function Wrap32(x: int): (r: int)
    ensures IsInt32(r)
    ensures IsInt32(x) ==> r == x
  {
    (x - Int32Min) % 0x1_0000_0000 + Int32Min
  }

  function DigitChar(d: int): char
    requires 0 <= d < 10
  {
    ('0' as int + d) as char
  }

  predicate IsDigit(c: char) { '0' <= c <= '9' }

  function DigitValue(c: char): int
    requires IsDigit(c)
  {
    c as int - '0' as int
  }

  /** The decimal representation of a natural number (no leading zeros). */
  function NatToString(n: nat): (s: string)
    ensures |s| >= 1
    ensures forall i :: 0 <= i < |s| ==> IsDigit(s[i])
    ensures n < 10 <==> |s| == 1
  {
    if n < 10 then [DigitChar(n)] else NatToString(n / 10) + [DigitChar(n % 10)]
  }

  /** `int.ToString()`: decimal with a leading minus sign for negatives. */
  function IntToString(i: int): (s: string)
    ensures |s| >= 1
    ensures i < 0 <==> s[0] == '-'
  {
    if i < 0 then "-" + NatToString(-i) else NatToString(i)
  }

  /** Reads back a string of decimal digits. */
  function ParseDigits(s: string): nat
    requires forall i :: 0 <= i < |s| ==> IsDigit(s[i])
  {
    if s == [] then 0 else 10 * ParseDigits(s[..|s| - 1]) + DigitValue(s[|s| - 1])
  }

  /** Formatting a natural number and reading it back gives the number. */
  lemma {:induction false} ParseNatToString(n: nat)
    ensures ParseDigits(NatToString(n)) == n
  {
    if n >= 10 {
      var s := NatToString(n);
      assert s[..|s| - 1] == NatToString(n / 10);
      ParseNatToString(n / 10);
    }
  }

  /** The `D2` format of a non-negative number: at least two digits. */
  function Pad2(n: nat): (s: string)
    ensures |s| >= 2
    ensures forall i :: 0 <= i < |s| ==> IsDigit(s[i])
    ensures n < 100 ==> |s| == 2 && s == [DigitChar(n / 10), DigitChar(n % 10)]
  {
    if n < 10 then "0" + NatToString(n)
    else
      assert n < 100 ==> NatToString(n) == NatToString(n / 10) + [DigitChar(n % 10)];
      NatToString(n)
  }

  /** `{x:D2}` for any int: negatives keep their sign in front of the padding. */
  function D2(i: int): string {
    if i < 0 then "-" + Pad2(-i) else Pad2(i)
  }

  /** ASCII lower-casing, standing for `ToLower()` on the texts compared here. */
  function ToLower(s: string): (r: string)
    ensures |r| == |s|
    ensures forall i :: 0 <= i < |s| ==> r[i] == (if 'A' <= s[i] <= 'Z' then (s[i] as int + 32) as char else s[i])
  {
    if s == [] then [] else
      var c := s[0];
      [if 'A' <= c <= 'Z' then (c as int + 32) as char else c] + ToLower(s[1..])
  }

  /** `string.Contains(sub)` */
  predicate Contains(s: string, sub: string) {
    exists i :: 0 <= i <= |s| - |sub| && OccursAt(s, sub, i)
  }

  predicate OccursAt(s: string, sub: string, i: int)
    requires 0 <= i <= |s| - |sub|
  {
    s[i..i + |sub|] == sub
  }
}

=== FILE: crop_manager.dfy ===
/** CropManager: a cache of every crop the API knows, fetched once. The
    fetch result is an input: `None` is a failed or null response. */
module CropManager {
  import opened Common
  import CS = CropSelection

  datatype Cache = Cache(crops: seq<CS.Crop>, loaded: bool)

  function Initial(): (c: Cache)
    ensures !c.loaded && c.crops == []
  {
    Cache([], false)
  }

  /** `LoadAllCropsAsync`: skipped when the cache is already loaded or there
      is no API client; a fetched list replaces the cache and marks it
      loaded, a failed fetch leaves everything as it was. */
  function LoadAllCrops(c: Cache, hasApi: bool, fetched: Option<seq<CS.Crop>>): (r: Cache)
    ensures c.loaded || !hasApi || fetched.None? ==> r == c
    ensures !c.loaded && hasApi && fetched.Some? ==> r == Cache(fetched.value, true)
  {
    if c.loaded then c
    else if !hasApi then c
    else match fetched
      case None => c
      case Some(crops) => Cache(crops, true)
  }

  /** Whether `LoadAllCrops` asks the API at all. */
  predicate Fetches(c: Cache, hasApi: bool) {
    !c.loaded && hasApi
  }

  /** `GetRotationFilteredCrops`: no filtering yet, so the plot, year and
      group are ignored; nothing until the cache is loaded. */
  function RotationFilteredCrops(c: Cache, plotUuid: string, year: int, plotGroupUuid: Option<string>): (r: seq<CS.Crop>)
    ensures !c.loaded ==> r == []
    ensures c.loaded ==> r == c.crops
  {
    if !c.loaded then [] else c.crops
  }

  function ClearCache(c: Cache): (r: Cache)
    ensures r == Initial()
  {
    Cache([], false)
  }

  /** Once loaded the cache never fetches again until cleared: loading is
      idempotent whatever a second fetch would return, and a load followed by
      a query gives back exactly the fetched list for any plot. */
  lemma LoadOnce(c: Cache, hasApi: bool, first: seq<CS.Crop>, second: Option<seq<CS.Crop>>,
                 plotUuid: string, year: int, plotGroupUuid: Option<string>)
    requires Fetches(c, hasApi)
    ensures var l := LoadAllCrops(c, hasApi, Some(first));
            && !Fetches(l, hasApi)
            && LoadAllCrops(l, hasApi, second) == l
            && RotationFilteredCrops(l, plotUuid, year, plotGroupUuid) == first
  {
  }

  /** Clearing makes the cache fetch again and answer with nothing until it
      has. */
  lemma ClearForgets(c: Cache, hasApi: bool, plotUuid: string, year: int, plotGroupUuid: Option<string>)
    ensures RotationFilteredCrops(ClearCache(c), plotUuid, year, plotGroupUuid) == []
    ensures Fetches(ClearCache(c), hasApi) <==> hasApi
  {
  }

  /** The calls a session makes on the cache. */
  datatype Op = Load(hasApi: bool, fetched: Option<seq<CS.Crop>>) | Clear

  function Apply(c: Cache, op: Op): Cache {
    match op
    case Load(a, f) => LoadAllCrops(c, a, f)
    case Clear => ClearCache(c)
  }

  function ApplyAll(c: Cache, ops: seq<Op>): Cache
    decreases |ops|
  {
    if ops == [] then c else ApplyAll(Apply(c, ops[0]), ops[1..])
  }

  /** The reference definition: the first successful fetch after the last
      clear, if there is one. */
  function Served(ops: seq<Op>): Option<seq<CS.Crop>>
    decreases |ops|
  {
    if ops == [] then None
    else
      var prev := Served(ops[..|ops| - 1]);
      var last := ops[|ops| - 1];
      if last.Clear? then None
      else if prev.Some? then prev
      else if last.hasApi && last.fetched.Some? then last.fetched
      else None
  }

  /** The query answers with a list only if a fetch succeeded: over any run
      of loads and clears from the empty cache, the answer is the list of the
      first successful fetch since the last clear. */
  lemma {:induction false} CacheServesFirstFetchSinceClear(ops: seq<Op>)
    ensures ApplyAll(Initial(), ops).loaded <==> Served(ops).Some?
    ensures Served(ops).Some? ==> ApplyAll(Initial(), ops).crops == Served(ops).value
    ensures Served(ops).None? ==> ApplyAll(Initial(), ops) == Initial()
    decreases |ops|
  {
    if ops != [] {
      var init := ops[..|ops| - 1];
      CacheServesFirstFetchSinceClear(init);
      ApplyAllSnoc(Initial(), init, ops[|ops| - 1]);
      assert init + [ops[|ops| - 1]] == ops;
    }
  }

  lemma {:induction false} ApplyAllSnoc(c: Cache, ops: seq<Op>, op: Op)
    ensures ApplyAll(c, ops + [op]) == Apply(ApplyAll(c, ops), op)
    decreases |ops|
  {
    if ops != [] {
      assert (ops + [op])[1..] == ops[1..] + [op];
      ApplyAllSnoc(Apply(c, ops[0]), ops[1..], op);
    }
  }
}

=== FILE: crop_selection.dfy ===
/** The crop picker, which exists twice with the same logic: CropSelectionView
    (embedded in the plot menu) and CropSelectionMenu (a submenu). Both rank
    the suitable crops, label one button per crop, and build the same planting
    request. The shared logic is defined once; the menu's own state machine
    (open, back, hide) comes at the end. */
module CropSelection {
  import opened Common
  import opened Sorting

  /** The fields of a `Crop` the picker reads; `family` is the crop family's name. */
  datatype Crop = Crop(uuid: string, name: string, family: Option<string>, rotationGroup: string)

  datatype Suitability = Suitability(crop: Crop, allowed: bool, score: Option<int>, soil: string)

  /** `RotationScore ?? 0` */
  function ScoreKey(s: Suitability): int {
    match s.score case None => 0 case Some(n) => n
  }

  /** `OrderByDescending(RotationAllowed).ThenByDescending(RotationScore ?? 0)`
      as one comparer: allowed before disallowed, then higher score first. */
  function Rank(): (Suitability, Suitability) -> bool {
    (a: Suitability, b: Suitability) =>
      (a.allowed && !b.allowed) || (a.allowed == b.allowed && ScoreKey(a) >= ScoreKey(b))
  }

  lemma RankIsPreorder()
    ensures TotalPreorder(Rank())
  {
    var le := Rank();
    forall a, b ensures le(a, b) || le(b, a) {
      assert (a.allowed && !b.allowed) || (b.allowed && !a.allowed) || a.allowed == b.allowed;
    }
    forall a, b, c | le(a, b) && le(b, c) ensures le(a, c) {
      assert ScoreKey(a) >= ScoreKey(b) || a.allowed != b.allowed;
    }
  }

  function Ranked(list: seq<Suitability>): seq<Suitability> {
    Sort(list, Rank())
  }

  /** The ranking puts every allowed crop before every disallowed one, orders
      each group by descending score (a missing score counting as 0), keeps
      equal crops in their input order, and drops or adds nothing. */
  lemma RankingOrder(list: seq<Suitability>)
    ensures var r := Ranked(list);
            && multiset(r) == multiset(list)
            && (forall i, j :: 0 <= i < j < |r| && r[j].allowed ==> r[i].allowed)
            && (forall i, j :: 0 <= i < j < |r| && r[i].allowed == r[j].allowed ==> ScoreKey(r[i]) >= ScoreKey(r[j]))
            && (forall c :: Ties(r, c, Rank()) == Ties(list, c, Rank()))
  {
    RankIsPreorder();
    SortIsStableOrdering(list, Rank());
    var r := Ranked(list);
    forall i, j | 0 <= i < j < |r|
      ensures r[j].allowed ==> r[i].allowed
      ensures r[i].allowed == r[j].allowed ==> ScoreKey(r[i]) >= ScoreKey(r[j])
    {
      assert Rank()(r[i], r[j]);
    }
  }

  /** `FormatCropButtonText(crop, suitability)` */
  function Label(crop: Crop, suitability: Option<Suitability>): (r: string)
    ensures |r| >= |crop.name| && r[..|crop.name|] == crop.name
    ensures (crop.family.None? && (crop.rotationGroup == "" || crop.rotationGroup == "misc")
             && suitability.None?) ==> r == crop.name
    ensures (crop.family.None? && crop.rotationGroup != "" && crop.rotationGroup != "misc"
             && suitability.None?) ==> r == crop.name + " [" + crop.rotationGroup + "]"
  {
    var family := match crop.family case None => "" case Some(f) => " (" + f + ")";
    var group := if crop.rotationGroup != "" && crop.rotationGroup != "misc" then " [" + crop.rotationGroup + "]" else "";
    var extra := match suitability
      case None => ""
      case Some(s) =>
        (match s.score case None => "" case Some(n) => " Score: " + IntToString(n))
        + (if s.soil == "" then "" else " Soil: " + s.soil);
    assert (crop.name + family + group + extra)[..|crop.name|] == crop.name;
    crop.name + family + group + extra
  }

  /** The suffix a label carries after the crop name: the family in
      parentheses, a rotation group other than "misc" in brackets, then the
      score and soil indicator when present. */
  lemma LabelParts(crop: Crop, s: Suitability)
    ensures var r := Label(crop, Some(s));
            && (crop.family.Some? && crop.rotationGroup == "misc" && s.score.None? && s.soil == "" ==>
                  r == crop.name + " (" + crop.family.value + ")")
            && (crop.family.None? && crop.rotationGroup == "misc" && s.soil == "" && s.score.Some? ==>
                  r == crop.name + " Score: " + IntToString(s.score.value))
            && (crop.family.None? && crop.rotationGroup == "" && s.score.None? && s.soil != "" ==>
                  r == crop.name + " Soil: " + s.soil)
            && (crop.family.None? && crop.rotationGroup != "" && crop.rotationGroup != "misc"
                && s.score.None? && s.soil == "" ==>
                  r == crop.name + " [" + crop.rotationGroup + "]")
            && (crop.family.Some? && crop.rotationGroup != "" && crop.rotationGroup != "misc"
                && s.score.Some? && s.soil != "" ==>
                  r == crop.name + (" (" + crop.family.value + ")") + (" [" + crop.rotationGroup + "]")
                       + (" Score: " + IntToString(s.score.value)) + (" Soil: " + s.soil))
  {
    // One case per clause, so that each is proved on its own.
    if crop.family.Some? && crop.rotationGroup == "misc" && s.score.None? && s.soil == "" {
    } else if crop.family.None? && crop.rotationGroup == "misc" && s.soil == "" && s.score.Some? {
    } else if crop.family.None? && crop.rotationGroup == "" && s.score.None? && s.soil != "" {
    } else if crop.family.None? && crop.rotationGroup != "" && crop.rotationGroup != "misc"
              && s.score.None? && s.soil == "" {
    } else if crop.family.Some? && crop.rotationGroup != "" && crop.rotationGroup != "misc"
              && s.score.Some? && s.soil != "" {
      AllPartsInOrder(crop, s);
    }
  }

  /** With a family, a real group, a score and a soil indicator, the label
      carries all four after the name, in that order. */
  lemma AllPartsInOrder(crop: Crop, s: Suitability)
    requires crop.family.Some? && crop.rotationGroup != "" && crop.rotationGroup != "misc"
    requires s.score.Some? && s.soil != ""
    ensures Label(crop, Some(s)) == crop.name + (" (" + crop.family.value + ")") + (" [" + crop.rotationGroup + "]")
                                    + (" Score: " + IntToString(s.score.value)) + (" Soil: " + s.soil)
  {
    var head := crop.name + (" (" + crop.family.value + ")") + (" [" + crop.rotationGroup + "]");
    var score := " Score: " + IntToString(s.score.value);
    var soil := " Soil: " + s.soil;
    assert Label(crop, Some(s)) == head + (score + soil);
    assert head + (score + soil) == head + score + soil;
  }

  /** The clock's month and year, when a clock is present. */
  datatype ClockDate = ClockDate(month: int, year: int)

  /** `GetCurrentDate`: "{year}-{month:D2}-01" from the clock; without a clock
      the system date, given here as `today`. */
  function CurrentDate(clock: Option<ClockDate>, today: string): (r: string)
    ensures clock.None? ==> r == today
    ensures clock.Some? && 1 <= clock.value.month <= 12 && clock.value.year >= 0 ==>
              |r| == |NatToString(clock.value.year)| + 6 && r[|r| - 3..] == "-01"
  {
    match clock
    case None => today
    case Some(c) => IntToString(c.year) + "-" + D2(c.month) + "-01"
  }

  /** The date string reads back as the clock's year and month. */
  lemma CurrentDateRoundTrip(month: int, year: nat, today: string)
    requires 1 <= month <= 12
    ensures var r := CurrentDate(Some(ClockDate(month, year)), today);
            var n := |r| - 6;
            && (forall i :: 0 <= i < n ==> IsDigit(r[i]))
            && ParseDigits(r[..n]) == year
            && r[n] == '-' && r[n + 3] == '-'
            && IsDigit(r[n + 1]) && IsDigit(r[n + 2])
            && 10 * DigitValue(r[n + 1]) + DigitValue(r[n + 2]) == month
  {
    var r := CurrentDate(Some(ClockDate(month, year)), today);
    var y := NatToString(year);
    assert r == y + "-" + Pad2(month) + "-01";
    assert r[..|y|] == y;
    ParseNatToString(year);
  }

  /** The planting request body: a map with exactly the four keys the
      server expects, or `None` when a UUID is missing and nothing is sent. */
  function PlantRequest(plotUuid: Option<string>, gardenUuid: Option<string>, crop: Crop, date: string): (r: Option<map<string, string>>)
    ensures r.Some? <==> !IsNullOrEmpty(plotUuid) && !IsNullOrEmpty(gardenUuid)
    ensures r.Some? ==> r.value.Keys == {"plot_uuid", "crop_uuid", "date_planted", "method"}
    ensures r.Some? ==> r.value["plot_uuid"] == plotUuid.value && r.value["crop_uuid"] == crop.uuid
                        && r.value["date_planted"] == date && r.value["method"] == "direct_sowing"
  {
    if IsNullOrEmpty(plotUuid) || IsNullOrEmpty(gardenUuid) then None
    else Some(map["plot_uuid" := plotUuid.value, "crop_uuid" := crop.uuid,
                  "date_planted" := date, "method" := "direct_sowing"])
  }

  /** What the crop list shows. */
  datatype CropList = Cleared | NoCrops | Buttons(crops: seq<Suitability>, labels: seq<string>)

  /** `LoadCropsAsync` (view) and `LoadCrops` (menu): `ready` stands for the
      list container and plot service being present. The guards return before
      the list is touched; `fetched` is the server's answer. */
  function LoadCrops(list: CropList, ready: bool, plotUuid: Option<string>, hasClock: bool,
                     fetched: Option<seq<Suitability>>): (r: CropList)
    ensures !ready || IsNullOrEmpty(plotUuid) || !hasClock ==> r == list
    ensures ready && !IsNullOrEmpty(plotUuid) && hasClock ==>
              && ((fetched.None? || fetched.value == []) <==> r == NoCrops)
              && (fetched.Some? && fetched.value != [] ==> r.Buttons? && r.crops == Ranked(fetched.value))
              && (r.Buttons? ==> |r.crops| == |r.labels| == |fetched.value|
                                 && multiset(r.crops) == multiset(fetched.value)
                                 && forall i :: 0 <= i < |r.crops| ==> r.labels[i] == Label(r.crops[i].crop, Some(r.crops[i])))
  {
    if !ready || IsNullOrEmpty(plotUuid) || !hasClock then list
    else if fetched.None? || |fetched.value| == 0 then NoCrops
    else
      var ranked := Ranked(fetched.value);
      Buttons(ranked, seq(|ranked|, i requires 0 <= i < |ranked| => Label(ranked[i].crop, Some(ranked[i]))))
  }

  /** A non-empty answer shows one labelled button per suitability, allowed
      crops first, each group by descending score, ties in the server's
      order. */
  lemma ButtonsAreRanked(list: CropList, plotUuid: Option<string>, fetched: seq<Suitability>)
    requires !IsNullOrEmpty(plotUuid) && fetched != []
    ensures var r := LoadCrops(list, true, plotUuid, true, Some(fetched));
            && r.Buttons?
            && multiset(r.crops) == multiset(fetched)
            && (forall i, j :: 0 <= i < j < |r.crops| && r.crops[j].allowed ==> r.crops[i].allowed)
            && (forall i, j :: 0 <= i < j < |r.crops| && r.crops[i].allowed == r.crops[j].allowed ==>
                  ScoreKey(r.crops[i]) >= ScoreKey(r.crops[j]))
            && (forall c :: Ties(r.crops, c, Rank()) == Ties(fetched, c, Rank()))
  {
    RankingOrder(fetched);
  }

  /** The view's crop button: the request to send, and whether the view then
      signals "back" (only after the server confirms the planting). */
  function ViewSelect(plotUuid: Option<string>, gardenUuid: Option<string>, crop: Crop,
                      clock: Option<ClockDate>, today: string, planted: bool): (r: (Option<map<string, string>>, bool))
    ensures r.1 <==> r.0.Some? && planted
    ensures r.0 == PlantRequest(plotUuid, gardenUuid, crop, CurrentDate(clock, today))
  {
    var req := PlantRequest(plotUuid, gardenUuid, crop, CurrentDate(clock, today));
    (req, req.Some? && planted)
  }

  /** The state CropSelectionMenu keeps between calls. */
  datatype Menu = Menu(visible: bool, isOpen: bool, plotUuid: Option<string>, gardenUuid: Option<string>,
                       plotGroupUuid: Option<string>, list: CropList)

  /** `OpenForPlot`: refuses a missing plot or garden UUID without touching
      anything; otherwise stores the three UUIDs, shows the submenu and loads
      the crops (the menu creates its plot service when missing, so only the
      container and the clock can stop the load). */
  function OpenForPlot(m: Menu, plotUuid: Option<string>, gardenUuid: Option<string>, plotGroupUuid: Option<string>,
                       hasContainer: bool, hasClock: bool, fetched: Option<seq<Suitability>>): (r: Menu)
    ensures IsNullOrEmpty(plotUuid) || IsNullOrEmpty(gardenUuid) ==> r == m
    ensures !IsNullOrEmpty(plotUuid) && !IsNullOrEmpty(gardenUuid) ==>
              && r.plotUuid == plotUuid && r.gardenUuid == gardenUuid && r.plotGroupUuid == plotGroupUuid
              && r.visible && r.isOpen
              && r.list == LoadCrops(m.list, hasContainer, plotUuid, hasClock, fetched)
  {
    if IsNullOrEmpty(plotUuid) || IsNullOrEmpty(gardenUuid) then m
    else
      var shown := m.(plotUuid := plotUuid, gardenUuid := gardenUuid, plotGroupUuid := plotGroupUuid,
                       visible := true, isOpen := true);
      shown.(list := LoadCrops(m.list, hasContainer, plotUuid, hasClock, fetched))
  }

  /** `OnBackPressed`: hides the submenu and marks it closed; nothing else. */
  function BackPressed(m: Menu): (r: Menu)
    ensures !r.visible && !r.isOpen
    ensures r.plotUuid == m.plotUuid && r.gardenUuid == m.gardenUuid && r.list == m.list
  {
    m.(visible := false, isOpen := false)
  }

  /** `HideMenu`: closes the menu and clears the crop buttons, keeping the
      UUIDs for a reopen. */
  function HideMenu(m: Menu): (r: Menu)
    ensures !r.visible && !r.isOpen && r.list == Cleared
    ensures r.plotUuid == m.plotUuid && r.gardenUuid == m.gardenUuid && r.plotGroupUuid == m.plotGroupUuid
  {
    m.(visible := false, isOpen := false, list := Cleared)
  }

  /** The menu's crop button: the same guard as the view plus a present plot
      service; a confirmed planting hides the submenu (without clearing the
      open flag, as the source does). */
  function MenuSelect(m: Menu, hasService: bool, crop: Crop, clock: Option<ClockDate>, today: string,
                      planted: bool): (r: (Menu, Option<map<string, string>>))
    ensures !hasService ==> r == (m, None)
    ensures hasService ==> r.1 == PlantRequest(m.plotUuid, m.gardenUuid, crop, CurrentDate(clock, today))
    ensures r.0 == m || r.0 == m.(visible := false)
    ensures r.0 != m ==> r.1.Some? && planted
    ensures hasService && r.1.Some? && planted ==> r.0 == m.(visible := false)
  {
    if !hasService then (m, None)
    else
      var req := PlantRequest(m.plotUuid, m.gardenUuid, crop, CurrentDate(clock, today));
      if req.Some? && planted then (m.(visible := false), req) else (m, req)
  }

  /** Going back and reopening for the same plot asks for the same planting
      request as before: hiding never forgets which plot the menu serves. */
  lemma HideThenSelectKeepsTarget(m: Menu, crop: Crop, clock: Option<ClockDate>, today: string, planted: bool)
    ensures MenuSelect(HideMenu(m), true, crop, clock, today, planted).1 == MenuSelect(m, true, crop, clock, today, planted).1
    ensures MenuSelect(m, true, crop, clock, today, planted).1 ==
              ViewSelect(m.plotUuid, m.gardenUuid, crop, clock, today, planted).0
  {
  }
}

=== FILE: garden.dfy ===
/** Garden: the ground node's wind speed, which follows the clock's speed,
    its readiness test, and its size in meters. */
module Garden {
  import opened Common
  import TM = TimeManager

  const BaseWindSpeed: real := 1.0
  const MinWindSpeed: real := 0.5
  const MaxWindSpeed: real := 4.0

  /** The wind speed for a clock speed: proportional, capped to [0.5, 4]. */
  function WindSpeed(timeSpeed: real): (r: real)
    ensures MinWindSpeed <= r <= MaxWindSpeed
    ensures MinWindSpeed <= timeSpeed <= MaxWindSpeed ==> r == timeSpeed
    ensures timeSpeed < MinWindSpeed ==> r == MinWindSpeed
    ensures timeSpeed > MaxWindSpeed ==> r == MaxWindSpeed
  {
    Clamp(BaseWindSpeed * timeSpeed, MinWindSpeed, MaxWindSpeed)
  }

  /** Over the clock's eight speeds the wind is 0.5 for the two slow ones,
      follows 1x, 2x and 4x, and stays at 4 for the three fastest. */
  lemma WindOverSpeedTable()
    ensures forall i :: 0 <= i < 8 ==>
              WindSpeed(TM.SpeedTable[i]) == [0.5, 0.5, 1.0, 2.0, 4.0, 4.0, 4.0, 4.0][i]
  {
  }

  /** The wind state the node keeps: the last speed applied and the shader's
      `wind_speed` parameter (`None` until set). */
  datatype Wind = Wind(last: real, shader: Option<real>)

  const InitialWind: Wind := Wind(1.0, None)

  function Abs(x: real): real { if x < 0.0 then -x else x }

  /** `UpdateWindSpeed`, run every frame: without the clock or the grass node
      nothing happens; a change of more than 0.01 is stored, and written to
      the shader when the grass has a shader material. */
  function UpdateWind(w: Wind, hasClock: bool, hasGrass: bool, hasMaterial: bool, timeSpeed: real): (r: Wind)
    ensures !hasClock || !hasGrass ==> r == w
    ensures hasClock && hasGrass && Abs(WindSpeed(timeSpeed) - w.last) > 0.01 ==>
              r.last == WindSpeed(timeSpeed) && r.shader == (if hasMaterial then Some(WindSpeed(timeSpeed)) else w.shader)
    ensures Abs(WindSpeed(timeSpeed) - w.last) <= 0.01 ==> r == w
  {
    if !hasClock || !hasGrass then w
    else
      var speed := WindSpeed(timeSpeed);
      if Abs(speed - w.last) > 0.01 then
        Wind(speed, if hasMaterial then Some(speed) else w.shader)
      else w
  }

  /** Once updated for a clock speed, further frames at that speed change
      nothing, and the stored speed is within 0.01 of the target. */
  lemma WindSettles(w: Wind, hasMaterial: bool, timeSpeed: real)
    ensures var w1 := UpdateWind(w, true, true, hasMaterial, timeSpeed);
            && UpdateWind(w1, true, true, hasMaterial, timeSpeed) == w1
            && Abs(WindSpeed(timeSpeed) - w1.last) <= 0.01
  {
  }

  /** At the start the node assumes normal speed, so the first frame at
      normal speed writes nothing to the shader, and a switch to 2x does. */
  lemma FirstFrameAtNormalSpeed()
    ensures UpdateWind(InitialWind, true, true, true, TM.SpeedTable[TM.NormalSpeedIndex]) == InitialWind
    ensures UpdateWind(InitialWind, true, true, true, 2.0).shader == Some(2.0)
  {
  }

  /** The grass multimesh, when present. */
  datatype MultiMesh = MultiMesh(instanceCount: int)

  /** `IsReady`: the ground plane and its mesh exist, and the grass has a
      multimesh with at least one instance. */
  function IsReady(hasPlane: bool, planeHasMesh: bool, grass: Option<Option<MultiMesh>>): (r: bool)
    ensures r ==> hasPlane && planeHasMesh
    ensures r <==> grass.Some? && grass.value.Some? && grass.value.value.instanceCount > 0 && hasPlane && planeHasMesh
  {
    if !hasPlane || !planeHasMesh then false
    else if grass.None? || grass.value.None? then false
    else grass.value.value.instanceCount > 0
  }

  /** The fields the node exposes and the plane size it derives. */
  datatype GardenNode = GardenNode(width: real, depth: real, unit: string, hasPlane: bool, planeSize: (real, real))

  const FootInMeters: real := 0.3048

  function SizeInMeters(width: real, depth: real, unit: string): (r: (real, real))
    ensures unit == "feet" ==> r == (width * FootInMeters, depth * FootInMeters)
    ensures unit != "feet" ==> r == (width, depth)
  {
    if unit == "feet" then (width * FootInMeters, depth * FootInMeters) else (width, depth)
  }

  /** `UpdateGardenSize`: without the ground plane nothing happens. */
  function UpdateGardenSize(g: GardenNode): (r: GardenNode)
    ensures r.width == g.width && r.depth == g.depth && r.unit == g.unit && r.hasPlane == g.hasPlane
    ensures g.hasPlane ==> r.planeSize == SizeInMeters(g.width, g.depth, g.unit)
    ensures !g.hasPlane ==> r == g
  {
    if !g.hasPlane then g else g.(planeSize := SizeInMeters(g.width, g.depth, g.unit))
  }

  /** `SetSize`: stores the three fields, then recomputes the plane. */
  function SetSize(g: GardenNode, width: real, depth: real, unit: string): (r: GardenNode)
    ensures r.width == width && r.depth == depth && r.unit == unit
    ensures g.hasPlane ==> r.planeSize == SizeInMeters(width, depth, unit)
  {
    UpdateGardenSize(g.(width := width, depth := depth, unit := unit))
  }

  /** The plane's size converts back to the stored size, so a garden entered
      in feet and the same garden entered in meters get the same plane; and
      setting the same size twice is the same as once. */
  lemma SetSizeConverts(g: GardenNode, width: real, depth: real)
    requires g.hasPlane
    ensures var r := SetSize(g, width, depth, "feet");
            r.planeSize.0 / FootInMeters == width && r.planeSize.1 / FootInMeters == depth
    ensures SetSize(g, width, depth, "feet").planeSize == SetSize(g, width * FootInMeters, depth * FootInMeters, "meters").planeSize
    ensures SetSize(SetSize(g, width, depth, "feet"), width, depth, "feet") == SetSize(g, width, depth, "feet")
  {
  }
}

=== FILE: grass.dfy ===
/** GrassManager.GenerateGrassSpawns: scatters grass blades over the
    triangles of a mesh, a number per triangle proportional to its area,
    each at a random point of the triangle. The random draws are an input
    (`draw(i, b)` is the pair of numbers blade `b` of the triangle starting
    at index `i` takes for its position), and so is the triangle area, which
    the source computes with a square root. */
module Grass {
  import opened Common

  /** Validity of barycentric weights: non-negative and summing to one. */
  predicate IsBarycentric(w: Vec3) {
    w.x >= 0.0 && w.y >= 0.0 && w.z >= 0.0 && w.x + w.y + w.z == 1.0
  }

  /** `RandomBarycentric`: two uniform numbers in [0, 1); a pair beyond the
      diagonal is reflected back into the lower triangle. */
  function RandomBarycentric(u: real, v: real): (w: Vec3)
    ensures w.x + w.y + w.z == 1.0
    ensures u + v < 1.0 ==> w.x == u && w.y == v
    ensures u + v >= 1.0 ==> w.x == 1.0 - u && w.y == 1.0 - v && w.x + w.y <= 1.0
    ensures 0.0 <= u < 1.0 && 0.0 <= v < 1.0 ==> IsBarycentric(w)
  {
    if u + v >= 1.0 then Vec3(1.0 - u, 1.0 - v, 1.0 - ((1.0 - u) + (1.0 - v)))
    else Vec3(u, v, 1.0 - (u + v))
  }

  /** The reflection folds the unit square onto the triangle: a point inside
      the triangle is produced both by itself and by its mirror image, which
      is again a pair of draws in [0, 1). */
  lemma SquareFoldsOntoTriangle(a: real, b: real)
    requires 0.0 < a && 0.0 < b && a + b < 1.0
    ensures 0.0 <= 1.0 - a < 1.0 && 0.0 <= 1.0 - b < 1.0
    ensures RandomBarycentric(1.0 - a, 1.0 - b) == RandomBarycentric(a, b)
    ensures RandomBarycentric(a, b) == Vec3(a, b, 1.0 - a - b)
  {
  }

  function Min3(p: real, q: real, r: real): real { Min(p, Min(q, r)) }
  function Max3(p: real, q: real, r: real): real { Max(p, Max(q, r)) }

  /** `v` lies between the least and the greatest of p, q, r. */
  predicate Between(v: real, p: real, q: real, r: real) {
    Min3(p, q, r) <= v <= Max3(p, q, r)
  }

  /** One coordinate of a barycentric combination. */
  function Combine(p: real, q: real, r: real, w: Vec3): real {
    p * w.x + q * w.y + r * w.z
  }

  /** A convex combination of three numbers lies between their least and
      greatest. */
  lemma ConvexBetween(p: real, q: real, r: real, w: Vec3)
    requires IsBarycentric(w)
    ensures Between(Combine(p, q, r, w), p, q, r)
  {
    var lo := Min3(p, q, r);
    var hi := Max3(p, q, r);
    var v := Combine(p, q, r, w);
    MulNonNegative(p - lo, w.x);
    MulNonNegative(q - lo, w.y);
    MulNonNegative(r - lo, w.z);
    assert v - lo == (p - lo) * w.x + (q - lo) * w.y + (r - lo) * w.z by {
      assert lo * (w.x + w.y + w.z) == lo;
    }
    MulNonNegative(hi - p, w.x);
    MulNonNegative(hi - q, w.y);
    MulNonNegative(hi - r, w.z);
    assert hi - v == (hi - p) * w.x + (hi - q) * w.y + (hi - r) * w.z by {
      assert hi * (w.x + w.y + w.z) == hi;
    }
  }

  /** `FromBarycentricVector3`: the point with weights `w` on the triangle
      a, b, c. */
  function FromBarycentric(w: Vec3, a: Vec3, b: Vec3, c: Vec3): Vec3 {
    Vec3(Combine(a.x, b.x, c.x, w), Combine(a.y, b.y, c.y, w), Combine(a.z, b.z, c.z, w))
  }

  /** The point lies in the triangle's bounding box. */
  predicate InBox(p: Vec3, a: Vec3, b: Vec3, c: Vec3) {
    && Between(p.x, a.x, b.x, c.x)
    && Between(p.y, a.y, b.y, c.y)
    && Between(p.z, a.z, b.z, c.z)
  }

  /** With valid weights the point is on the triangle, so inside its
      bounding box. */
  lemma FromBarycentricInBox(w: Vec3, a: Vec3, b: Vec3, c: Vec3)
    requires IsBarycentric(w)
    ensures InBox(FromBarycentric(w, a, b, c), a, b, c)
  {
    ConvexBetween(a.x, b.x, c.x, w);
    ConvexBetween(a.y, b.y, c.y, w);
    ConvexBetween(a.z, b.z, c.z, w);
  }

  /** The weights (1,0,0), (0,1,0) and (0,0,1) give back the corners. */
  lemma CornersAreVertices(a: Vec3, b: Vec3, c: Vec3)
    ensures FromBarycentric(Vec3(1.0, 0.0, 0.0), a, b, c) == a
    ensures FromBarycentric(Vec3(0.0, 1.0, 0.0), a, b, c) == b
    ensures FromBarycentric(Vec3(0.0, 0.0, 1.0), a, b, c) == c
  {
  }

  /** A random blade parameter: a draw scaled to the configured range. */
  function BladeParam(r: real, lo: real, hi: real): real {
    r * (hi - lo) + lo
  }

  /** With a draw in [0, 1) the parameter lies in [lo, hi), or is lo when
      the range is a single value. */
  lemma BladeParamInRange(r: real, lo: real, hi: real)
    requires 0.0 <= r < 1.0 && lo <= hi
    ensures lo <= BladeParam(r, lo, hi)
    ensures lo < hi ==> BladeParam(r, lo, hi) < hi
    ensures lo == hi ==> BladeParam(r, lo, hi) == lo
  {
    var d := hi - lo;
    MulNonNegative(r, d);
    assert BladeParam(r, lo, hi) == r * d + lo;
    if lo < hi {
      MulPositive(1.0 - r, d);
      assert (1.0 - r) * d == d - r * d;
    } else {
      assert d == 0.0;
    }
  }

  /** `Mathf.Round` followed by the integer cast: round to the nearest
      integer, a tie to the even one. */
  function RoundHalfEven(x: real): (n: int)
    ensures -0.5 <= n as real - x <= 0.5
    ensures n as real - x == 0.5 || x - n as real == 0.5 ==> n % 2 == 0
    ensures x <= 0.5 ==> n <= 0
  {
    var f := x.Floor;
    var frac := x - f as real;
    if frac < 0.5 then f
    else if frac > 0.5 then f + 1
    else if f % 2 == 0 then f
    else f + 1
  }

  /** One grass instance: the index of its triangle in the index buffer, its
      position, and its (not yet normalised) normal. */
  datatype Spawn = Spawn(at: nat, position: Vec3, normal: Vec3)

  /** The result of the scan; `Crash` is the exception C# throws on a
      negative vertex index or a normals array shorter than an index. */
  datatype Outcome = Crash | Spawns(spawns: seq<Spawn>)

  function Then(a: Outcome, b: Outcome): (r: Outcome)
    ensures r.Spawns? <==> a.Spawns? && b.Spawns?
  {
    match a
    case Crash => Crash
    case Spawns(s) => match b case Crash => Crash case Spawns(t) => Spawns(s + t)
  }

  /** The mesh surface arrays, once read and type-checked. */
  datatype Surface = Surface(indices: seq<int>, positions: seq<Vec3>, normals: seq<Vec3>)

  /** The inputs every triangle needs. */
  datatype Scatter = Scatter(area: (Vec3, Vec3, Vec3) -> real, density: real, draw: (nat, nat) -> (real, real))

  function BladeCount(m: Surface, sc: Scatter, j: nat, k: nat, l: nat): int
    requires j < |m.positions| && k < |m.positions| && l < |m.positions|
  {
    RoundHalfEven(sc.area(m.positions[j], m.positions[k], m.positions[l]) * sc.density)
  }

  /** Blade `b` of the triangle starting at index `i`. */
  function Blade(m: Surface, sc: Scatter, i: nat, j: nat, k: nat, l: nat, b: nat): Spawn
    requires j < |m.positions| && k < |m.positions| && l < |m.positions|
    requires j < |m.normals| && k < |m.normals| && l < |m.normals|
  {
    var w := RandomBarycentric(sc.draw(i, b).0, sc.draw(i, b).1);
    Spawn(i, FromBarycentric(w, m.positions[j], m.positions[k], m.positions[l]),
             FromBarycentric(w, m.normals[j], m.normals[k], m.normals[l]))
  }

  /** The first `n` blades of a triangle. */
  function Blades(m: Surface, sc: Scatter, i: nat, j: nat, k: nat, l: nat, n: nat): (r: seq<Spawn>)
    requires j < |m.positions| && k < |m.positions| && l < |m.positions|
    requires j < |m.normals| && k < |m.normals| && l < |m.normals|
    ensures |r| == n
  {
    if n == 0 then [] else Blades(m, sc, i, j, k, l, n - 1) + [Blade(m, sc, i, j, k, l, n - 1)]
  }

  /** What the triangle starting at index `i` contributes: skipped when a
      vertex index is past the positions, a crash on a negative index or a
      short normals array (checked only once a blade is made). */
  function TriangleSpawns(m: Surface, sc: Scatter, i: nat): Outcome
    requires i + 2 < |m.indices|
  {
    var j := m.indices[i];
    var k := m.indices[i + 1];
    var l := m.indices[i + 2];
    if j >= |m.positions| || k >= |m.positions| || l >= |m.positions| then Spawns([])
    else if j < 0 || k < 0 || l < 0 then Crash
    else
      var n := BladeCount(m, sc, j, k, l);
      if n <= 0 then Spawns([])
      else if j >= |m.normals| || k >= |m.normals| || l >= |m.normals| then Crash
      else Spawns(Blades(m, sc, i, j, k, l, n))
  }

  /** The reference definition of the scan from index `i` on: triangle by
      triangle, stopping at a trailing partial triangle. */
  function SpawnsFrom(m: Surface, sc: Scatter, i: nat): Outcome
    decreases |m.indices| - i
  {
    if i >= |m.indices| || i + 2 >= |m.indices| then Spawns([])
    else Then(TriangleSpawns(m, sc, i), SpawnsFrom(m, sc, i + 3))
  }

  /** One triangle of the scan: its blades join the ones already made. */
  lemma {:induction false} ScanStep(m: Surface, sc: Scatter, acc: seq<Spawn>, i: nat, t: seq<Spawn>)
    requires i + 2 < |m.indices|
    requires TriangleSpawns(m, sc, i) == Spawns(t)
    ensures Then(Spawns(acc), SpawnsFrom(m, sc, i)) == Then(Spawns(acc + t), SpawnsFrom(m, sc, i + 3))
  {
    match SpawnsFrom(m, sc, i + 3)
    case Crash =>
    case Spawns(u) =>
      assert acc + (t + u) == (acc + t) + u;
  }

  /** A triangle that throws ends the scan with the exception. */
  lemma ScanCrash(m: Surface, sc: Scatter, acc: seq<Spawn>, i: nat)
    requires i + 2 < |m.indices|
    requires TriangleSpawns(m, sc, i) == Crash
    ensures Then(Spawns(acc), SpawnsFrom(m, sc, i)) == Crash
  {
  }

  /** `GenerateGrassSpawns`: `None` for a missing mesh or surface arrays of
      the wrong type, which give no grass. */
  method GenerateGrassSpawns(surface: Option<Surface>, sc: Scatter) returns (r: Outcome)
    ensures surface.None? ==> r == Spawns([])
    ensures surface.Some? ==> r == SpawnsFrom(surface.value, sc, 0)
  {
    if surface.None? {
      return Spawns([]);
    }
    var m := surface.value;
    var acc: seq<Spawn> := [];
    var i := 0;
    while i < |m.indices|
      invariant SpawnsFrom(m, sc, 0) == Then(Spawns(acc), SpawnsFrom(m, sc, i))
      decreases |m.indices| - i
    {
      if i + 2 >= |m.indices| {
        break;
      }
      var j := m.indices[i];
      var k := m.indices[i + 1];
      var l := m.indices[i + 2];
      if j >= |m.positions| || k >= |m.positions| || l >= |m.positions| {
        ScanStep(m, sc, acc, i, []);
        assert acc + [] == acc;
        i := i + 3;
        continue;
      }
      if j < 0 || k < 0 || l < 0 {
        ScanCrash(m, sc, acc, i);
        return Crash;
      }
      var n := BladeCount(m, sc, j, k, l);
      if n > 0 && (j >= |m.normals| || k >= |m.normals| || l >= |m.normals|) {
        ScanCrash(m, sc, acc, i);
        return Crash;
      }
      if n > 0 {
        var before := acc;
        for b := 0 to n
          invariant acc == before + Blades(m, sc, i, j, k, l, b)
        {
          acc := acc + [Blade(m, sc, i, j, k, l, b)];
        }
        ScanStep(m, sc, before, i, Blades(m, sc, i, j, k, l, n));
      } else {
        ScanStep(m, sc, acc, i, []);
        assert acc + [] == acc;
      }
      i := i + 3;
    }
    assert SpawnsFrom(m, sc, i) == Spawns([]);
    assert acc + [] == acc;
    return Spawns(acc);
  }

  /** All indices name a vertex and the normals cover the positions. */
  predicate WellFormed(m: Surface) {
    |m.normals| >= |m.positions| &&
    forall i :: 0 <= i < |m.indices| ==> 0 <= m.indices[i] < |m.positions|
  }

  /** The number of blades of the complete triangles from `i` on, each
      triangle counting round(area·density) or nothing when that is not
      positive. */
  function TotalBlades(m: Surface, sc: Scatter, i: nat): nat
    requires WellFormed(m)
    decreases |m.indices| - i
  {
    if i + 2 >= |m.indices| then 0
    else
      var n := BladeCount(m, sc, m.indices[i], m.indices[i + 1], m.indices[i + 2]);
      (if n > 0 then n else 0) + TotalBlades(m, sc, i + 3)
  }

  /** On a well-formed mesh the scan never throws and makes exactly the
      blades the areas call for. */
  lemma {:induction false} WellFormedNeverCrashes(m: Surface, sc: Scatter, i: nat)
    requires WellFormed(m)
    ensures SpawnsFrom(m, sc, i).Spawns?
    ensures |SpawnsFrom(m, sc, i).spawns| == TotalBlades(m, sc, i)
    decreases |m.indices| - i
  {
    if i + 2 < |m.indices| {
      WellFormedNeverCrashes(m, sc, i + 3);
    }
  }

  /** The triangle a spawn came from: its three vertex indices are in range,
      and there are barycentric weights that place the spawn on that
      triangle and give its normal by the same interpolation. */
  ghost predicate OnTriangle(m: Surface, s: Spawn) {
    && s.at + 2 < |m.indices|
    && 0 <= m.indices[s.at] < |m.positions| && m.indices[s.at] < |m.normals|
    && 0 <= m.indices[s.at + 1] < |m.positions| && m.indices[s.at + 1] < |m.normals|
    && 0 <= m.indices[s.at + 2] < |m.positions| && m.indices[s.at + 2] < |m.normals|
    && exists w :: IsBarycentric(w) && OnTriangleWith(m, s, w)
  }

  /** The spawn is the point, and carries the normal, that the weights `w`
      give on its triangle. */
  predicate OnTriangleWith(m: Surface, s: Spawn, w: Vec3)
    requires s.at + 2 < |m.indices|
    requires 0 <= m.indices[s.at] < |m.positions| && m.indices[s.at] < |m.normals|
    requires 0 <= m.indices[s.at + 1] < |m.positions| && m.indices[s.at + 1] < |m.normals|
    requires 0 <= m.indices[s.at + 2] < |m.positions| && m.indices[s.at + 2] < |m.normals|
  {
    var j, k, l := m.indices[s.at], m.indices[s.at + 1], m.indices[s.at + 2];
    && s.position == FromBarycentric(w, m.positions[j], m.positions[k], m.positions[l])
    && s.normal == FromBarycentric(w, m.normals[j], m.normals[k], m.normals[l])
  }

  /** A spawn on its triangle lies inside the triangle's bounding box. */
  lemma OnTriangleInBox(m: Surface, s: Spawn)
    requires OnTriangle(m, s)
    ensures InBox(s.position, m.positions[m.indices[s.at]], m.positions[m.indices[s.at + 1]],
                  m.positions[m.indices[s.at + 2]])
  {
    var w :| IsBarycentric(w) && OnTriangleWith(m, s, w);
    FromBarycentricInBox(w, m.positions[m.indices[s.at]], m.positions[m.indices[s.at + 1]],
                         m.positions[m.indices[s.at + 2]]);
  }

  /** The random draws of the scan are in [0, 1), as `NextDouble`'s are. */
  ghost predicate DrawsInRange(sc: Scatter) {
    forall i: nat, b: nat :: 0.0 <= sc.draw(i, b).0 < 1.0 && 0.0 <= sc.draw(i, b).1 < 1.0
  }

  /** Every blade grows on the triangle it was made for, whether or not the
      scan later crashes on another triangle's data. */
  lemma {:induction false} SpawnsLieOnTheirTriangles(m: Surface, sc: Scatter, i: nat)
    requires DrawsInRange(sc)
    ensures SpawnsFrom(m, sc, i).Spawns? ==>
              forall s :: s in SpawnsFrom(m, sc, i).spawns ==> OnTriangle(m, s)
    decreases |m.indices| - i
  {
    if i + 2 < |m.indices| {
      SpawnsLieOnTheirTriangles(m, sc, i + 3);
      var t := TriangleSpawns(m, sc, i);
      if t.Spawns? && t.spawns != [] {
        var j, k, l := m.indices[i], m.indices[i + 1], m.indices[i + 2];
        BladesLieOnTriangle(m, sc, i, j, k, l, |t.spawns|);
      }
    }
  }

  /** The blades of one triangle are all on that triangle. */
  lemma {:induction false} BladesLieOnTriangle(m: Surface, sc: Scatter, i: nat, j: nat, k: nat, l: nat, n: nat)
    requires DrawsInRange(sc)
    requires i + 2 < |m.indices| && m.indices[i] == j && m.indices[i + 1] == k && m.indices[i + 2] == l
    requires j < |m.positions| && k < |m.positions| && l < |m.positions|
    requires j < |m.normals| && k < |m.normals| && l < |m.normals|
    ensures forall s :: s in Blades(m, sc, i, j, k, l, n) ==> OnTriangle(m, s)
  {
    if n > 0 {
      BladesLieOnTriangle(m, sc, i, j, k, l, n - 1);
      var d := sc.draw(i, n - 1);
      var w := RandomBarycentric(d.0, d.1);
      var s := Blade(m, sc, i, j, k, l, n - 1);
      assert IsBarycentric(w) && OnTriangleWith(m, s, w);
    }
  }
}

=== FILE: interaction_overlay.dfy ===
/** InteractionOverlay: the translucent disc (and tool icon) drawn on the
    ground where the player is about to act. The disc is a triangle fan of
    32 triangles around a centre vertex. Texture loading is an input; the
    cosine and sine of the 32 ring angles are an input too. */
module InteractionOverlay {
  import opened Common
  import TM = ToolManager

  const Segments := 32
  const IconSizeRatio := 0.6
  const InitialDiameter := 0.1

  /** Triangle `k` of the fan: the centre, ring vertex k+1 and the next ring
      vertex, wrapping from 32 back to 1. */
  function Triangle(k: nat): seq<int> {
    [0, k + 1, (k + 1) % Segments + 1]
  }

  /** The three indices of triangle `k` in an index buffer. */
  function TriangleAt(indices: seq<int>, k: nat): seq<int>
    requires 3 * k + 3 <= |indices|
  {
    indices[3 * k .. 3 * k + 3]
  }

  /** The index loop of `UpdateDiscMesh`. */
  method FanIndices() returns (indices: seq<int>)
    ensures |indices| == 3 * Segments
    ensures forall k: nat :: k < Segments ==> TriangleAt(indices, k) == Triangle(k)
    ensures forall i :: 0 <= i < |indices| ==> 0 <= indices[i] <= Segments
  {
    indices := [];
    for i := 0 to Segments
      invariant |indices| == 3 * i
      invariant forall k: nat :: k < i ==> TriangleAt(indices, k) == Triangle(k)
      invariant forall j :: 0 <= j < |indices| ==> 0 <= indices[j] <= Segments
    {
      var prev := indices;
      indices := indices + [0, i + 1, (i + 1) % Segments + 1];
      forall k: nat | k < i
        ensures TriangleAt(indices, k) == Triangle(k)
      {
        assert TriangleAt(indices, k) == TriangleAt(prev, k);
      }
      assert TriangleAt(indices, i) == Triangle(i);
    }
  }

  /** The triangle whose second index is ring vertex `v`. */
  function Opener(v: int): int { v - 1 }

  /** The triangle whose third index is ring vertex `v`. */
  function Closer(v: int): int { (v + Segments - 2) % Segments }

  /** The fan is a closed disc: every triangle has the centre, each one
      shares its outer edge end with the next, and the last triangle
      (0, 32, 1) joins the ring back to its start. Every ring vertex opens
      exactly one triangle and closes exactly one: `Opener` and `Closer` are
      inverse to reading the second and third index. */
  lemma FanClosesRing()
    ensures forall k: nat :: k < Segments ==> Triangle(k)[0] == 0
    ensures forall k: nat :: k + 1 < Segments ==> Triangle(k)[2] == Triangle(k + 1)[1]
    ensures Triangle(Segments - 1) == [0, Segments, 1]
    ensures forall v :: 1 <= v <= Segments ==>
              0 <= Opener(v) < Segments && Triangle(Opener(v))[1] == v &&
              0 <= Closer(v) < Segments && Triangle(Closer(v))[2] == v
    ensures forall k: nat :: k < Segments ==>
              Opener(Triangle(k)[1]) == k && Closer(Triangle(k)[2]) == k
  {
    forall k: nat | k < Segments
      ensures Triangle(k)[2] == (if k + 1 == Segments then 1 else k + 2)
    {
      ThirdIndex(k);
    }
    forall v | 1 <= v <= Segments
      ensures Closer(v) == (if v == 1 then Segments - 1 else v - 2)
    {
      CloserOf(v);
    }
  }

  /** The third index wraps only on the last triangle. */
  lemma ThirdIndex(k: nat)
    requires k < Segments
    ensures Triangle(k)[2] == (if k + 1 == Segments then 1 else k + 2)
  {
  }

  /** The closing triangle of a ring vertex, without the remainder. */
  lemma CloserOf(v: int)
    requires 1 <= v <= Segments
    ensures Closer(v) == (if v == 1 then Segments - 1 else v - 2)
  {
  }

  /** The vertex loop: the centre first, then the 32 ring points at radius
      diameter/2 on the ground plane. `circle(i)` is the cosine and sine of
      i/32 of a full turn. */
  method DiscVertices(diameter: real, circle: nat -> (real, real)) returns (vertices: seq<Vec3>)
    ensures |vertices| == Segments + 1
    ensures vertices[0] == Vec3(0.0, 0.0, 0.0)
    ensures forall i: nat :: i < Segments ==>
              vertices[i + 1] == Vec3(circle(i).0 * (diameter / 2.0), 0.0, circle(i).1 * (diameter / 2.0))
    ensures forall i :: 0 <= i < |vertices| ==> vertices[i].y == 0.0
  {
    var radius := diameter / 2.0;
    var ring: seq<Vec3> := [];
    for i := 0 to Segments
      invariant |ring| == i
      invariant forall j: nat :: j < i ==> ring[j] == Vec3(circle(j).0 * radius, 0.0, circle(j).1 * radius)
    {
      ring := ring + [Vec3(circle(i).0 * radius, 0.0, circle(i).1 * radius)];
    }
    vertices := [Vec3(0.0, 0.0, 0.0)] + ring;
  }

  datatype Mesh = Mesh(vertices: seq<Vec3>, indices: seq<int>)

  /** The mesh part of `UpdateDiscMesh`: every index names a vertex. */
  method DiscMesh(diameter: real, circle: nat -> (real, real)) returns (m: Mesh)
    ensures |m.vertices| == 33 && |m.indices| == 96
    ensures forall i :: 0 <= i < |m.indices| ==> 0 <= m.indices[i] < |m.vertices|
    ensures forall k: nat :: k < Segments ==> m.vertices[TriangleAt(m.indices, k)[0]] == Vec3(0.0, 0.0, 0.0)
  {
    var vs := DiscVertices(diameter, circle);
    var ix := FanIndices();
    m := Mesh(vs, ix);
  }

  datatype Texture = Texture(path: string, width: int)

  /** The overlay's state: node visibility and position, the disc size, and
      the icon sprite (absent until created). */
  datatype Overlay = Overlay(
    visible: bool,
    position: Vec3,
    discDiameter: real,
    hasSprite: bool,
    iconVisible: bool,
    iconTexture: Option<Texture>,
    pixelSize: real)

  /** After `_Ready`: the disc at its initial size, the icon and the node
      hidden. */
  function Initial(pixelSize: real): (o: Overlay)
    ensures !o.visible && !o.iconVisible && o.hasSprite
    ensures o.discDiameter == InitialDiameter
  {
    Overlay(false, Vec3(0.0, 0.0, 0.0), InitialDiameter, true, false, None, pixelSize)
  }

  /** `ShowAt`: a point on or under the ground is lifted to 0.1 above it. */
  function ShowAt(o: Overlay, p: Vec3): (r: Overlay)
    ensures r.visible
    ensures r.position.x == p.x && r.position.z == p.z
    ensures r.position.y > 0.0
    ensures p.y > 0.0 ==> r.position == p
    ensures r.(visible := o.visible, position := o.position) == o
  {
    var q := if p.y <= 0.0 then Vec3(p.x, 0.1, p.z) else p;
    o.(position := q, visible := true)
  }

  /** Showing again at the place the overlay already shows is a no-op, and
      showing at a point under the ground is the same as at ground level. */
  lemma ShowAtIsStable(o: Overlay, p: Vec3)
    ensures ShowAt(ShowAt(o, p), ShowAt(o, p).position) == ShowAt(o, p)
    ensures p.y <= 0.0 ==> ShowAt(o, p) == ShowAt(o, Vec3(p.x, 0.0, p.z))
  {
  }

  function HideOverlay(o: Overlay): (r: Overlay)
    ensures !r.visible
    ensures r.(visible := o.visible) == o
  {
    o.(visible := false)
  }

  /** `UpdateIconPixelSize`: the pixel size that makes the icon 60% as wide
      as the disc; with no sprite, no texture or a zero-width texture nothing
      changes. */
  function UpdateIconPixelSize(o: Overlay, texture: Option<Texture>, diameter: real): (r: Overlay)
    ensures !o.hasSprite || texture.None? || texture.value.width <= 0 ==> r == o
    ensures o.hasSprite && texture.Some? && texture.value.width > 0 ==>
              r.pixelSize * texture.value.width as real == IconSizeRatio * diameter
    ensures r.(pixelSize := o.pixelSize) == o
  {
    if !o.hasSprite || texture.None? then o
    else if texture.value.width > 0 then o.(pixelSize := diameter * IconSizeRatio / texture.value.width as real)
    else o
  }

  /** `OnToolChangedDetailed`: the disc takes the tool's diameter; the icon
      shows exactly when the tool has an icon path and it loads. `load` is
      the engine's resource loader. */
  function OnToolChangedDetailed(o: Overlay, tool: TM.ToolType, iconPath: Option<string>, diameter: real,
                                 load: string -> Option<Texture>): (r: Overlay)
    ensures r.discDiameter == diameter
    ensures r.visible == o.visible && r.position == o.position && r.hasSprite == o.hasSprite
    ensures !o.hasSprite ==> r == o.(discDiameter := diameter)
    ensures o.hasSprite ==> (r.iconVisible <==> !IsNullOrEmpty(iconPath) && load(iconPath.value).Some?)
    ensures o.hasSprite && r.iconVisible ==>
              && !IsNullOrEmpty(iconPath)
              && r.iconTexture == load(iconPath.value)
              && r.iconTexture.Some?
              && (r.iconTexture.value.width > 0 ==> r.pixelSize * r.iconTexture.value.width as real == IconSizeRatio * diameter)
    ensures !r.iconVisible ==> r.iconTexture == o.iconTexture && r.pixelSize == o.pixelSize
  {
    var o1 := o.(discDiameter := diameter);
    if !o1.hasSprite then o1
    else if IsNullOrEmpty(iconPath) then o1.(iconVisible := false)
    else match load(iconPath.value)
      case Some(tex) => UpdateIconPixelSize(o1.(iconTexture := Some(tex)), Some(tex), diameter).(iconVisible := true)
      case None => o1.(iconVisible := false)
  }

  /** A tool change does not depend on the disc size or icon it replaces:
      two changes in a row end where the second alone would. */
  lemma LastToolChangeWins(o: Overlay, t1: TM.ToolType, p1: Option<string>, d1: real,
                           t2: TM.ToolType, p2: Option<string>, d2: real, load: string -> Option<Texture>)
    requires !IsNullOrEmpty(p2) && load(p2.value).Some? && load(p2.value).value.width > 0
    ensures OnToolChangedDetailed(OnToolChangedDetailed(o, t1, p1, d1, load), t2, p2, d2, load)
            == OnToolChangedDetailed(o, t2, p2, d2, load)
  {
  }
}

=== FILE: loading_progress.dfy ===
/** LoadingProgressTracker: named loading phases with weights, a clamped
    progress per phase, and an overall percentage that is the weight-averaged
    progress of all phases. The loading spinner the tracker drives is modelled
    as an optional display record. */
module LoadingProgress {
  import opened Common

  datatype Phase = Phase(name: string, weight: real, progress: real, complete: bool)

  /** What the spinner shows: a percentage and a status line. */
  datatype Display = Display(progress: real, status: string)

  /** Phases are kept in registration order, the order the dictionary yields them. */
  datatype Tracker = Tracker(phases: seq<Phase>, totalWeight: real, current: real, spinner: Option<Display>)

  function Names(ps: seq<Phase>): seq<string> {
    if ps == [] then [] else [ps[0].name] + Names(ps[1..])
  }

  function SumWeights(ps: seq<Phase>): real {
    if ps == [] then 0.0 else ps[0].weight + SumWeights(ps[1..])
  }

  ghost predicate DistinctNames(ps: seq<Phase>) {
    forall i, j :: 0 <= i < j < |ps| ==> ps[i].name != ps[j].name
  }

  /** What every operation keeps: one phase per name, progress in [0, 1], and
      the running total equal to the sum of the registered weights. */
  ghost predicate Valid(t: Tracker) {
    && DistinctNames(t.phases)
    && (forall i :: 0 <= i < |t.phases| ==> 0.0 <= t.phases[i].progress <= 1.0)
    && t.totalWeight == SumWeights(t.phases)
  }

  function New(spinner: Option<Display>): (t: Tracker)
    ensures Valid(t) && t.phases == [] && t.current == 0.0
  {
    Tracker([], 0.0, 0.0, spinner)
  }

  /** The index of the phase with this name, if one is registered. */
  function Find(ps: seq<Phase>, name: string): (r: Option<nat>)
    ensures r.Some? ==> r.value < |ps| && ps[r.value].name == name
    ensures r.None? ==> forall i :: 0 <= i < |ps| ==> ps[i].name != name
  {
    if ps == [] then None
    else if ps[0].name == name then Some(0)
    else match Find(ps[1..], name)
      case None => None
      case Some(i) => Some(i + 1)
  }

  lemma SumWeightsAppend(ps: seq<Phase>, p: Phase)
    ensures SumWeights(ps + [p]) == SumWeights(ps) + p.weight
  {
    if ps != [] {
      assert (ps + [p])[1..] == ps[1..] + [p];
      SumWeightsAppend(ps[1..], p);
    }
  }

  lemma SumWeightsKeepsUnderProgressUpdate(ps: seq<Phase>, i: nat, p: Phase)
    requires i < |ps| && p.weight == ps[i].weight
    ensures SumWeights(ps[i := p]) == SumWeights(ps)
  {
    if i > 0 {
      assert ps[i := p][1..] == ps[1..][i - 1 := p];
      SumWeightsKeepsUnderProgressUpdate(ps[1..], i - 1, p);
    }
  }

  /** `RegisterPhase`: a new name is appended with progress 0; a name already
      registered changes nothing. */
  function RegisterPhase(t: Tracker, name: string, weight: real): (r: Tracker)
    requires Valid(t)
    ensures Valid(r)
    ensures Find(t.phases, name).Some? ==> r == t
    ensures Find(t.phases, name).None? ==>
              && r.phases == t.phases + [Phase(name, weight, 0.0, false)]
              && r.totalWeight == t.totalWeight + weight
              && r.current == t.current && r.spinner == t.spinner
  {
    if Find(t.phases, name).Some? then t
    else
      SumWeightsAppend(t.phases, Phase(name, weight, 0.0, false));
      t.(phases := t.phases + [Phase(name, weight, 0.0, false)], totalWeight := t.totalWeight + weight)
  }

  /** No name occurs twice. */
  predicate DistinctStrings(names: seq<string>) {
    forall i, j :: 0 <= i < j < |names| ==> names[i] != names[j]
  }

  /** None of the names is registered yet. */
  predicate AllNew(ps: seq<Phase>, names: seq<string>) {
    forall n :: n in names ==> Find(ps, n).None?
  }

  /** Registering a name keeps the phases in front and adds at most one
      fresh, incomplete phase of that name, which is found afterwards. */
  lemma RegisterAppends(t: Tracker, name: string, weight: real)
    requires Valid(t)
    ensures var r := RegisterPhase(t, name, weight);
            && r.current == t.current && r.spinner == t.spinner
            && |t.phases| <= |r.phases| <= |t.phases| + 1 && r.phases[..|t.phases|] == t.phases
            && (forall i :: |t.phases| <= i < |r.phases| ==>
                  r.phases[i].name == name && r.phases[i].progress == 0.0 && !r.phases[i].complete)
            && Find(r.phases, name).Some?
  {
    var ps := RegisterPhase(t, name, weight).phases;
    if Find(t.phases, name).None? {
      assert ps[|ps| - 1].name == name;
    }
  }

  /** A name found in a prefix is still found after phases are appended. */
  lemma KeptFound(ps: seq<Phase>, qs: seq<Phase>, name: string)
    requires |ps| <= |qs| && qs[..|ps|] == ps
    ensures Find(ps, name).Some? ==> Find(qs, name).Some?
  {
    if Find(ps, name).Some? {
      assert qs[Find(ps, name).value].name == name;
    }
  }

  /** `RegisterEqualPhases`: no names is a no-op; otherwise each name is
      registered with an equal share of the total (duplicates are skipped).
      The phases already registered stay in front, untouched; every phase
      added is named from the list, carries the share, and starts at
      progress 0 and incomplete; with distinct new names the added phases
      are exactly one per name, in list order. */
  function RegisterEqualPhases(t: Tracker, names: Option<seq<string>>, total: real): (r: Tracker)
    requires Valid(t)
    ensures Valid(r)
    ensures names.None? || names.value == [] ==> r == t
    ensures names.Some? && names.value != [] ==>
              && r == RegisterAll(t, names.value, total / |names.value| as real)
              && |t.phases| <= |r.phases| <= |t.phases| + |names.value|
              && r.phases[..|t.phases|] == t.phases
              && (forall i :: |t.phases| <= i < |r.phases| ==>
                    && r.phases[i].weight == total / |names.value| as real
                    && r.phases[i].progress == 0.0 && !r.phases[i].complete
                    && r.phases[i].name in names.value)
              && (forall n :: n in names.value ==> Find(r.phases, n).Some?)
              && r.current == t.current && r.spinner == t.spinner
              && (DistinctStrings(names.value) && AllNew(t.phases, names.value) ==>
                    r.phases == t.phases + Fresh(names.value, total / |names.value| as real))
  {
    if names.None? || |names.value| == 0 then t
    else
      assert DistinctStrings(names.value) && AllNew(t.phases, names.value) ==>
               RegisterAll(t, names.value, total / |names.value| as real).phases
               == t.phases + Fresh(names.value, total / |names.value| as real) by {
        if DistinctStrings(names.value) && AllNew(t.phases, names.value) {
          RegisterAllAddsEachName(t, names.value, total / |names.value| as real);
        }
      }
      RegisterAll(t, names.value, total / |names.value| as real)
  }

  /** `RegisterPhase` for each name in turn. */
  function RegisterAll(t: Tracker, names: seq<string>, weight: real): (r: Tracker)
    requires Valid(t)
    ensures Valid(r)
    ensures |t.phases| <= |r.phases| <= |t.phases| + |names| && r.phases[..|t.phases|] == t.phases
    ensures forall i :: |t.phases| <= i < |r.phases| ==>
              && r.phases[i].weight == weight && r.phases[i].progress == 0.0
              && !r.phases[i].complete && r.phases[i].name in names
    ensures forall n :: n in names ==> Find(r.phases, n).Some?
    ensures r.current == t.current && r.spinner == t.spinner
    decreases |names|
  {
    if names == [] then t
    else
      var t1 := RegisterPhase(t, names[0], weight);
      RegisterAppends(t, names[0], weight);
      var r := RegisterAll(t1, names[1..], weight);
      KeptFound(t1.phases, r.phases, names[0]);
      assert r.phases[..|t.phases|] == t.phases by {
        assert r.phases[..|t.phases|] == r.phases[..|t1.phases|][..|t.phases|];
      }
      forall i | |t.phases| <= i < |r.phases|
        ensures && r.phases[i].weight == weight && r.phases[i].progress == 0.0
                && !r.phases[i].complete && r.phases[i].name in names
      {
        if i < |t1.phases| {
          assert r.phases[i] == t1.phases[i];
        } else {
          assert r.phases[i].name in names[1..];
        }
      }
      forall n | n in names
        ensures Find(r.phases, n).Some?
      {
        if n != names[0] {
          assert n in names[1..];
        }
      }
      r
  }

  /** The phases registering `names` adds when every name is new and none
      repeats: one per name, in list order, at progress 0 and incomplete. */
  function Fresh(names: seq<string>, weight: real): (ps: seq<Phase>)
    ensures |ps| == |names|
    ensures forall k :: 0 <= k < |names| ==> ps[k] == Phase(names[k], weight, 0.0, false)
  {
    seq(|names|, k requires 0 <= k < |names| => Phase(names[k], weight, 0.0, false))
  }

  /** Registering the first of distinct new names leaves the others new. */
  lemma RestStaysNew(t: Tracker, names: seq<string>, weight: real)
    requires Valid(t) && names != []
    requires DistinctStrings(names) && AllNew(t.phases, names)
    ensures AllNew(RegisterPhase(t, names[0], weight).phases, names[1..])
    ensures DistinctStrings(names[1..])
  {
    var ps := RegisterPhase(t, names[0], weight).phases;
    forall n | n in names[1..]
      ensures Find(ps, n).None?
    {
      assert n != names[0] && n in names && names[0] in names;
      assert Find(t.phases, n).None? && Find(t.phases, names[0]).None?;
      assert ps == t.phases + [Phase(names[0], weight, 0.0, false)];
      forall i | 0 <= i < |ps|
        ensures ps[i].name != n
      {
        if i < |t.phases| {
          assert ps[i] == t.phases[i];
        }
      }
    }
  }

  /** Distinct names none of which is registered yet are all added, one
      phase per name, in list order. */
  lemma {:induction false} RegisterAllAddsEachName(t: Tracker, names: seq<string>, weight: real)
    requires Valid(t)
    requires DistinctStrings(names) && AllNew(t.phases, names)
    ensures RegisterAll(t, names, weight).phases == t.phases + Fresh(names, weight)
    decreases |names|
  {
    if names != [] {
      var t1 := RegisterPhase(t, names[0], weight);
      RestStaysNew(t, names, weight);
      RegisterAllAddsEachName(t1, names[1..], weight);
      FreshCons(t.phases, names, weight);
    }
  }

  lemma FreshCons(ps: seq<Phase>, names: seq<string>, weight: real)
    requires names != []
    ensures ps + [Phase(names[0], weight, 0.0, false)] + Fresh(names[1..], weight) == ps + Fresh(names, weight)
  {
    assert Fresh(names, weight) == [Phase(names[0], weight, 0.0, false)] + Fresh(names[1..], weight);
  }

  /** Every newly registered name carries the equal share. */
  lemma EqualPhasesShareTheTotal(t: Tracker, names: seq<string>, total: real)
    requires Valid(t)
    requires names != []
    requires forall n :: n in names ==> Find(t.phases, n).None?
    ensures var r := RegisterEqualPhases(t, Some(names), total);
            forall n :: n in names ==> r.phases[Find(r.phases, n).value].weight == total / |names| as real
  {
    var r := RegisterEqualPhases(t, Some(names), total);
    forall n | n in names
      ensures r.phases[Find(r.phases, n).value].weight == total / |names| as real
    {
      forall j | 0 <= j < |t.phases|
        ensures r.phases[j].name != n
      {
        assert r.phases[j] == r.phases[..|t.phases|][j];
      }
    }
  }

  /** Sends a percentage and a status line to the spinner, if there is one;
      an empty status keeps the previous line. */
  function UpdateUI(spinner: Option<Display>, progress: real, status: string): (r: Option<Display>)
    ensures r.Some? <==> spinner.Some?
    ensures r.Some? ==> r.value.progress == progress
    ensures r.Some? ==> r.value.status == (if status == "" then spinner.value.status else status)
  {
    match spinner
    case None => None
    case Some(d) => Some(Display(progress, if status == "" then d.status else status))
  }

  /** Σ (wᵢ / W) · 100 · pᵢ in registration order. */
  function WeightedProgress(ps: seq<Phase>, total: real): real
    requires total != 0.0
  {
    if ps == [] then 0.0
    else (ps[0].weight / total) * 100.0 * ps[0].progress + WeightedProgress(ps[1..], total)
  }

  /** `UpdateOverallProgress`: nothing happens while the total weight is zero. */
  function UpdateOverall(t: Tracker, status: string): (r: Tracker)
    ensures r.phases == t.phases && r.totalWeight == t.totalWeight
    ensures t.totalWeight == 0.0 ==> r == t
    ensures t.totalWeight != 0.0 ==> r.current == WeightedProgress(t.phases, t.totalWeight)
    ensures t.totalWeight != 0.0 ==> r.spinner == UpdateUI(t.spinner, r.current, status)
  {
    if t.totalWeight == 0.0 then t
    else
      var p := WeightedProgress(t.phases, t.totalWeight);
      t.(current := p, spinner := UpdateUI(t.spinner, p, status))
  }

  /** `UpdatePhaseProgress`: stores the clamped progress of a known phase; an
      unknown name leaves the tracker as it was. */
  function UpdatePhaseProgress(t: Tracker, name: string, progress: real, status: string): (r: Tracker)
    requires Valid(t)
    ensures Valid(r)
    ensures Find(t.phases, name).None? ==> r == t
    ensures Find(t.phases, name).Some? ==>
              var i := Find(t.phases, name).value;
              && |r.phases| == |t.phases|
              && r.phases[i] == t.phases[i].(progress := Clamp(progress, 0.0, 1.0))
              && (forall j :: 0 <= j < |t.phases| && j != i ==> r.phases[j] == t.phases[j])
              && r.totalWeight == t.totalWeight
              && (r.totalWeight == 0.0 ==> r.current == t.current && r.spinner == t.spinner)
              && (r.totalWeight != 0.0 ==>
                    r.current == WeightedProgress(r.phases, r.totalWeight) && r.spinner == UpdateUI(t.spinner, r.current, status))
  {
    match Find(t.phases, name)
    case None => t
    case Some(i) =>
      var p := t.phases[i].(progress := Clamp(progress, 0.0, 1.0));
      SumWeightsKeepsUnderProgressUpdate(t.phases, i, p);
      UpdateOverall(t.(phases := t.phases[i := p]), status)
  }

  /** `CompletePhase`: a known phase gets progress 1 and is marked complete. */
  function CompletePhase(t: Tracker, name: string, status: string): (r: Tracker)
    requires Valid(t)
    ensures Valid(r)
    ensures Find(t.phases, name).None? ==> r == t
    ensures Find(t.phases, name).Some? ==>
              var i := Find(t.phases, name).value;
              && |r.phases| == |t.phases|
              && r.phases[i] == t.phases[i].(progress := 1.0, complete := true)
              && (forall j :: 0 <= j < |t.phases| && j != i ==> r.phases[j] == t.phases[j])
              && r.totalWeight == t.totalWeight
              && (r.totalWeight == 0.0 ==> r.current == t.current && r.spinner == t.spinner)
              && (r.totalWeight != 0.0 ==>
                    r.current == WeightedProgress(r.phases, r.totalWeight) && r.spinner == UpdateUI(t.spinner, r.current, status))
  {
    match Find(t.phases, name)
    case None => t
    case Some(i) =>
      var p := t.phases[i].(progress := 1.0, complete := true);
      SumWeightsKeepsUnderProgressUpdate(t.phases, i, p);
      UpdateOverall(t.(phases := t.phases[i := p]), status)
  }

  /** The status line of an item update. */
  function ItemStatus(phaseName: string, done: int, total: int, itemName: string): (r: string)
    ensures var count := IntToString(done) + "/" + IntToString(total);
            var tail := if itemName == "" then count else count + ")";
            && |r| >= |phaseName| + 2 + |tail|
            && r[..|phaseName| + 2] == phaseName + ": "
            && r[|r| - |tail|..] == tail
            && (itemName != "" ==>
                  |r| >= |phaseName| + 2 + |itemName| + 2
                  && r[|phaseName| + 2..|phaseName| + 2 + |itemName| + 2] == itemName + " (")
  {
    var head := phaseName + ": ";
    var count := IntToString(done) + "/" + IntToString(total);
    if itemName == "" then
      ThreeParts(head, [], count);
      head + count
    else
      ThreeParts(head, itemName + " (", count + ")");
      head + (itemName + " (") + (count + ")")
  }

  /** The three parts of a concatenation can be read back by position. */
  lemma ThreeParts(a: string, b: string, c: string)
    ensures var s := a + b + c;
            && |s| == |a| + |b| + |c|
            && s[..|a|] == a
            && s[|a|..|a| + |b|] == b
            && s[|s| - |c|..] == c
  {
    var s := a + b + c;
    assert s[..|a|] == a;
    assert s[|a|..|a| + |b|] == b;
    assert s[|s| - |c|..] == c;
  }

  /** `UpdateItemProgress`: zero items completes the phase; otherwise the
      phase's progress becomes done/total, clamped to [0, 1]. The status line
      names the phase and the count; an unknown name changes nothing. */
  function UpdateItemProgress(t: Tracker, name: string, done: int, total: int, itemName: string): (r: Tracker)
    requires Valid(t)
    ensures Valid(r)
    ensures Find(t.phases, name).None? ==> r == t
    ensures Find(t.phases, name).Some? ==>
              var i := Find(t.phases, name).value;
              && |r.phases| == |t.phases|
              && (total == 0 ==> r.phases[i] == t.phases[i].(progress := 1.0, complete := true))
              && (total != 0 ==> r.phases[i] == t.phases[i].(progress := Clamp(done as real / total as real, 0.0, 1.0)))
              && (forall j :: 0 <= j < |t.phases| && j != i ==> r.phases[j] == t.phases[j])
              && r.totalWeight == t.totalWeight
              && (r.totalWeight == 0.0 ==> r.current == t.current && r.spinner == t.spinner)
              && (r.totalWeight != 0.0 ==> r.current == WeightedProgress(r.phases, r.totalWeight))
              && (r.totalWeight != 0.0 && t.spinner.Some? ==>
                    r.spinner == Some(Display(r.current, if total == 0 then "Completed " + name
                                                         else ItemStatus(name, done, total, itemName))))
  {
    if total == 0 then CompletePhase(t, name, "Completed " + name)
    else UpdatePhaseProgress(t, name, done as real / total as real, ItemStatus(name, done, total, itemName))
  }

  /** The last item of a phase brings its progress to 1, as completing it
      does, but only `CompletePhase` (or an empty phase) marks it complete:
      the two differ exactly in the completion flag. */
  lemma LastItemFillsButDoesNotComplete(t: Tracker, name: string, n: int, itemName: string)
    requires Valid(t) && n != 0
    requires Find(t.phases, name).Some?
    ensures var i := Find(t.phases, name).value;
            var byItems := UpdateItemProgress(t, name, n, n, itemName);
            var byComplete := CompletePhase(t, name, "");
            && byItems.phases[i].progress == 1.0 == byComplete.phases[i].progress
            && byItems.phases[i].complete == t.phases[i].complete
            && byComplete.phases[i].complete
            && byItems.phases == byComplete.phases[i := byComplete.phases[i].(complete := t.phases[i].complete)]
  {
    var i := Find(t.phases, name).value;
    assert n as real / n as real == 1.0;
    var byItems := UpdateItemProgress(t, name, n, n, itemName);
    var byComplete := CompletePhase(t, name, "");
    var expected := byComplete.phases[i := byComplete.phases[i].(complete := t.phases[i].complete)];
    assert |byItems.phases| == |expected|;
    forall j | 0 <= j < |expected|
      ensures byItems.phases[j] == expected[j]
    {
    }
  }

  /** `SetProgress`: a clamped percentage, shown on the spinner, the phases
      untouched. */
  function SetProgress(t: Tracker, progress: real, status: string): (r: Tracker)
    ensures 0.0 <= r.current <= 100.0
    ensures r.phases == t.phases && r.totalWeight == t.totalWeight
    ensures 0.0 <= progress <= 100.0 ==> r.current == progress
    ensures progress < 0.0 ==> r.current == 0.0
    ensures progress > 100.0 ==> r.current == 100.0
    ensures r.spinner.Some? <==> t.spinner.Some?
    ensures t.spinner.Some? ==>
              r.spinner == Some(Display(r.current, if status == "" then t.spinner.value.status else status))
  {
    var p := Clamp(progress, 0.0, 100.0);
    t.(current := p, spinner := UpdateUI(t.spinner, p, status))
  }

  /** `Reset`: every phase back to 0 and incomplete, registrations kept. */
  function Reset(t: Tracker): (r: Tracker)
    requires Valid(t)
    ensures Valid(r)
    ensures r.current == 0.0 && r.totalWeight == t.totalWeight
    ensures |r.phases| == |t.phases|
    ensures forall i :: 0 <= i < |r.phases| ==>
              r.phases[i] == Phase(t.phases[i].name, t.phases[i].weight, 0.0, false)
    ensures r.spinner.Some? <==> t.spinner.Some?
    ensures t.spinner.Some? ==> r.spinner == Some(Display(0.0, "Initializing..."))
  {
    var ps := ResetPhases(t.phases);
    Tracker(ps, t.totalWeight, 0.0, UpdateUI(t.spinner, 0.0, "Initializing..."))
  }

  function ResetPhases(ps: seq<Phase>): (r: seq<Phase>)
    ensures |r| == |ps|
    ensures forall i :: 0 <= i < |ps| ==> r[i] == Phase(ps[i].name, ps[i].weight, 0.0, false)
    ensures SumWeights(r) == SumWeights(ps)
  {
    if ps == [] then [] else [Phase(ps[0].name, ps[0].weight, 0.0, false)] + ResetPhases(ps[1..])
  }

  /** `IsComplete`: every registered phase is complete (true with none). */
  predicate IsComplete(t: Tracker) {
    forall i :: 0 <= i < |t.phases| ==> t.phases[i].complete
  }

  /** After a reset the tracker is complete exactly when it has no phases. */
  lemma ResetClearsCompletion(t: Tracker)
    requires Valid(t)
    ensures IsComplete(Reset(t)) <==> t.phases == []
  {
    if t.phases != [] {
      assert !Reset(t).phases[0].complete;
    }
  }

  /** A phase's share of the weighted sum: its weight times its progress. */
  function Contribution(ph: Phase): real {
    ph.weight * ph.progress
  }

  function SumWeightedProgress(ps: seq<Phase>): real {
    if ps == [] then 0.0 else Contribution(ps[0]) + SumWeightedProgress(ps[1..])
  }

  lemma {:induction false} WeightedProgressScales(ps: seq<Phase>, total: real)
    requires total != 0.0
    ensures WeightedProgress(ps, total) == 100.0 * SumWeightedProgress(ps) / total
  {
    if ps != [] {
      WeightedProgressScales(ps[1..], total);
      var w := ps[0].weight;
      var p := ps[0].progress;
      var s := SumWeightedProgress(ps[1..]);
      assert Contribution(ps[0]) == w * p;
      calc {
        (w / total) * 100.0 * p + 100.0 * s / total;
        (100.0 * (w * p)) / total + (100.0 * s) / total;
        100.0 * (w * p + s) / total;
      }
    }
  }

  lemma {:induction false} SumWeightedProgressBounds(ps: seq<Phase>)
    requires forall i :: 0 <= i < |ps| ==> ps[i].weight >= 0.0 && 0.0 <= ps[i].progress <= 1.0
    ensures 0.0 <= SumWeightedProgress(ps) <= SumWeights(ps)
  {
    if ps != [] {
      ScaleWithinUnit(ps[0].weight, ps[0].progress);
      assert 0.0 <= Contribution(ps[0]) <= ps[0].weight;
      SumWeightedProgressBounds(ps[1..]);
    }
  }

  /** When every phase is at full progress the weighted sum is the sum of
      the weights. */
  lemma {:induction false} SumWeightedProgressFull(ps: seq<Phase>)
    requires forall i :: 0 <= i < |ps| ==> ps[i].progress == 1.0
    ensures SumWeightedProgress(ps) == SumWeights(ps)
  {
    if ps != [] {
      MulOne(ps[0].weight, ps[0].progress);
      assert Contribution(ps[0]) == ps[0].weight;
      SumWeightedProgressFull(ps[1..]);
    }
  }

  /** With non-negative weights and a positive total, the overall progress is a
      percentage, and it is 100 when every phase is at full progress. */
  lemma OverallProgressIsPercentage(t: Tracker)
    requires Valid(t)
    requires forall i :: 0 <= i < |t.phases| ==> t.phases[i].weight >= 0.0
    requires t.totalWeight > 0.0
    ensures 0.0 <= WeightedProgress(t.phases, t.totalWeight) <= 100.0
    ensures (forall i :: 0 <= i < |t.phases| ==> t.phases[i].progress == 1.0) ==>
              WeightedProgress(t.phases, t.totalWeight) == 100.0
  {
    WeightedProgressScales(t.phases, t.totalWeight);
    SumWeightedProgressBounds(t.phases);
    if forall i :: 0 <= i < |t.phases| ==> t.phases[i].progress == 1.0 {
      SumWeightedProgressFull(t.phases);
    }
    Percentage(SumWeightedProgress(t.phases), t.totalWeight);
  }

  /** A part of a positive whole, as a percentage, lies in [0, 100], and the
      whole itself is 100 percent. */
  lemma Percentage(part: real, whole: real)
    requires whole > 0.0 && 0.0 <= part <= whole
    ensures 0.0 <= 100.0 * part / whole <= 100.0
    ensures part == whole ==> 100.0 * part / whole == 100.0
  {
    var q := 100.0 * part / whole;
    assert q * whole == 100.0 * part;
    assert q <= 100.0 by {
      if q > 100.0 {
        assert q * whole > 100.0 * whole;
      }
    }
    if part == whole {
      assert (q - 100.0) * whole == 0.0;
    }
  }
}

=== FILE: plot_events.dfy ===
/** PlotEventsView: splits a plot's events into an "upcoming" list and a
    "done" list, orders each, and renders every event as a small stack of
    text lines. */
module PlotEvents {
  import opened Common
  import opened Sorting

  /** The fields of an `Event` record the view reads. */
  datatype Event = Event(
    windowStart: Option<string>,
    windowEnd: Option<string>,
    dateExecuted: Option<string>,
    notes: Option<string>,
    status: string,
    eventTypeName: Option<string>)

  datatype Tint = Gray | Orange | White | Yellow

  datatype Line = Line(text: string, tint: Tint)

  /** A child of one of the two lists: a centred placeholder or an event card. */
  datatype Item = Placeholder(text: string) | Card(lines: seq<Line>)

  datatype View = View(upcoming: seq<Item>, done: seq<Item>)

  /** An event still to do: not marked done and not executed. */
  predicate IsUpcoming(e: Event) {
    e.status != "done" && IsNullOrEmpty(e.dateExecuted)
  }

  /** The filter of the done list, written as the source writes it. */
  predicate IsDone(e: Event) {
    e.status == "done" || !IsNullOrEmpty(e.dateExecuted)
  }

  function Upcoming(es: seq<Event>): (r: seq<Event>)
    ensures forall e :: e in r <==> e in es && IsUpcoming(e)
  {
    if es == [] then []
    else if IsUpcoming(es[0]) then [es[0]] + Upcoming(es[1..])
    else Upcoming(es[1..])
  }

  function Done(es: seq<Event>): (r: seq<Event>)
    ensures forall e :: e in r <==> e in es && IsDone(e)
  {
    if es == [] then []
    else if IsDone(es[0]) then [es[0]] + Done(es[1..])
    else Done(es[1..])
  }

  /** Every event lands in exactly one of the two lists: the two filters are
      complementary, so together they are a permutation of the input. */
  lemma {:induction false} PartitionIsExact(es: seq<Event>)
    ensures multiset(Upcoming(es)) + multiset(Done(es)) == multiset(es)
    ensures forall e :: IsDone(e) <==> !IsUpcoming(e)
  {
    if es != [] {
      PartitionIsExact(es[1..]);
      assert es == [es[0]] + es[1..];
    }
  }

  function StartKey(e: Event): string { match e.windowStart case None => "" case Some(s) => s }
  function ExecutedKey(e: Event): string { match e.dateExecuted case None => "" case Some(s) => s }

  /** `OrderBy(e => e.WindowStart ?? "")` under the string comparer `cmp`. */
  function ByStart(cmp: (string, string) -> bool): (Event, Event) -> bool {
    (a: Event, b: Event) => cmp(StartKey(a), StartKey(b))
  }

  /** `OrderByDescending(e => e.DateExecuted ?? "")`. */
  function ByExecutedDescending(cmp: (string, string) -> bool): (Event, Event) -> bool {
    (a: Event, b: Event) => cmp(ExecutedKey(b), ExecutedKey(a))
  }

  lemma KeyOrdersArePreorders(cmp: (string, string) -> bool)
    requires TotalPreorder(cmp)
    ensures TotalPreorder(ByStart(cmp))
    ensures TotalPreorder(ByExecutedDescending(cmp))
  {
    var up := ByStart(cmp);
    var down := ByExecutedDescending(cmp);
    forall a, b, c | up(a, b) && up(b, c) ensures up(a, c) {
      assert cmp(StartKey(a), StartKey(b)) && cmp(StartKey(b), StartKey(c));
    }
    forall a, b ensures up(a, b) || up(b, a) {
      assert cmp(StartKey(a), StartKey(b)) || cmp(StartKey(b), StartKey(a));
    }
    forall a, b, c | down(a, b) && down(b, c) ensures down(a, c) {
      assert cmp(ExecutedKey(c), ExecutedKey(b)) && cmp(ExecutedKey(b), ExecutedKey(a));
    }
    forall a, b ensures down(a, b) || down(b, a) {
      assert cmp(ExecutedKey(a), ExecutedKey(b)) || cmp(ExecutedKey(b), ExecutedKey(a));
    }
  }

  function UpcomingList(es: seq<Event>, cmp: (string, string) -> bool): seq<Event> {
    Sort(Upcoming(es), ByStart(cmp))
  }

  function DoneList(es: seq<Event>, cmp: (string, string) -> bool): seq<Event> {
    Sort(Done(es), ByExecutedDescending(cmp))
  }

  /** The upcoming list is ordered by window start and the done list by
      execution date, latest first; each is a stable permutation of its filter,
      and together they hold every event exactly once. */
  lemma ListsAreOrderedPartition(es: seq<Event>, cmp: (string, string) -> bool)
    requires TotalPreorder(cmp)
    ensures Sorted(UpcomingList(es, cmp), ByStart(cmp))
    ensures Sorted(DoneList(es, cmp), ByExecutedDescending(cmp))
    ensures forall c :: Ties(UpcomingList(es, cmp), c, ByStart(cmp)) == Ties(Upcoming(es), c, ByStart(cmp))
    ensures forall c :: Ties(DoneList(es, cmp), c, ByExecutedDescending(cmp)) == Ties(Done(es), c, ByExecutedDescending(cmp))
    ensures multiset(UpcomingList(es, cmp)) + multiset(DoneList(es, cmp)) == multiset(es)
  {
    KeyOrdersArePreorders(cmp);
    SortIsStableOrdering(Upcoming(es), ByStart(cmp));
    SortIsStableOrdering(Done(es), ByExecutedDescending(cmp));
    PartitionIsExact(es);
  }

  /** The date line of a card, if the card has one. */
  function DateLine(e: Event, isDone: bool): (r: Option<string>)
    ensures r.Some? <==> !IsNullOrEmpty(e.windowStart) || !IsNullOrEmpty(e.dateExecuted)
  {
    if IsNullOrEmpty(e.windowStart) && IsNullOrEmpty(e.dateExecuted) then None
    else if isDone && !IsNullOrEmpty(e.dateExecuted) then Some("Completed: " + e.dateExecuted.value)
    else if !IsNullOrEmpty(e.windowStart) then
      Some("Due: " + e.windowStart.value + (if IsNullOrEmpty(e.windowEnd) then "" else " - " + e.windowEnd.value))
    else Some("")
  }

  /** `CreateEventItem`: title, then the optional date, notes and status
      lines, each tinted by whether the card sits in the done list. */
  function EventCard(e: Event, isDone: bool): (r: seq<Line>)
    ensures |r| >= 1
    ensures r[0] == Line(match e.eventTypeName case None => "Unknown Event" case Some(n) => n, if isDone then Gray else Orange)
    ensures forall i :: 0 <= i < |r| ==> isDone ==> r[i].tint == Gray
    ensures |r| == 1 + (if DateLine(e, isDone).Some? then 1 else 0)
                     + (if IsNullOrEmpty(e.notes) then 0 else 1)
                     + (if e.status == "" then 0 else 1)
    ensures DateLine(e, isDone).Some? ==> r[1] == Line(DateLine(e, isDone).value, if isDone then Gray else White)
    ensures !IsNullOrEmpty(e.notes) ==>
              r[1 + (if DateLine(e, isDone).Some? then 1 else 0)] == Line(e.notes.value, if isDone then Gray else White)
    ensures e.status != "" ==> r[|r| - 1] == Line("Status: " + e.status, if isDone then Gray else Yellow)
  {
    var title := Line(match e.eventTypeName case None => "Unknown Event" case Some(n) => n, if isDone then Gray else Orange);
    var date := match DateLine(e, isDone) case None => [] case Some(d) => [Line(d, if isDone then Gray else White)];
    var notes := if IsNullOrEmpty(e.notes) then [] else [Line(e.notes.value, if isDone then Gray else White)];
    var status := if e.status == "" then [] else [Line("Status: " + e.status, if isDone then Gray else Yellow)];
    [title] + date + notes + status
  }

  function Cards(es: seq<Event>, isDone: bool): (r: seq<Item>)
    ensures |r| == |es|
    ensures forall i :: 0 <= i < |es| ==> r[i] == Card(EventCard(es[i], isDone))
  {
    seq(|es|, i requires 0 <= i < |es| => Card(EventCard(es[i], isDone)))
  }

  /** `UpdateEvents`; `None` when the two list containers are missing and the
      view is left as it was. */
  function UpdateEvents(hasContainers: bool, events: Option<seq<Event>>, cmp: (string, string) -> bool): (r: Option<View>)
    ensures r.None? <==> !hasContainers
    ensures r.Some? && (events.None? || events.value == []) ==> r.value == View([Placeholder("No events found")], [])
    ensures r.Some? && events.Some? && events.value != [] ==>
              && (Upcoming(events.value) == [] <==> r.value.upcoming == [Placeholder("No upcoming tasks")])
              && (Done(events.value) == [] <==> r.value.done == [Placeholder("No completed tasks")])
              && (Upcoming(events.value) != [] ==> r.value.upcoming == Cards(UpcomingList(events.value, cmp), false))
              && (Done(events.value) != [] ==> r.value.done == Cards(DoneList(events.value, cmp), true))
  {
    if !hasContainers then None
    else if events.None? || events.value == [] then Some(View([Placeholder("No events found")], []))
    else
      var up := UpcomingList(events.value, cmp);
      var done := DoneList(events.value, cmp);
      assert |up| == |Upcoming(events.value)| && |done| == |Done(events.value)|;
      assert up != [] ==> Cards(up, false)[0].Card?;
      assert done != [] ==> Cards(done, true)[0].Card?;
      Some(View(
        if up == [] then [Placeholder("No upcoming tasks")] else Cards(up, false),
        if done == [] then [Placeholder("No completed tasks")] else Cards(done, true)))
  }

  /** The upcoming column shows the upcoming events ordered by window
      start, each exactly once, under orange titles. */
  lemma UpcomingColumnIsOrdered(events: seq<Event>, cmp: (string, string) -> bool)
    requires TotalPreorder(cmp) && events != [] && Upcoming(events) != []
    ensures var v := UpdateEvents(true, Some(events), cmp).value;
            var up := UpcomingList(events, cmp);
            && v.upcoming == Cards(up, false)
            && Sorted(up, ByStart(cmp)) && multiset(up) == multiset(Upcoming(events))
            && forall i :: 0 <= i < |v.upcoming| ==> v.upcoming[i].Card? && v.upcoming[i].lines[0].tint == Orange
  {
    KeyOrdersArePreorders(cmp);
    SortIsStableOrdering(Upcoming(events), ByStart(cmp));
  }

  /** The done column shows the done events by execution date, latest
      first, each exactly once, every line grey. */
  lemma DoneColumnIsOrdered(events: seq<Event>, cmp: (string, string) -> bool)
    requires TotalPreorder(cmp) && events != [] && Done(events) != []
    ensures var v := UpdateEvents(true, Some(events), cmp).value;
            var done := DoneList(events, cmp);
            && v.done == Cards(done, true)
            && Sorted(done, ByExecutedDescending(cmp)) && multiset(done) == multiset(Done(events))
            && forall i :: 0 <= i < |v.done| ==>
                 v.done[i].Card? && forall j :: 0 <= j < |v.done[i].lines| ==> v.done[i].lines[j].tint == Gray
  {
    KeyOrdersArePreorders(cmp);
    SortIsStableOrdering(Done(events), ByExecutedDescending(cmp));
  }

  /** With events present, the cards shown are one per event: the upcoming
      cards and the done cards together number exactly the events. */
  lemma OneCardPerEvent(events: seq<Event>, cmp: (string, string) -> bool)
    requires events != []
    ensures var v := UpdateEvents(true, Some(events), cmp).value;
            CardCount(v.upcoming) + CardCount(v.done) == |events|
  {
    var up := UpcomingList(events, cmp);
    var done := DoneList(events, cmp);
    assert |up| + |done| == |events| by {
      PartitionIsExact(events);
      assert |up| == |Upcoming(events)| && |done| == |Done(events)|;
      assert |multiset(Upcoming(events)) + multiset(Done(events))| == |multiset(events)|;
    }
    var v := UpdateEvents(true, Some(events), cmp).value;
    if up == [] {
      assert CardCount(v.upcoming) == 0;
    } else {
      CardCountOfCards(up, false);
    }
    if done == [] {
      assert CardCount(v.done) == 0;
    } else {
      CardCountOfCards(done, true);
    }
  }

  function CardCount(items: seq<Item>): nat {
    if items == [] then 0 else (if items[0].Card? then 1 else 0) + CardCount(items[1..])
  }

  lemma {:induction false} CardCountOfCards(es: seq<Event>, isDone: bool)
    ensures CardCount(Cards(es, isDone)) == |es|
  {
    if es != [] {
      assert Cards(es, isDone)[1..] == Cards(es[1..], isDone);
      CardCountOfCards(es[1..], isDone);
    }
  }

  /** A card in the done list reports the execution date whenever there is
      one; a card in the upcoming list never says "Completed". */
  lemma DateLineMatchesList(e: Event)
    ensures IsUpcoming(e) ==> DateLine(e, false) == (if IsNullOrEmpty(e.windowStart) then None
                                                     else Some("Due: " + e.windowStart.value + (if IsNullOrEmpty(e.windowEnd) then "" else " - " + e.windowEnd.value)))
    ensures !IsNullOrEmpty(e.dateExecuted) ==> DateLine(e, true) == Some("Completed: " + e.dateExecuted.value)
  {
  }
}

=== FILE: sorting.dfy ===
/** LINQ's `OrderBy` / `OrderByDescending` / `ThenBy`: a stable sort under a
    total preorder. The model is an insertion sort; its contract is what LINQ
    promises — the output is sorted, a permutation of the input, and elements
    that compare equal keep their input order. */
module Sorting {

  /** `le` compares every pair and is transitive: the comparer of a key
      selector. */
  ghost predicate TotalPreorder<T(!new)>(le: (T, T) -> bool) {
    && (forall a, b :: le(a, b) || le(b, a))
    && (forall a, b, c :: le(a, b) && le(b, c) ==> le(a, c))
  }

  predicate Sorted<T>(s: seq<T>, le: (T, T) -> bool) {
    forall i, j :: 0 <= i < j < |s| ==> le(s[i], s[j])
  }

  /** The elements of `s` that compare equal to `c`, in their order in `s`. */
  function Ties<T>(s: seq<T>, c: T, le: (T, T) -> bool): (r: seq<T>)
    ensures |r| <= |s|
  {
    if s == [] then []
    else if le(s[0], c) && le(c, s[0]) then [s[0]] + Ties(s[1..], c, le)
    else Ties(s[1..], c, le)
  }

  /** Puts `x` in front of the first element it is not greater than. */
  function Insert<T>(x: T, s: seq<T>, le: (T, T) -> bool): (r: seq<T>)
    ensures |r| == |s| + 1
    ensures multiset(r) == multiset(s) + multiset{x}
  {
    if s == [] || le(x, s[0]) then [x] + s
    else
      assert s == [s[0]] + s[1..];
      [s[0]] + Insert(x, s[1..], le)
  }

  /** The sort: the first element is inserted into the sorted remainder, so it
      lands in front of every element equal to it. */
  function Sort<T>(s: seq<T>, le: (T, T) -> bool): (r: seq<T>)
    ensures |r| == |s|
    ensures multiset(r) == multiset(s)
  {
    if s == [] then []
    else
      assert s == [s[0]] + s[1..];
      Insert(s[0], Sort(s[1..], le), le)
  }

  lemma {:induction false} InsertSorted<T(!new)>(x: T, s: seq<T>, le: (T, T) -> bool)
    requires TotalPreorder(le)
    requires Sorted(s, le)
    ensures Sorted(Insert(x, s, le), le)
  {
    if s != [] && !le(x, s[0]) {
      InsertSorted(x, s[1..], le);
      var r := Insert(x, s, le);
      assert r == [s[0]] + Insert(x, s[1..], le);
      forall j | 0 < j < |r|
        ensures le(s[0], r[j])
      {
        assert r[j] in multiset(Insert(x, s[1..], le));
        assert r[j] == x || r[j] in multiset(s[1..]);
        if r[j] != x {
          var k :| 0 <= k < |s[1..]| && s[1..][k] == r[j];
          assert s[k + 1] == r[j];
        }
      }
    }
  }

  lemma {:induction false} InsertTies<T(!new)>(x: T, s: seq<T>, c: T, le: (T, T) -> bool)
    requires TotalPreorder(le)
    ensures Ties(Insert(x, s, le), c, le) ==
              (if le(x, c) && le(c, x) then [x] + Ties(s, c, le) else Ties(s, c, le))
  {
    if s == [] || le(x, s[0]) {
      assert ([x] + s)[1..] == s;
    } else {
      assert ([s[0]] + Insert(x, s[1..], le))[1..] == Insert(x, s[1..], le);
      InsertTies(x, s[1..], c, le);
      if le(x, c) && le(c, x) {
        // s[0] is strictly below x, so it cannot tie with c
        assert !(le(s[0], c) && le(c, s[0]));
      }
    }
  }

  /** `Sort` is LINQ's ordering: sorted, a permutation, and stable. */
  lemma {:induction false} SortIsStableOrdering<T(!new)>(s: seq<T>, le: (T, T) -> bool)
    requires TotalPreorder(le)
    ensures Sorted(Sort(s, le), le)
    ensures multiset(Sort(s, le)) == multiset(s)
    ensures forall c :: Ties(Sort(s, le), c, le) == Ties(s, c, le)
  {
    if s != [] {
      SortIsStableOrdering(s[1..], le);
      InsertSorted(s[0], Sort(s[1..], le), le);
      forall c
        ensures Ties(Sort(s, le), c, le) == Ties(s, c, le)
      {
        InsertTies(s[0], Sort(s[1..], le), c, le);
      }
    }
  }
}

=== FILE: time_manager.dfy ===
/** The game clock (TimeManager): minutes since midnight advanced by the frame
    delta times a speed multiplier, a month that rolls over when the clock
    crosses 08:00 once per day, and the calendar queries derived from the
    month (time string, sunrise and sunset tables, season, twig multiplier).
    Notifications that the class raises through C# events are returned as a
    sequence, in the order the class raises them. */
module TimeManager {
  import opened Common

  /** The speed multipliers the player can step through. */
  const SpeedTable: seq<real> := [0.25, 0.5, 1.0, 2.0, 4.0, 8.0, 16.0, 32.0]
  const NormalSpeedIndex: int := 2
  const DayMinutes: real := 1440.0
  const EightAM: real := 480.0

  datatype Clock = Clock(
    minutes: real,            // minutes since midnight
    month: int,               // 1..12
    year: int,
    monthAdvancedToday: bool, // set once the 08:00 rollover fired today
    speedIndex: int,          // index into SpeedTable
    speed: real)              // the multiplier in effect

  datatype Notification = TimeChanged(minutes: real) | DateChanged(month: int, year: int)

  datatype Step = Step(clock: Clock, events: seq<Notification>)

  ghost predicate Valid(c: Clock) {
    && 0.0 <= c.minutes < DayMinutes
    && 1 <= c.month <= 12
    && 0 <= c.speedIndex < |SpeedTable|
    && c.speed == SpeedTable[c.speedIndex]
  }

  /** Field initialisers plus `_Ready`: the month and year come from the host
      clock, the time is set to 08:00 and both notifications fire. */
  function Ready(nowMonth: int, nowYear: int): (s: Step)
    requires 1 <= nowMonth <= 12
    ensures Valid(s.clock)
    ensures s.clock.minutes == EightAM && s.clock.speed == 1.0 && !s.clock.monthAdvancedToday
    ensures s.events == [TimeChanged(EightAM), DateChanged(nowMonth, nowYear)]
  {
    Step(Clock(EightAM, nowMonth, nowYear, false, NormalSpeedIndex, 1.0),
         [TimeChanged(EightAM), DateChanged(nowMonth, nowYear)])
  }

  /** Position of the calendar month on an absolute month line. */
  function MonthNumber(month: int, year: int): int {
    year * 12 + (month - 1)
  }

  /** `AdvanceMonth`: one month forward, carrying into the year after December. */
  function AdvanceMonth(c: Clock): (s: Step)
    requires 1 <= c.month <= 12
    ensures 1 <= s.clock.month <= 12
    ensures MonthNumber(s.clock.month, s.clock.year) == MonthNumber(c.month, c.year) + 1
    ensures s.events == [DateChanged(s.clock.month, s.clock.year)]
    ensures s.clock.minutes == c.minutes && s.clock.speed == c.speed
    ensures s.clock.speedIndex == c.speedIndex && s.clock.monthAdvancedToday == c.monthAdvancedToday
  {
    var c' := if c.month < 12 then c.(month := c.month + 1) else c.(month := 1, year := c.year + 1);
    Step(c', [DateChanged(c'.month, c'.year)])
  }

  /** `_Process`: one frame of `delta` real seconds. */
  function Tick(c: Clock, delta: real): (s: Step)
    requires 1 <= c.month <= 12
    // the wrap subtracts a single day, however long the step
    ensures var t := c.minutes + delta * c.speed;
            s.clock.minutes == (if t >= DayMinutes then t - DayMinutes else t)
    // the month rolls over exactly when 08:00 is crossed upwards on a day it has not yet rolled
    ensures MonthNumber(s.clock.month, s.clock.year) ==
              MonthNumber(c.month, c.year) + (if RollsOver(c, delta) then 1 else 0)
    ensures RollsOver(c, delta) ==> s.clock.monthAdvancedToday
    ensures !RollsOver(c, delta) ==>
              s.clock.monthAdvancedToday == (c.monthAdvancedToday && c.minutes + delta * c.speed < DayMinutes)
    // a date notification (if any) comes before the time notification
    ensures s.events == (if RollsOver(c, delta) then [DateChanged(s.clock.month, s.clock.year)] else [])
                        + [TimeChanged(s.clock.minutes)]
    ensures s.clock.speed == c.speed && s.clock.speedIndex == c.speedIndex
  {
    var minutesPassed := delta * c.speed;
    var previousTime := c.minutes;
    var t := c.minutes + minutesPassed;
    var c1 := if t >= DayMinutes then c.(minutes := t - DayMinutes, monthAdvancedToday := false)
              else c.(minutes := t);
    if !c1.monthAdvancedToday && c1.minutes >= EightAM && previousTime < EightAM then
      var adv := AdvanceMonth(c1);
      Step(adv.clock.(monthAdvancedToday := true), adv.events + [TimeChanged(adv.clock.minutes)])
    else
      Step(c1, [TimeChanged(c1.minutes)])
  }

  /** The rollover condition of one tick, stated on the state before it. */
  predicate RollsOver(c: Clock, delta: real) {
    var t := c.minutes + delta * c.speed;
    var wrapped := t >= DayMinutes;
    var t' := if wrapped then t - DayMinutes else t;
    && (wrapped || !c.monthAdvancedToday)
    && c.minutes < EightAM <= t'
  }

  /** A tick whose step is shorter than a day keeps the clock in range. */
  lemma TickKeepsValid(c: Clock, delta: real)
    requires Valid(c)
    requires 0.0 <= delta * c.speed < DayMinutes
    ensures Valid(Tick(c, delta).clock)
  {
  }

  /** A step of a day or more can leave the clock past midnight: the source
      wraps once per frame. */
  lemma LongStepLeavesClockPastMidnight()
    ensures var c := Clock(0.0, 1, 2024, false, NormalSpeedIndex, 1.0);
            Tick(c, 3000.0).clock.minutes == 1560.0
  {
  }

  /** The frames of a run, applied in order; the notifications are concatenated. */
  function Run(c: Clock, deltas: seq<real>): (s: Step)
    requires 1 <= c.month <= 12
    ensures 1 <= s.clock.month <= 12
    decreases |deltas|
  {
    if deltas == [] then Step(c, [])
    else
      var first := Tick(c, deltas[0]);
      var rest := Run(first.clock, deltas[1..]);
      Step(rest.clock, first.events + rest.events)
  }

  /** No frame of the run reaches midnight. */
  predicate NoMidnight(c: Clock, deltas: seq<real>)
    requires 1 <= c.month <= 12
    decreases |deltas|
  {
    deltas == [] ||
    (c.minutes + deltas[0] * c.speed < DayMinutes && NoMidnight(Tick(c, deltas[0]).clock, deltas[1..]))
  }

  function CountDateChanges(es: seq<Notification>): nat {
    if es == [] then 0 else (if es[0].DateChanged? then 1 else 0) + CountDateChanges(es[1..])
  }

  lemma CountDateChangesAppend(a: seq<Notification>, b: seq<Notification>)
    ensures CountDateChanges(a + b) == CountDateChanges(a) + CountDateChanges(b)
  {
    if a == [] {
      assert a + b == b;
    } else {
      assert (a + b)[1..] == a[1..] + b;
      CountDateChangesAppend(a[1..], b);
    }
  }

  /** Within one day (no frame reaches midnight) the month rolls over at most
      once, and not at all once the day's rollover has happened. */
  lemma {:induction false} AtMostOneRolloverPerDay(c: Clock, deltas: seq<real>)
    requires 1 <= c.month <= 12
    requires forall i :: 0 <= i < |deltas| ==> deltas[i] >= 0.0
    requires c.speed >= 0.0
    requires NoMidnight(c, deltas)
    ensures CountDateChanges(Run(c, deltas).events) <= (if c.monthAdvancedToday then 0 else 1)
    ensures MonthNumber(Run(c, deltas).clock.month, Run(c, deltas).clock.year)
              <= MonthNumber(c.month, c.year) + (if c.monthAdvancedToday then 0 else 1)
    decreases |deltas|
  {
    if deltas != [] {
      var first := Tick(c, deltas[0]);
      assert deltas[0] * c.speed >= 0.0;
      CountDateChangesAppend(first.events, Run(first.clock, deltas[1..]).events);
      assert CountDateChanges([TimeChanged(first.clock.minutes)]) == 0;
      if RollsOver(c, deltas[0]) {
        assert CountDateChanges(first.events) == 1;
        AtMostOneRolloverPerDay(first.clock, deltas[1..]);
      } else {
        assert CountDateChanges(first.events) == 0;
        assert first.clock.monthAdvancedToday == c.monthAdvancedToday;
        AtMostOneRolloverPerDay(first.clock, deltas[1..]);
      }
    }
  }

  /** The scenario of one whole day at normal speed: a day minus a minute from
      08:00 keeps the month (already rolled today), a further hour wraps to
      00:59 and clears the flag without rolling the month again. */
  lemma DayScenario()
    ensures var c0 := Clock(EightAM, 1, 2024, true, NormalSpeedIndex, 1.0);
            var s1 := Tick(c0, 959.0);
            var s2 := Tick(s1.clock, 60.0);
            && s1.clock.minutes == 1439.0 && s1.clock.month == 1 && s1.clock.monthAdvancedToday
            && s2.clock.minutes == 59.0 && s2.clock.month == 1 && !s2.clock.monthAdvancedToday
            && s2.events == [TimeChanged(59.0)]
  {
  }

  /** `SlowDownTime`: one step down the table, a no-op at the slowest speed. */
  function SlowDown(c: Clock): (r: Clock)
    requires 0 <= c.speedIndex < |SpeedTable|
    ensures 0 <= r.speedIndex < |SpeedTable|
    ensures c.speedIndex == 0 ==> r == c
    ensures c.speedIndex > 0 ==> r.speedIndex == c.speedIndex - 1 && r.speed == SpeedTable[r.speedIndex]
    ensures r.minutes == c.minutes && r.month == c.month && r.year == c.year
    ensures r.monthAdvancedToday == c.monthAdvancedToday
  {
    if c.speedIndex > 0 then c.(speedIndex := c.speedIndex - 1, speed := SpeedTable[c.speedIndex - 1])
    else c
  }

  /** `SpeedUpTime`: one step up the table, a no-op at the fastest speed. */
  function SpeedUp(c: Clock): (r: Clock)
    requires 0 <= c.speedIndex < |SpeedTable|
    ensures 0 <= r.speedIndex < |SpeedTable|
    ensures c.speedIndex == |SpeedTable| - 1 ==> r == c
    ensures c.speedIndex < |SpeedTable| - 1 ==> r.speedIndex == c.speedIndex + 1 && r.speed == SpeedTable[r.speedIndex]
    ensures r.minutes == c.minutes && r.month == c.month && r.year == c.year
    ensures r.monthAdvancedToday == c.monthAdvancedToday
  {
    if c.speedIndex < |SpeedTable| - 1 then c.(speedIndex := c.speedIndex + 1, speed := SpeedTable[c.speedIndex + 1])
    else c
  }

  /** The table is strictly increasing, so the controls move the speed monotonically. */
  lemma SpeedControlsAreMonotone(c: Clock)
    requires Valid(c)
    ensures Valid(SlowDown(c)) && Valid(SpeedUp(c))
    ensures SlowDown(c).speed <= c.speed <= SpeedUp(c).speed
    ensures c.speedIndex > 0 ==> SlowDown(c).speed < c.speed
    ensures c.speedIndex < |SpeedTable| - 1 ==> c.speed < SpeedUp(c).speed
  {
  }

  /** Slowing down undoes speeding up, and the other way round, away from the ends. */
  lemma SpeedControlsInverse(c: Clock)
    requires Valid(c)
    ensures c.speedIndex < |SpeedTable| - 1 ==> SlowDown(SpeedUp(c)) == c
    ensures c.speedIndex > 0 ==> SpeedUp(SlowDown(c)) == c
  {
  }

  /** However many presses, the speed stays inside the table. */
  function PressSlowDown(c: Clock, n: nat): (r: Clock)
    requires 0 <= c.speedIndex < |SpeedTable|
    ensures 0 <= r.speedIndex < |SpeedTable|
    decreases n
  {
    if n == 0 then c else PressSlowDown(SlowDown(c), n - 1)
  }

  lemma {:induction false} RepeatedSlowDownStopsAtMinimum(c: Clock, n: nat)
    requires Valid(c)
    requires n >= c.speedIndex
    ensures PressSlowDown(c, n).speedIndex == 0
    ensures PressSlowDown(c, n).speed == SpeedTable[0]
    decreases n
  {
    if n > 0 {
      RepeatedSlowDownStopsAtMinimum(SlowDown(c), n - 1);
    }
  }

  /** `NextMonth`: jump to 08:00 of the next month, with the day's rollover spent. */
  function NextMonth(c: Clock): (s: Step)
    requires 1 <= c.month <= 12
    ensures s.clock.minutes == EightAM && s.clock.monthAdvancedToday
    ensures 1 <= s.clock.month <= 12
    ensures MonthNumber(s.clock.month, s.clock.year) == MonthNumber(c.month, c.year) + 1
    ensures s.events == [DateChanged(s.clock.month, s.clock.year)]
    ensures s.clock.speed == c.speed && s.clock.speedIndex == c.speedIndex
  {
    AdvanceMonth(c.(minutes := EightAM, monthAdvancedToday := true))
  }

  /** `PreviousMonth`: jump to 08:00 of the previous month. */
  function PreviousMonth(c: Clock): (s: Step)
    requires 1 <= c.month <= 12
    ensures s.clock.minutes == EightAM && s.clock.monthAdvancedToday
    ensures 1 <= s.clock.month <= 12
    ensures MonthNumber(s.clock.month, s.clock.year) == MonthNumber(c.month, c.year) - 1
    ensures s.events == [DateChanged(s.clock.month, s.clock.year)]
    ensures s.clock.speed == c.speed && s.clock.speedIndex == c.speedIndex
  {
    var c1 := c.(minutes := EightAM, monthAdvancedToday := true);
    var c2 := if c1.month > 1 then c1.(month := c1.month - 1) else c1.(month := 12, year := c1.year - 1);
    Step(c2, [DateChanged(c2.month, c2.year)])
  }

  /** Forward then back (or back then forward) returns to the same month and year. */
  lemma MonthJumpsAreInverse(c: Clock)
    requires 1 <= c.month <= 12
    ensures var b := PreviousMonth(NextMonth(c).clock).clock; b.month == c.month && b.year == c.year
    ensures var f := NextMonth(PreviousMonth(c).clock).clock; f.month == c.month && f.year == c.year
  {
  }

  /** December rolls into January of the next year; other months just increment. */
  lemma MonthRolloverArithmetic(c: Clock)
    requires 1 <= c.month <= 12
    ensures c.month == 12 ==> AdvanceMonth(c).clock.month == 1 && AdvanceMonth(c).clock.year == c.year + 1
    ensures c.month < 12 ==> AdvanceMonth(c).clock.month == c.month + 1 && AdvanceMonth(c).clock.year == c.year
    ensures c.month == 1 ==> PreviousMonth(c).clock.month == 12 && PreviousMonth(c).clock.year == c.year - 1
  {
  }

  /** `GetTimeString`: `HH:MM` from truncated hours and the truncated remainder. */
  function TimeString(minutes: real): (s: string)
    ensures 0.0 <= minutes < DayMinutes ==>
              |s| == 5 && s[2] == ':' && IsDigit(s[0]) && IsDigit(s[1]) && IsDigit(s[3]) && IsDigit(s[4])
  {
    var hours := Trunc(minutes / 60.0);
    var mins := Trunc(FMod(minutes, 60.0));
    assert 0.0 <= minutes < DayMinutes ==> 0 <= hours < 24 && 0 <= mins < 60 by {
      if 0.0 <= minutes < DayMinutes { TimeFields(minutes); }
    }
    D2(hours) + ":" + D2(mins)
  }

  lemma TimeFields(minutes: real)
    requires 0.0 <= minutes < DayMinutes
    ensures 0 <= Trunc(minutes / 60.0) < 24
    ensures 0 <= Trunc(FMod(minutes, 60.0)) < 60
    ensures Trunc(minutes / 60.0) * 60 + Trunc(FMod(minutes, 60.0)) == minutes.Floor
  {
    var h := Trunc(minutes / 60.0);
    assert h as real <= minutes / 60.0 < h as real + 1.0;
    var rem := minutes - 60.0 * h as real;
    assert 0.0 <= rem < 60.0;
    assert FMod(minutes, 60.0) == rem;
    var m := Trunc(rem);
    assert (h * 60 + m) as real <= minutes < (h * 60 + m) as real + 1.0;
  }

  /** Reads an `HH:MM` string back into whole minutes since midnight. */
  function ParseTimeString(s: string): Option<int> {
    if |s| == 5 && s[2] == ':' && IsDigit(s[0]) && IsDigit(s[1]) && IsDigit(s[3]) && IsDigit(s[4])
    then Some(ParseDigits(s[..2]) * 60 + ParseDigits(s[3..]))
    else None
  }

  /** The time string names the whole minute the clock is in. */
  lemma TimeStringRoundTrip(minutes: real)
    requires 0.0 <= minutes < DayMinutes
    ensures ParseTimeString(TimeString(minutes)) == Some(minutes.Floor)
  {
    TimeFields(minutes);
    var h := Trunc(minutes / 60.0);
    var m := Trunc(FMod(minutes, 60.0));
    var s := TimeString(minutes);
    assert s[..2] == Pad2(h) && s[3..] == Pad2(m);
    Pad2Reads(h);
    Pad2Reads(m);
  }

  lemma Pad2Reads(n: nat)
    requires n < 100
    ensures ParseDigits(Pad2(n)) == n
  {
    var s := Pad2(n);
    assert s[..1] == [DigitChar(n / 10)];
    assert s[..1][..0] == [];
    assert DigitValue(s[0]) == n / 10;
    assert DigitValue(s[1]) == n % 10;
    assert ParseDigits(s[..1]) == n / 10;
  }

  lemma TimeStringExamples()
    ensures TimeString(90.0) == "01:30"
    ensures TimeString(0.0) == "00:00"
    ensures TimeString(1439.0) == "23:59"
  {
    TimeFields(90.0);
    TimeFields(0.0);
    TimeFields(1439.0);
  }

  const MonthNames: seq<string> := ["January", "February", "March", "April", "May", "June",
                                    "July", "August", "September", "October", "November", "December"]

  /** `GetMonthString` with the invariant culture: the month's full name.
      The date constructor throws for a month outside 1..12 or a year
      outside 1..9999. */
  function MonthName(month: int, year: int): (r: Option<string>)
    ensures r.Some? <==> 1 <= month <= 12 && 1 <= year <= 9999
    ensures r.Some? ==> r.value == MonthNames[month - 1]
  {
    if 1 <= month <= 12 && 1 <= year <= 9999 then Some(MonthNames[month - 1]) else None
  }

  /** The month jumps keep the name query defined only while the year stays
      in range: stepping back from January of year 1 reaches year 0, where
      the name query throws, and stepping forward from December 9999 does
      the same. */
  lemma MonthJumpsLeaveTheNamedYears(c: Clock)
    requires 1 <= c.month <= 12
    ensures MonthName(c.month, c.year).Some? && !(c.month == 1 && c.year == 1) ==>
              MonthName(PreviousMonth(c).clock.month, PreviousMonth(c).clock.year).Some?
    ensures c.month == 1 && c.year == 1 ==> MonthName(PreviousMonth(c).clock.month, PreviousMonth(c).clock.year).None?
    ensures c.month == 12 && c.year == 9999 ==> MonthName(NextMonth(c).clock.month, NextMonth(c).clock.year).None?
    ensures MonthName(c.month, c.year).Some? && !(c.month == 12 && c.year == 9999) ==>
              MonthName(NextMonth(c).clock.month, NextMonth(c).clock.year).Some?
  {
  }

  const SunriseTable: seq<real> := [480.0, 450.0, 420.0, 360.0, 330.0, 300.0,
                                    330.0, 360.0, 390.0, 420.0, 450.0, 480.0]
  const SunsetTable: seq<real> := [960.0, 990.0, 1020.0, 1080.0, 1140.0, 1260.0,
                                   1230.0, 1170.0, 1110.0, 1050.0, 990.0, 960.0]

  /** `GetSunriseTime`: table lookup, 06:00 for a month outside 1..12. */
  function Sunrise(month: int): (r: real)
    ensures 300.0 <= r <= 480.0
    ensures !(1 <= month <= 12) ==> r == 360.0
  {
    if 0 <= month - 1 < |SunriseTable| then SunriseTable[month - 1] else 360.0
  }

  /** `GetSunsetTime`: table lookup, 18:00 for a month outside 1..12. */
  function Sunset(month: int): (r: real)
    ensures 960.0 <= r <= 1260.0
    ensures !(1 <= month <= 12) ==> r == 1080.0
  {
    if 0 <= month - 1 < |SunsetTable| then SunsetTable[month - 1] else 1080.0
  }

  /** Every month has a day: sunrise strictly before sunset; June is the
      longest day and December and January the shortest. */
  lemma DaylightByMonth(month: int)
    ensures Sunrise(month) < Sunset(month)
    ensures Sunset(month) - Sunrise(month) <= Sunset(6) - Sunrise(6)
    ensures 1 <= month <= 12 ==> Sunset(12) - Sunrise(12) <= Sunset(month) - Sunrise(month)
    ensures Sunset(1) - Sunrise(1) == Sunset(12) - Sunrise(12)
  {
  }

  datatype Season = Winter | Spring | Summer | Autumn

  /** `GetCurrentSeason`: December, January, February and everything at or
      below 2 are winter; months above 11 other than 12 fall to autumn. */
  function SeasonOf(month: int): (r: Season)
    ensures month <= 2 ==> r == Winter
  {
    if month == 12 || month <= 2 then Winter
    else if 3 <= month <= 5 then Spring
    else if 6 <= month <= 8 then Summer
    else Autumn
  }

  /** The seasons are consecutive quarters of the year that start in December. */
  lemma SeasonIsQuarterFromDecember(month: int)
    requires 1 <= month <= 12
    ensures SeasonOf(month) == [Winter, Spring, Summer, Autumn][(month % 12) / 3]
  {
  }

  /** `GetTwigScaleMultiplier`: piecewise-linear through (1, 0), (4, 0.25),
      (7, 1), (10, 0.5), and back towards 0 for November and December. */
  function TwigScaleMultiplier(month: int): (r: real)
    ensures 1 <= month <= 12 ==> 0.0 <= r <= 1.0
    ensures 1 <= month <= 12 ==> (r == 0.0 <==> month == 1)
    ensures 1 <= month <= 12 ==> (r == 1.0 <==> month == 7)
  {
    if month == 1 then 0.0
    else if 1 <= month < 4 then Lerp(0.0, 0.25, (month - 1) as real / 3.0)
    else if month == 4 then 0.25
    else if 4 < month < 7 then Lerp(0.25, 1.0, (month - 4) as real / 3.0)
    else if month == 7 then 1.0
    else if 7 < month < 10 then Lerp(1.0, 0.5, (month - 7) as real / 3.0)
    else if month == 10 then 0.5
    else Lerp(0.5, 0.0, (month - 10) as real / 3.0)
  }

  /** The four anchor values of the foliage year, January first. */
  const TwigAnchors: seq<real> := [0.0, 0.25, 1.0, 0.5]

  /** Reference curve: month m lies in quarter (m-1)/3, a fraction ((m-1)%3)/3
      of the way from that quarter's anchor to the next (cyclically). */
  function AnchorCurve(anchors: seq<real>, month: int): real
    requires |anchors| == 4
    requires 1 <= month <= 12
  {
    var k := (month - 1) / 3;
    Lerp(anchors[k], anchors[(k + 1) % 4], ((month - 1) % 3) as real / 3.0)
  }

  /** The multiplier agrees with the cyclic four-anchor curve on every month,
      takes the anchor values exactly, stays in [0, 1] and peaks in July. */
  lemma TwigMultiplierIsAnchorCurve(month: int)
    requires 1 <= month <= 12
    ensures TwigScaleMultiplier(month) == AnchorCurve(TwigAnchors, month)
    ensures 0.0 <= TwigScaleMultiplier(month) <= TwigScaleMultiplier(7) == 1.0
    ensures TwigScaleMultiplier(1) == 0.0 && TwigScaleMultiplier(4) == 0.25 && TwigScaleMultiplier(10) == 0.5
  {
  }
}

=== FILE: token_manager.dfy ===
/** TokenManager: the access and refresh tokens of the signed-in user and
    the flag that says a token refresh is under way. */
module TokenManager {
  import opened Common

  /** The tokens start as empty strings, but a caller may hand `SetTokens`
      a null, so they are optional here and `IsAuthenticated` uses the
      null-or-empty test. */
  datatype Tokens = Tokens(access: Option<string>, refresh: Option<string>, refreshing: bool)

  function Initial(): (t: Tokens)
    ensures !IsAuthenticated(t) && !t.refreshing
    ensures t.access == Some("") && t.refresh == Some("")
  {
    Tokens(Some(""), Some(""), false)
  }

  /** Signed in iff there is a non-empty access token. */
  predicate IsAuthenticated(t: Tokens) {
    !IsNullOrEmpty(t.access)
  }

  function SetTokens(t: Tokens, access: Option<string>, refresh: Option<string>): (r: Tokens)
    ensures r.access == access && r.refresh == refresh
    ensures r.refreshing == t.refreshing
    ensures IsAuthenticated(r) <==> access.Some? && access.value != ""
  {
    t.(access := access, refresh := refresh)
  }

  function ClearTokens(t: Tokens): (r: Tokens)
    ensures !IsAuthenticated(r)
    ensures r.access == Some("") && r.refresh == Some("")
    ensures r.refreshing == t.refreshing
  {
    t.(access := Some(""), refresh := Some(""))
  }

  function SetRefreshing(t: Tokens, value: bool): (r: Tokens)
    ensures r.refreshing == value
    ensures r.access == t.access && r.refresh == t.refresh
  {
    t.(refreshing := value)
  }

  /** The operations on the tokens, as a sequence the user's session goes
      through. */
  datatype Op = Set(access: Option<string>, refresh: Option<string>) | Clear | Refreshing(value: bool)

  function Apply(t: Tokens, op: Op): Tokens {
    match op
    case Set(a, rf) => SetTokens(t, a, rf)
    case Clear => ClearTokens(t)
    case Refreshing(v) => SetRefreshing(t, v)
  }

  function ApplyAll(t: Tokens, ops: seq<Op>): Tokens
    decreases |ops|
  {
    if ops == [] then t else ApplyAll(Apply(t, ops[0]), ops[1..])
  }

  /** The refreshing flag after a session is the last `SetRefreshing` value,
      or the starting one when there was none: token operations never touch
      it. */
  function LastRefreshing(start: bool, ops: seq<Op>): bool
    decreases |ops|
  {
    if ops == [] then start
    else if ops[|ops| - 1].Refreshing? then ops[|ops| - 1].value
    else LastRefreshing(start, ops[..|ops| - 1])
  }

  lemma {:induction false} RefreshingFlagIsLastSet(t: Tokens, ops: seq<Op>)
    ensures ApplyAll(t, ops).refreshing == LastRefreshing(t.refreshing, ops)
    decreases |ops|
  {
    if ops != [] {
      RefreshingFlagIsLastSet(Apply(t, ops[0]), ops[1..]);
      LastRefreshingCons(t.refreshing, ops);
    }
  }

  lemma {:induction false} LastRefreshingCons(start: bool, ops: seq<Op>)
    requires ops != []
    ensures LastRefreshing(start, ops) ==
              LastRefreshing(if ops[0].Refreshing? then ops[0].value else start, ops[1..])
    decreases |ops|
  {
    if |ops| > 1 {
      assert ops[1..][..|ops[1..]| - 1] == ops[..|ops| - 1][1..];
      if !ops[|ops| - 1].Refreshing? {
        LastRefreshingCons(start, ops[..|ops| - 1]);
      }
    }
  }

  /** Clearing signs the user out whatever came before, and setting the same
      tokens twice is the same as setting them once. */
  lemma ClearSignsOut(t: Tokens, access: Option<string>, refresh: Option<string>)
    ensures !IsAuthenticated(ClearTokens(SetTokens(t, access, refresh)))
    ensures ClearTokens(SetTokens(t, access, refresh)) == ClearTokens(t)
    ensures SetTokens(SetTokens(t, access, refresh), access, refresh) == SetTokens(t, access, refresh)
  {
  }
}

=== FILE: tool_manager.dfy ===
/** ToolManager: which tool the player holds. The tool changes on the number
    keys, and a change (and only a change) is announced to listeners; the
    announcements are returned as a sequence instead of a C# event. */
module ToolManager {
  import opened Common

  datatype ToolType = Hands | Mower

  datatype Key = Key1 | Key2 | OtherKey(code: int)

  datatype MouseButton = Left | Right | OtherButton

  /** The input events the tool manager and the brush overlay look at. */
  datatype InputEvent =
    | KeyEvent(key: Key, pressed: bool)
    | MouseButtonEvent(button: MouseButton, pressed: bool)
    | MouseMotion
    | OtherEvent

  datatype Tools = Tools(current: ToolType)

  /** The player starts with bare hands. */
  function Initial(): (t: Tools)
    ensures t.current == Hands
  {
    Tools(Hands)
  }

  /** The `CurrentTool` setter: `ToolChanged` fires with the new tool exactly
      when the value differs from the current one. */
  function SetTool(t: Tools, tool: ToolType): (r: (Tools, seq<ToolType>))
    ensures r.0.current == tool
    ensures tool == t.current ==> r == (t, [])
    ensures tool != t.current ==> r.1 == [tool]
  {
    if t.current != tool then (Tools(tool), [tool]) else (t, [])
  }

  /** The tool a key press asks for, if any. */
  function Requested(e: InputEvent): (r: Option<ToolType>)
    ensures r == Some(Hands) <==> e == KeyEvent(Key1, true)
    ensures r == Some(Mower) <==> e == KeyEvent(Key2, true)
  {
    match e
    case KeyEvent(Key1, true) => Some(Hands)
    case KeyEvent(Key2, true) => Some(Mower)
    case _ => None
  }

  /** `_Input`: pressing 1 picks the hands, pressing 2 the mower; releases and
      every other event are ignored. */
  function Input(t: Tools, e: InputEvent): (r: (Tools, seq<ToolType>))
    ensures Requested(e).None? ==> r == (t, [])
    ensures Requested(e).Some? ==> r == SetTool(t, Requested(e).value)
  {
    match Requested(e)
    case None => (t, [])
    case Some(tool) => SetTool(t, tool)
  }

  /** `GetToolName`. */
  function ToolName(tool: ToolType): (r: string)
    ensures r == "Hands" <==> tool == Hands
    ensures r == "Mower" <==> tool == Mower
  {
    match tool
    case Hands => "Hands"
    case Mower => "Mower"
  }

  /** The reading back of a tool name, the partner of `ToolName`. */
  function ToolFromName(name: string): Option<ToolType> {
    if name == "Hands" then Some(Hands)
    else if name == "Mower" then Some(Mower)
    else None
  }

  lemma ToolNameRoundTrip(tool: ToolType)
    ensures ToolFromName(ToolName(tool)) == Some(tool)
  {
  }

  /** A run of input events: the final tool state and every announcement, in
      order. */
  function Run(t: Tools, es: seq<InputEvent>): (Tools, seq<ToolType>)
    decreases |es|
  {
    if es == [] then (t, [])
    else
      var (t1, n1) := Input(t, es[0]);
      var (t2, n2) := Run(t1, es[1..]);
      (t2, n1 + n2)
  }

  /** The tool a run of input ends on, computed independently: the last
      number-key press decides, and with none the tool is unchanged. */
  function LastRequested(t: ToolType, es: seq<InputEvent>): ToolType
    decreases |es|
  {
    if es == [] then t
    else
      var last := es[|es| - 1];
      match Requested(last)
      case Some(tool) => tool
      case None => LastRequested(t, es[..|es| - 1])
  }

  /** No two announcements in a row name the same tool, and the first one
      differs from the starting tool. */
  predicate Alternates(start: ToolType, ns: seq<ToolType>) {
    (ns != [] ==> ns[0] != start) &&
    forall i :: 0 < i < |ns| ==> ns[i] != ns[i - 1]
  }

  /** Over any run of input: the tool ends where the last number key put it,
      every announcement is a real change, and the last announcement names
      the tool held at the end. */
  lemma {:induction false} RunAnnouncesEveryChange(t: Tools, es: seq<InputEvent>)
    ensures Run(t, es).0.current == LastRequested(t.current, es)
    ensures Alternates(t.current, Run(t, es).1)
    ensures Run(t, es).1 != [] ==> Run(t, es).1[|Run(t, es).1| - 1] == Run(t, es).0.current
    ensures Run(t, es).1 == [] ==> Run(t, es).0 == t
    decreases |es|
  {
    if es != [] {
      var (t1, n1) := Input(t, es[0]);
      RunAnnouncesEveryChange(t1, es[1..]);
      LastRequestedCons(t.current, es);
      var (t2, n2) := Run(t1, es[1..]);
      assert Run(t, es) == (t2, n1 + n2);
      if n1 == [] {
        assert t1 == t && n1 + n2 == n2;
      } else {
        assert n1 == [t1.current] && t1.current != t.current;
        forall i | 0 < i < |n1 + n2|
          ensures (n1 + n2)[i] != (n1 + n2)[i - 1]
        {
          if i > 1 {
            assert (n1 + n2)[i] == n2[i - 1] && (n1 + n2)[i - 1] == n2[i - 2];
          }
        }
      }
    }
  }

  /** `LastRequested` read from the front: the first event sets the tool the
      rest start from. */
  lemma {:induction false} LastRequestedCons(t: ToolType, es: seq<InputEvent>)
    requires es != []
    ensures LastRequested(t, es) == LastRequested(Input(Tools(t), es[0]).0.current, es[1..])
    decreases |es|
  {
    if |es| > 1 {
      var last := es[|es| - 1];
      assert es[1..][..|es[1..]| - 1] == es[..|es| - 1][1..];
      if Requested(last).None? {
        LastRequestedCons(t, es[..|es| - 1]);
      }
    }
  }
}

=== FILE: tree_types.dfy ===
/** TreeTypeLoader.GetRandomTreeType: a weighted random pick among the tree
    types read from the data file. The file reading is left out; the list and
    the random draw in [0, 1) are inputs. */
module TreeTypes {
  import opened Common

  /** The fields of a `TreeType` the pick and the tree builder read. */
  datatype TreeType = TreeType(name: string, weight: real, seed: Option<int>, twigScale: Option<real>)

  /** The sum of the first `n` weights, in list order. */
  function PrefixWeight(types: seq<TreeType>, n: nat): real
    requires n <= |types|
  {
    if n == 0 then 0.0 else PrefixWeight(types, n - 1) + types[n - 1].weight
  }

  /** The running sum once type `j` has been added. */
  function RunningSum(types: seq<TreeType>, j: nat): real
    requires j < |types|
  {
    PrefixWeight(types, j + 1)
  }

  function TotalWeight(types: seq<TreeType>): real {
    PrefixWeight(types, |types|)
  }

  /** The reference choice: the first index from `i` on whose running sum
      reaches `target`, or the last index when none does. */
  function FirstReaching(types: seq<TreeType>, target: real, i: nat): (k: nat)
    requires i < |types|
    ensures i <= k < |types|
    ensures target <= PrefixWeight(types, k + 1) || k == |types| - 1
    ensures forall j :: i <= j < k ==> target > RunningSum(types, j)
    decreases |types| - i
  {
    if target <= PrefixWeight(types, i + 1) || i == |types| - 1 then i
    else FirstReaching(types, target, i + 1)
  }

  /** The type chosen for a target value on the running-sum scale. */
  function ChosenFor(types: seq<TreeType>, target: real): TreeType
    requires types != []
  {
    types[FirstReaching(types, target, 0)]
  }

  /** The draw scaled to the running-sum scale. */
  function Target(types: seq<TreeType>, draw: real): real {
    Scale(draw, TotalWeight(types))
  }

  /** A draw in (0, 1] lands in (0, total] on the running-sum scale, and a
      draw in [0, 1] in [0, total]. */
  lemma TargetRange(types: seq<TreeType>, draw: real)
    requires TotalWeight(types) > 0.0 && 0.0 <= draw <= 1.0
    ensures 0.0 <= Target(types, draw) <= TotalWeight(types)
    ensures draw > 0.0 ==> Target(types, draw) > 0.0
  {
    ScaleBounds(draw, TotalWeight(types));
  }

  /** The reference definition of the pick. */
  function Pick(types: seq<TreeType>, draw: real): Option<TreeType> {
    if types == [] then None
    else if TotalWeight(types) <= 0.0 then Some(types[0])
    else Some(ChosenFor(types, Target(types, draw)))
  }

  /** With a positive total the pick is the type chosen for the scaled draw. */
  lemma PickScalesDraw(types: seq<TreeType>, draw: real, total: real)
    requires types != [] && total == TotalWeight(types) && total > 0.0
    ensures Pick(types, draw) == Some(ChosenFor(types, Scale(draw, total)))
  {
  }

  /** `GetRandomTreeType`: the running-sum loop of the source. */
  method GetRandomTreeType(types: seq<TreeType>, draw: real) returns (r: Option<TreeType>)
    ensures r == Pick(types, draw)
    ensures r.None? <==> types == []
    ensures r.Some? ==> r.value in types
  {
    if |types| == 0 {
      return None;
    }
    var total := 0.0;
    for i := 0 to |types|
      invariant total == PrefixWeight(types, i)
    {
      total := total + types[i].weight;
    }
    if total <= 0.0 {
      return Some(types[0]);
    }
    var target := Scale(draw, total);
    PickScalesDraw(types, draw, total);
    var current := 0.0;
    var i := 0;
    while i < |types|
      invariant 0 <= i <= |types|
      invariant current == PrefixWeight(types, i)
      invariant forall j :: 0 <= j < i ==> target > RunningSum(types, j)
    {
      current := current + types[i].weight;
      if target <= current {
        FirstReachingIs(types, target, 0, i);
        return Some(types[i]);
      }
      i := i + 1;
    }
    FirstReachingIs(types, target, 0, |types| - 1);
    return Some(types[|types| - 1]);
  }

  /** The reference choice is pinned down by the running sums: from `i` on,
      `k` is chosen when every sum before it falls short and `k`'s sum
      reaches the target (or `k` is last). */
  lemma {:induction false} FirstReachingIs(types: seq<TreeType>, target: real, i: nat, k: nat)
    requires i <= k < |types|
    requires forall j :: i <= j < k ==> target > RunningSum(types, j)
    requires target <= PrefixWeight(types, k + 1) || k == |types| - 1
    ensures FirstReaching(types, target, i) == k
    decreases k - i
  {
    if i < k {
      assert target > RunningSum(types, i);
      FirstReachingIs(types, target, i + 1, k);
    }
  }

  /** A target no larger than the total weight is reached by the chosen
      type's running sum: the choice never falls back for lack of a match. */
  lemma ReachedBy(types: seq<TreeType>, target: real)
    requires types != []
    requires target <= TotalWeight(types)
    ensures target <= PrefixWeight(types, FirstReaching(types, target, 0) + 1)
  {
    var k := FirstReaching(types, target, 0);
    if k == |types| - 1 {
      assert PrefixWeight(types, k + 1) == TotalWeight(types);
    }
  }

  /** A target in (0, total] falls inside the chosen type's interval of
      running sums, so that type's weight is positive. */
  lemma ReachedWithin(types: seq<TreeType>, target: real)
    requires types != []
    requires 0.0 < target <= TotalWeight(types)
    ensures var k := FirstReaching(types, target, 0);
            PrefixWeight(types, k) < target <= PrefixWeight(types, k + 1)
    ensures ChosenFor(types, target).weight > 0.0
  {
    var k := FirstReaching(types, target, 0);
    ReachedBy(types, target);
    if k > 0 {
      assert target > RunningSum(types, k - 1);
    }
    assert PrefixWeight(types, k + 1) == PrefixWeight(types, k) + types[k].weight;
  }

  /** With a draw in [0, 1] the running sum reaches the target by the last
      type at the latest, so the source's "last tree" fallback after the loop
      is never taken. */
  lemma FallbackUnreachable(types: seq<TreeType>, draw: real)
    requires types != [] && TotalWeight(types) > 0.0
    requires 0.0 <= draw <= 1.0
    ensures Target(types, draw) <= PrefixWeight(types, FirstReaching(types, Target(types, draw), 0) + 1)
  {
    TargetRange(types, draw);
    ReachedBy(types, Target(types, draw));
  }

  /** A weighted pick: with a positive draw, a type of weight 0 (or less) is
      never chosen. */
  lemma ZeroWeightNeverPicked(types: seq<TreeType>, draw: real)
    requires types != [] && TotalWeight(types) > 0.0
    requires 0.0 < draw <= 1.0
    ensures Pick(types, draw).value.weight > 0.0
  {
    TargetRange(types, draw);
    ReachedWithin(types, Target(types, draw));
  }
}

=== FILE: world_manager.dfy ===
/** The arithmetic WorldManager performs on the clock and the garden data: the
    seasonal twig colour, the sun's position and light, the garden-to-world
    coordinate map, the per-tree seed and scale, the hourly tree refresh and
    the weight split of the plot-loading progress. */
module WorldManager {
  import opened Common
  import TM = TimeManager
  import LP = LoadingProgress

  // ---------------------------------------------------------------- twig colour

  const JanColor: Color := Color(0.4, 0.4, 0.3)
  const AprColor: Color := Color(0.5, 0.8, 0.3)
  const JulColor: Color := Color(0.3, 0.6, 0.2)
  const OctColor: Color := Color(0.8, 0.5, 0.2)

  /** `GetTwigColorForMonth`: the code's if-chain; every month above 10 (and
      below 1) lerps from October back toward January. */
  function TwigColor(month: int): (c: Color)
    ensures 1 <= month <= 12 ==> 0.3 <= c.r <= 0.8 && 0.4 <= c.g <= 0.8 && 0.2 <= c.b <= 0.3
    ensures 1 <= month <= 12 ==> (c == AprColor <==> month == 4)
  {
    if month == 1 then JanColor
    else if 1 <= month < 4 then LerpColor(JanColor, AprColor, (month - 1) as real / 3.0)
    else if month == 4 then AprColor
    else if 4 < month < 7 then LerpColor(AprColor, JulColor, (month - 4) as real / 3.0)
    else if month == 7 then JulColor
    else if 7 < month < 10 then LerpColor(JulColor, OctColor, (month - 7) as real / 3.0)
    else if month == 10 then OctColor
    else LerpColor(OctColor, JanColor, (month - 10) as real / 3.0)
  }

  /** The twig colour follows the same four-anchor curve as the twig-scale
      multiplier, channel by channel: it is exact at January, April, July and
      October and lies between the bracketing anchors in the months between. */
  lemma TwigColorIsAnchorCurve(month: int)
    requires 1 <= month <= 12
    ensures TwigColor(month).r == TM.AnchorCurve([JanColor.r, AprColor.r, JulColor.r, OctColor.r], month)
    ensures TwigColor(month).g == TM.AnchorCurve([JanColor.g, AprColor.g, JulColor.g, OctColor.g], month)
    ensures TwigColor(month).b == TM.AnchorCurve([JanColor.b, AprColor.b, JulColor.b, OctColor.b], month)
    ensures TwigColor(1) == JanColor && TwigColor(4) == AprColor && TwigColor(7) == JulColor && TwigColor(10) == OctColor
    ensures 0.3 <= TwigColor(month).r <= 0.8 && 0.4 <= TwigColor(month).g <= 0.8 && 0.2 <= TwigColor(month).b <= 0.3
  {
    var k := (month - 1) / 3;
    assert k == 0 || k == 1 || k == 2 || k == 3;
    if month <= 3 {
      assert k == 0;
    } else if month <= 6 {
      assert k == 1;
    } else if month <= 9 {
      assert k == 2;
    } else {
      assert k == 3 && (k + 1) % 4 == 0;
    }
  }

  // --------------------------------------------------------------- sun and light

  /** The elevation offset by month in `UpdateSunPosition`, as written: +15 in
      June, -15 in December, -15 + (m + 5) * 3 before June (January gives +3)
      and 15 - (m - 6) * 5 after. */
  function MonthAdjustment(month: int): (r: real)
    ensures 1 <= month <= 12 ==> -15.0 <= r <= 15.0
    ensures 1 <= month <= 12 ==> (r == 15.0 <==> month == 5 || month == 6)
  {
    if month == 6 then 15.0
    else if month == 12 then -15.0
    else if month < 6 then -15.0 + (month + 5) as real * (30.0 / 10.0)
    else 15.0 - (month - 6) as real * (30.0 / 6.0)
  }

  /** The copy of the same offset in `UpdateSkyColors`, written as one flat
      if-chain. */
  function SkyMonthAdjustment(month: int): (r: real)
    ensures r == MonthAdjustment(month)
  {
    if month == 6 then 15.0
    else if month == 12 then -15.0
    else if month < 6 then -15.0 + (month + 5) as real * (30.0 / 10.0)
    else 15.0 - (month - 6) as real * (30.0 / 6.0)
  }

  /** The offset stays within ±15 degrees for every calendar month, rises from
      January (+3) to its maximum in May and June, falls to its minimum in
      December, and the copy used for the sky colours agrees with it. */
  lemma MonthAdjustmentProfile(month: int)
    ensures SkyMonthAdjustment(month) == MonthAdjustment(month)
    ensures 1 <= month <= 12 ==> -15.0 <= MonthAdjustment(month) <= 15.0
    ensures 1 <= month < 5 ==> MonthAdjustment(month) < MonthAdjustment(month + 1)
    ensures 6 <= month < 12 ==> MonthAdjustment(month) > MonthAdjustment(month + 1)
    ensures MonthAdjustment(1) == 3.0 && MonthAdjustment(5) == 15.0 && MonthAdjustment(6) == 15.0
    ensures MonthAdjustment(11) == -10.0 && MonthAdjustment(12) == -15.0
  {
  }

  /** Where the sun is: elevation and azimuth in degrees, whether it is day,
      and the fraction of the day elapsed (0 at night). */
  datatype Sun = Sun(elevation: real, azimuth: real, isDay: bool, dayProgress: real)

  /** The sun arithmetic of `UpdateSunPosition`. `sinHalfTurn(p)` stands for
      `Mathf.Sin(p * Pi)`, which the model takes as given. */
  function SunPosition(time: real, month: int, sinHalfTurn: real -> real): (s: Sun)
    ensures s.isDay <==> TM.Sunrise(month) <= time <= TM.Sunset(month)
    ensures s.isDay ==> 0.0 <= s.dayProgress <= 1.0 && 0.0 <= s.azimuth <= 180.0 && -90.0 <= s.elevation <= 90.0
    ensures s.isDay ==> s.azimuth == 180.0 * s.dayProgress
    ensures s.isDay ==> s.dayProgress == (time - TM.Sunrise(month)) / (TM.Sunset(month) - TM.Sunrise(month))
    ensures s.isDay ==> s.elevation == Clamp(sinHalfTurn(s.dayProgress) * 90.0 + MonthAdjustment(month), -90.0, 90.0)
    ensures !s.isDay ==> s.elevation == -10.0 && s.dayProgress == 0.0
    ensures !s.isDay ==> s.azimuth == (if time < TM.Sunrise(month) then 0.0 else 180.0)
  {
    var rise := TM.Sunrise(month);
    var fall := TM.Sunset(month);
    TM.DaylightByMonth(month);
    if rise <= time <= fall then
      var progress := (time - rise) / (fall - rise);
      var elevation := Clamp(sinHalfTurn(progress) * 90.0 + MonthAdjustment(month), -90.0, 90.0);
      Sun(elevation, progress * 180.0, true, progress)
    else
      Sun(-10.0, if time < rise then 0.0 else 180.0, false, 0.0)
  }

  /** Over a day the azimuth sweeps from east (0 at sunrise) to west (180 at
      sunset) without turning back. */
  lemma AzimuthSweepsEastToWest(t1: real, t2: real, month: int, sinHalfTurn: real -> real)
    requires t1 <= t2
    ensures SunPosition(t1, month, sinHalfTurn).azimuth <= SunPosition(t2, month, sinHalfTurn).azimuth
    ensures SunPosition(TM.Sunrise(month), month, sinHalfTurn).azimuth == 0.0
    ensures SunPosition(TM.Sunset(month), month, sinHalfTurn).azimuth == 180.0
  {
    var rise := TM.Sunrise(month);
    var fall := TM.Sunset(month);
    TM.DaylightByMonth(month);
    var s1 := SunPosition(t1, month, sinHalfTurn);
    var s2 := SunPosition(t2, month, sinHalfTurn);
    if s1.isDay && s2.isDay {
      QuotientMonotone(t1 - rise, t2 - rise, fall - rise);
    } else if s1.isDay {
      assert t2 > fall;
    }
    QuotientOfSelf(fall - rise);
    assert SunPosition(fall, month, sinHalfTurn).dayProgress == 1.0;
  }

  /** Dividing by a positive amount keeps the order. */
  lemma QuotientMonotone(a: real, b: real, d: real)
    requires a <= b && d > 0.0
    ensures a / d <= b / d
  {
  }

  /** A positive amount divided by itself is 1. */
  lemma QuotientOfSelf(d: real)
    requires d > 0.0
    ensures d / d == 1.0
  {
  }

  /** At sunrise and sunset the sine is 0, so the elevation is just the month's
      offset. */
  lemma HorizonElevationIsMonthOffset(month: int, sinHalfTurn: real -> real)
    requires 1 <= month <= 12
    requires sinHalfTurn(0.0) == 0.0
    ensures SunPosition(TM.Sunrise(month), month, sinHalfTurn).elevation == MonthAdjustment(month)
  {
    MonthAdjustmentProfile(month);
  }

  /** `LightEnergy` from the elevation. */
  function Intensity(elevation: real): (r: real)
    ensures elevation <= 0.0 ==> r == 0.1
    ensures 0.0 < elevation <= 90.0 ==> 0.3 < r <= 1.0
    ensures elevation == 90.0 ==> r == 1.0
  {
    if elevation > 0.0 then 0.3 + (elevation / 90.0) * 0.7 else 0.1
  }

  /** A higher sun never gives a dimmer light. */
  lemma IntensityIsMonotone(e1: real, e2: real)
    requires e1 <= e2
    ensures Intensity(e1) <= Intensity(e2)
  {
    if e1 > 0.0 {
      assert e1 / 90.0 <= e2 / 90.0;
    }
  }

  datatype LightBand = Warm | Daylight | Night

  /** The light colour's band from the elevation. */
  function Band(elevation: real): (r: LightBand)
    ensures r == Warm <==> -5.0 < elevation < 10.0
    ensures r == Daylight <==> elevation > 10.0
    ensures r == Night <==> elevation <= -5.0 || elevation == 10.0
  {
    if elevation < 10.0 && elevation > -5.0 then Warm
    else if elevation > 10.0 then Daylight
    else Night
  }

  /** The warm and daylight colours are full red; only the night colour is
      bluer than it is red. */
  function BandColor(b: LightBand): (c: Color)
    ensures b != Night <==> c.r == 1.0
    ensures b == Night <==> c.b > c.r
    ensures b == Daylight <==> c.g == 1.0
  {
    match b
    case Warm => Color(1.0, 0.7, 0.5)
    case Daylight => Color(1.0, 1.0, 0.95)
    case Night => Color(0.5, 0.6, 0.8)
  }

  /** At night (elevation -10) the light is the dim, cool night light; the
      exact elevation 10 falls through both day tests into the night colour. */
  lemma NightLight(time: real, month: int, sinHalfTurn: real -> real)
    requires !(TM.Sunrise(month) <= time <= TM.Sunset(month))
    ensures var e := SunPosition(time, month, sinHalfTurn).elevation;
            Intensity(e) == 0.1 && Band(e) == Night
    ensures Band(10.0) == Night && BandColor(Band(10.0)) == Color(0.5, 0.6, 0.8)
  {
  }

  // --------------------------------------------------------------- coordinates

  /** A garden's or a plot's size as stored: a width, a depth and a unit. */
  datatype Dimensions = Dimensions(width: real, depth: real, unit: string)

  const FootInMeters: real := 0.3048

  /** The size in meters: "feet" is converted, any other unit is taken as meters. */
  function InMeters(d: Dimensions): (r: (real, real))
    ensures d.unit == "feet" ==> r == (d.width * FootInMeters, d.depth * FootInMeters)
    ensures d.unit != "feet" ==> r == (d.width, d.depth)
  {
    if d.unit == "feet" then (d.width * FootInMeters, d.depth * FootInMeters) else (d.width, d.depth)
  }

  /** `ConvertGardenToWorldCoordinates`: shifts the garden point so the garden
      is centred at the origin. The point itself is not unit-converted. */
  function GardenToWorld(x: real, y: real, garden: Dimensions): (r: (real, real))
    ensures var (w, d) := InMeters(garden); r == (x - w / 2.0, y - d / 2.0)
  {
    var (w, d) := InMeters(garden);
    (x - w / 2.0, y - d / 2.0)
  }

  /** The inverse map, from world X/Z back to garden coordinates. */
  function WorldToGarden(wx: real, wz: real, garden: Dimensions): (r: (real, real)) {
    var (w, d) := InMeters(garden);
    (wx + w / 2.0, wz + d / 2.0)
  }

  /** The garden's corners land symmetric about the origin, the map is a pure
      translation, and it round-trips with its inverse. */
  lemma GardenToWorldIsCentredTranslation(x: real, y: real, garden: Dimensions)
    ensures var (w, d) := InMeters(garden);
            && GardenToWorld(0.0, 0.0, garden) == (-w / 2.0, -d / 2.0)
            && GardenToWorld(w, d, garden) == (w / 2.0, d / 2.0)
    ensures var (wx, wz) := GardenToWorld(x, y, garden); WorldToGarden(wx, wz, garden) == (x, y)
    ensures var (wx, wz) := GardenToWorld(x, y, garden);
            GardenToWorld(x + 1.0, y, garden) == (wx + 1.0, wz) && GardenToWorld(x, y + 1.0, garden) == (wx, wz + 1.0)
  {
  }

  // ------------------------------------------------------------ tree seed and scale

  /** The tree's seed: the type's seed plus the plot hash modulo 1000, or the
      plot hash alone, reduced modulo 10000 with C#'s signed remainder, then
      made non-negative. The addition wraps as an unchecked C# `int` does. */
  function TreeSeed(typeSeed: Option<int>, plotHash: int): (r: int)
    requires IsInt32(plotHash)
    requires typeSeed.Some? ==> IsInt32(typeSeed.value)
    ensures 0 <= r <= 9999
  {
    var s := match typeSeed
      case Some(seed) => IntRem(Wrap32(seed + IntRem(plotHash, 1000)), 10000)
      case None => IntRem(plotHash, 10000);
    if s < 0 then -s else s
  }

  function Abs(x: int): nat { if x < 0 then -x else x }

  /** The seed is the absolute value reduced modulo 10000: taking the signed
      remainder and then the absolute value is the same as reducing the
      absolute value. With a type seed, this holds of the (unwrapped) sum
      whenever it stays within the `int` range. */
  lemma TreeSeedIsAbsoluteRemainder(typeSeed: Option<int>, plotHash: int)
    requires IsInt32(plotHash)
    requires typeSeed.Some? ==> IsInt32(typeSeed.value) && IsInt32(typeSeed.value + IntRem(plotHash, 1000))
    ensures typeSeed.None? ==> TreeSeed(typeSeed, plotHash) == Abs(plotHash) % 10000
    ensures typeSeed.Some? ==> TreeSeed(typeSeed, plotHash) == Abs(typeSeed.value + IntRem(plotHash, 1000)) % 10000
  {
  }

  /** `scaleFactor`: the plot's average side in meters divided by 5, kept
      within [0.1, 0.6]. */
  function ScaleFactor(plot: Dimensions): (r: real)
    ensures 0.1 <= r <= 0.6
  {
    var (w, d) := InMeters(plot);
    Clamp((w + d) / 2.0 / 5.0, 0.1, 0.6)
  }

  /** Between plots of average side 0.5 m and 3 m the factor is exactly
      proportional; a larger plot never gets a smaller tree. */
  lemma ScaleFactorProfile(p: Dimensions, q: Dimensions)
    requires p.unit == q.unit
    requires p.width <= q.width && p.depth <= q.depth
    ensures var (w, d) := InMeters(p);
            1.0 <= w + d <= 6.0 ==> ScaleFactor(p) == (w + d) / 10.0
    ensures ScaleFactor(p) <= ScaleFactor(q)
  {
    if p.unit == "feet" {
      assert p.width * FootInMeters <= q.width * FootInMeters;
      assert p.depth * FootInMeters <= q.depth * FootInMeters;
    }
  }

  /** The tree's full-foliage twig scale: the type's twig scale (0.6 when
      absent) times the plot's scale factor. */
  function BaseTwigScale(typeTwigScale: Option<real>, plot: Dimensions): (r: real)
    ensures typeTwigScale.None? ==> 0.06 <= r <= 0.36
    ensures typeTwigScale.Some? && typeTwigScale.value >= 0.0 ==>
              0.1 * typeTwigScale.value <= r <= 0.6 * typeTwigScale.value
  {
    var ts := match typeTwigScale case None => 0.6 case Some(v) => v;
    var sf := ScaleFactor(plot);
    assert ts >= 0.0 ==> 0.1 * ts <= ts * sf <= 0.6 * ts;
    ts * sf
  }

  /** The twig scale set when the tree is created: base times the month's
      multiplier, or the base itself when there is no clock. */
  function CreationTwigScale(base: real, month: Option<int>): (r: real)
    ensures month.None? ==> r == base
    ensures month.Some? ==> r == SeasonalTwigScale(base, month.value)
  {
    match month
    case None => base
    case Some(m) => base * TM.TwigScaleMultiplier(m)
  }

  /** The twig scale the seasonal update sets. */
  function SeasonalTwigScale(base: real, month: int): (r: real)
    ensures base >= 0.0 && 1 <= month <= 12 ==> 0.0 <= r <= base
    ensures month == 7 ==> r == base
    ensures month == 1 ==> r == 0.0
  {
    assert base >= 0.0 && 1 <= month <= 12 ==> 0.0 <= base * TM.TwigScaleMultiplier(month) <= base by {
      if base >= 0.0 && 1 <= month <= 12 {
        ScaleWithinUnit(base, TM.TwigScaleMultiplier(month));
      }
    }
    base * TM.TwigScaleMultiplier(month)
  }

  /** Creation and the seasonal update agree, the seasonal scale is a share of
      the base (all of it in July, none in January), and creating a tree
      without a clock gives the July (full) foliage. */
  lemma TwigScaleIsShareOfBase(base: real, month: int)
    requires base >= 0.0
    requires 1 <= month <= 12
    ensures CreationTwigScale(base, Some(month)) == SeasonalTwigScale(base, month)
    ensures 0.0 <= SeasonalTwigScale(base, month) <= base
    ensures SeasonalTwigScale(base, 7) == base == CreationTwigScale(base, None)
    ensures SeasonalTwigScale(base, 1) == 0.0
  {
    TM.TwigMultiplierIsAnchorCurve(month);
    TM.TwigMultiplierIsAnchorCurve(7);
    TM.TwigMultiplierIsAnchorCurve(1);
    var m := TM.TwigScaleMultiplier(month);
    assert base * m <= base * 1.0;
  }

  /** A tree registered for seasonal updates. */
  datatype Tree = Tree(alive: bool, base: real, twigScale: real, twigColor: Color)

  /** `UpdateAllTreesForSeason`: without a clock or with the twig material
      missing nothing changes; otherwise trees that no longer exist are
      dropped and every other tree gets base × multiplier and the month's
      colour. */
  function UpdateAllTreesForSeason(trees: seq<Tree>, month: Option<int>, materialLoaded: bool): (r: seq<Tree>)
    ensures month.None? || !materialLoaded ==> r == trees
    ensures month.Some? && materialLoaded ==>
              && |r| == CountAlive(trees)
              && (forall i :: 0 <= i < |r| ==>
                    (r[i].alive
                     && r[i].twigScale == SeasonalTwigScale(r[i].base, month.value)
                     && r[i].twigColor == TwigColor(month.value)))
              && (forall t :: t in trees && t.alive ==>
                    t.(twigScale := SeasonalTwigScale(t.base, month.value), twigColor := TwigColor(month.value)) in r)
  {
    if month.None? || !materialLoaded then trees
    else
      RefreshKeepsLiveTrees(trees, month.value);
      Refresh(trees, month.value)
  }

  function Refresh(trees: seq<Tree>, month: int): (r: seq<Tree>)
    ensures |r| == CountAlive(trees)
    ensures forall i :: 0 <= i < |r| ==>
              (r[i].alive && r[i].twigScale == SeasonalTwigScale(r[i].base, month) && r[i].twigColor == TwigColor(month))
  {
    if trees == [] then []
    else
      var rest := Refresh(trees[1..], month);
      var t := trees[0];
      if t.alive then [t.(twigScale := SeasonalTwigScale(t.base, month), twigColor := TwigColor(month))] + rest
      else rest
  }

  function CountAlive(trees: seq<Tree>): (n: nat)
    ensures n <= |trees|
  {
    if trees == [] then 0 else (if trees[0].alive then 1 else 0) + CountAlive(trees[1..])
  }

  /** A refresh keeps exactly the live trees with their bases, and refreshing
      twice in the same month is the same as once. */
  lemma {:induction false} RefreshKeepsLiveTrees(trees: seq<Tree>, month: int)
    ensures |Refresh(trees, month)| == CountAlive(trees)
    ensures forall t :: t in trees && t.alive ==>
              t.(twigScale := SeasonalTwigScale(t.base, month), twigColor := TwigColor(month)) in Refresh(trees, month)
    ensures Refresh(Refresh(trees, month), month) == Refresh(trees, month)
  {
    if trees != [] {
      RefreshKeepsLiveTrees(trees[1..], month);
      var r := Refresh(trees, month);
      forall t | t in trees && t.alive
        ensures t.(twigScale := SeasonalTwigScale(t.base, month), twigColor := TwigColor(month)) in r
      {
        if t != trees[0] {
          assert t in trees[1..];
        }
      }
      if trees[0].alive {
        var t := trees[0];
        var t' := t.(twigScale := SeasonalTwigScale(t.base, month), twigColor := TwigColor(month));
        assert r == [t'] + Refresh(trees[1..], month);
        assert ([t'] + Refresh(trees[1..], month))[1..] == Refresh(trees[1..], month);
      }
    }
  }

  /** The last hour the trees were refreshed for; -1 before the first refresh. */
  datatype HourlyRefresh = HourlyRefresh(lastHour: int)

  const InitialRefresh: HourlyRefresh := HourlyRefresh(-1)

  /** `OnTimeChanged`: refreshes the trees (reported as `true`) when some are
      registered and the hour differs from the last refreshed one. */
  function OnTimeChanged(s: HourlyRefresh, treeCount: nat, minutes: real): (r: (HourlyRefresh, bool))
    ensures r.1 <==> treeCount > 0 && Trunc(minutes / 60.0) != s.lastHour
    ensures r.1 ==> r.0.lastHour == Trunc(minutes / 60.0)
    ensures !r.1 ==> r.0 == s
  {
    if treeCount == 0 then (s, false)
    else
      var hour := Trunc(minutes / 60.0);
      if s.lastHour != hour then (HourlyRefresh(hour), true) else (s, false)
  }

  /** The first notification with trees present always refreshes (no clock
      time is before hour 0), and a second notification within the same hour
      never does. */
  lemma RefreshOncePerHour(treeCount: nat, m1: real, m2: real)
    requires treeCount > 0
    requires m1 >= 0.0
    requires Trunc(m1 / 60.0) == Trunc(m2 / 60.0)
    ensures OnTimeChanged(InitialRefresh, treeCount, m1).1
    ensures !OnTimeChanged(OnTimeChanged(InitialRefresh, treeCount, m1).0, treeCount, m2).1
  {
  }

  // ---------------------------------------------------------------- loading split

  /** The fields of a `Plot` the loader reads. */
  datatype Plot = Plot(name: string, typeName: Option<string>, shape: string)

  predicate IsVegetablePlot(p: Plot) {
    p.typeName.Some? && Contains(ToLower(p.typeName.value), "vegetable")
  }

  predicate IsFruitTreePlot(p: Plot) {
    p.typeName.Some? && Contains(ToLower(p.typeName.value), "fruit tree")
  }

  /** A vegetable plot the loader actually builds: one of rectangle shape. */
  predicate IsBuiltVegetable(p: Plot) {
    IsVegetablePlot(p) && ToLower(p.shape) == "rectangle"
  }

  function CountWhere(plots: seq<Plot>, vegetables: bool): (n: nat)
    ensures n <= |plots|
  {
    if plots == [] then 0
    else (if (if vegetables then IsBuiltVegetable(plots[0]) else IsFruitTreePlot(plots[0])) then 1 else 0)
         + CountWhere(plots[1..], vegetables)
  }

  function FilterWhere(plots: seq<Plot>, vegetables: bool): (r: seq<Plot>)
    ensures |r| == CountWhere(plots, vegetables)
    ensures forall p :: p in r <==> p in plots && (if vegetables then IsBuiltVegetable(p) else IsFruitTreePlot(p))
  {
    if plots == [] then []
    else if (if vegetables then IsBuiltVegetable(plots[0]) else IsFruitTreePlot(plots[0]))
    then [plots[0]] + FilterWhere(plots[1..], vegetables)
    else FilterWhere(plots[1..], vegetables)
  }

  /** One `UpdateItemProgress` per item of a phase, counting from 1. */
  function ItemUpdates(t: LP.Tracker, phase: string, items: seq<Plot>, done: nat, total: int): (r: LP.Tracker)
    requires LP.Valid(t)
    ensures LP.Valid(r)
    ensures |r.phases| == |t.phases| && LP.Names(r.phases) == LP.Names(t.phases)
    ensures forall i :: 0 <= i < |t.phases| && t.phases[i].complete ==> r.phases[i].complete
    ensures r.totalWeight == t.totalWeight
    decreases |items|
  {
    if items == [] then t
    else
      var t1 := LP.UpdateItemProgress(t, phase, done + 1, total, items[0].name);
      NamesKeptByUpdate(t, t1);
      ItemUpdates(t1, phase, items[1..], done + 1, total)
  }

  lemma NamesKeptByUpdate(t: LP.Tracker, r: LP.Tracker)
    requires |r.phases| == |t.phases|
    requires forall i :: 0 <= i < |t.phases| ==> r.phases[i].name == t.phases[i].name
    ensures LP.Names(r.phases) == LP.Names(t.phases)
    decreases |t.phases|
  {
    if t.phases != [] {
      NamesKeptByUpdate(t.(phases := t.phases[1..]), r.(phases := r.phases[1..]));
    }
  }

  lemma {:induction false} FindDependsOnNames(a: seq<LP.Phase>, b: seq<LP.Phase>, name: string)
    requires LP.Names(a) == LP.Names(b)
    ensures LP.Find(a, name) == LP.Find(b, name)
  {
    if a != [] {
      assert b != [];
      assert LP.Names(a)[0] == a[0].name && LP.Names(b)[0] == b[0].name;
      assert LP.Names(a[1..]) == LP.Names(a)[1..] && LP.Names(b[1..]) == LP.Names(b)[1..];
      FindDependsOnNames(a[1..], b[1..], name);
    }
  }

  /** The loader's first phase: "GettingPlots" (weight 10) registered, the
      display reset to 0, then the phase completed once the plots arrive. */
  function StartLoad(t: LP.Tracker): (r: LP.Tracker)
    requires LP.Valid(t)
    ensures LP.Valid(r)
    ensures t.phases == [] ==> r.phases == [LP.Phase("GettingPlots", 10.0, 1.0, true)] && r.totalWeight == 10.0
  {
    var t1 := LP.RegisterPhase(t, "GettingPlots", 10.0);
    var t2 := LP.SetProgress(t1, 0.0, "Loading plots...");
    LP.CompletePhase(t2, "GettingPlots", "Plots loaded")
  }

  /** One kind of plot: an item update per plot, then the phase completed if
      there was at least one. */
  function BuildKind(t: LP.Tracker, phase: string, items: seq<Plot>): (r: LP.Tracker)
    requires LP.Valid(t)
    ensures LP.Valid(r)
    ensures |r.phases| == |t.phases| && LP.Names(r.phases) == LP.Names(t.phases)
    ensures r.totalWeight == t.totalWeight
    ensures forall i :: 0 <= i < |t.phases| && t.phases[i].complete ==> r.phases[i].complete
    ensures items != [] && LP.Find(t.phases, phase).Some? ==> r.phases[LP.Find(t.phases, phase).value].complete
  {
    var t1 := ItemUpdates(t, phase, items, 0, |items|);
    FindDependsOnNames(t.phases, t1.phases, phase);
    if |items| > 0 then
      var r := LP.CompletePhase(t1, phase, "");
      NamesKeptByUpdate(t1, r);
      r
    else t1
  }

  /** `LoadPlotsAsync` as seen by the progress tracker, with the plot list
      fetched from the server given as `plots`. The scene building in between
      does not touch the tracker and is left out. */
  function LoadPlots(t: LP.Tracker, plots: seq<Plot>): (r: LP.Tracker)
    requires LP.Valid(t)
    ensures LP.Valid(r)
    ensures r.current == 100.0
  {
    var t3 := StartLoad(t);
    var vegetables := FilterWhere(plots, true);
    var trees := FilterWhere(plots, false);
    if |vegetables| + |trees| == 0 then LP.SetProgress(t3, 100.0, "No plots to load")
    else
      var t4 := RegisterLoadPhases(t3, |vegetables|, |trees|);
      var t6 := BuildKind(t4, "VegetablePlots", vegetables);
      var t8 := BuildKind(t6, "FruitTrees", trees);
      LP.SetProgress(t8, 100.0, "Loading complete!")
  }

  /** The phase registrations of the loader: each kind that has items gets its
      share of 90 percent. */
  function RegisterLoadPhases(t: LP.Tracker, vegetables: nat, trees: nat): (r: LP.Tracker)
    requires LP.Valid(t)
    requires vegetables + trees > 0
    ensures LP.Valid(r)
    ensures r.current == t.current && r.spinner == t.spinner
    ensures |t.phases| <= |r.phases| <= |t.phases| + 2 && r.phases[..|t.phases|] == t.phases
    ensures forall i :: |t.phases| <= i < |r.phases| ==>
              && (r.phases[i].name == "VegetablePlots" || r.phases[i].name == "FruitTrees")
              && r.phases[i].progress == 0.0 && !r.phases[i].complete
    ensures vegetables > 0 ==> LP.Find(r.phases, "VegetablePlots").Some?
    ensures trees > 0 ==> LP.Find(r.phases, "FruitTrees").Some?
  {
    var t1 := if vegetables > 0 then LP.RegisterPhase(t, "VegetablePlots", Share(vegetables, vegetables + trees)) else t;
    LP.RegisterAppends(t, "VegetablePlots", Share(vegetables, vegetables + trees));
    var r := if trees > 0 then LP.RegisterPhase(t1, "FruitTrees", Share(trees, vegetables + trees)) else t1;
    LP.RegisterAppends(t1, "FruitTrees", Share(trees, vegetables + trees));
    LP.KeptFound(t1.phases, r.phases, "VegetablePlots");
    assert r.phases[..|t.phases|] == t.phases by {
      assert r.phases[..|t.phases|] == r.phases[..|t1.phases|][..|t.phases|];
    }
    r
  }

  /** A kind's share of the 90 percent the plots take, in proportion to its
      count. */
  function Share(count: nat, total: nat): real
    requires total > 0
  {
    90.0 * count as real / total as real
  }


  /** After the first phase, the loader registers one phase per non-empty
      kind, whose weights share the remaining 90 in proportion to the item
      counts; the total weight is then 100. */
  lemma LoadingWeightsSumToHundred(t: LP.Tracker, vegetables: nat, trees: nat)
    requires LP.Valid(t)
    requires t.phases == [LP.Phase("GettingPlots", 10.0, 1.0, true)] && t.totalWeight == 10.0
    requires vegetables + trees > 0
    ensures var r := RegisterLoadPhases(t, vegetables, trees);
            && r.totalWeight == 100.0
            && |r.phases| == 1 + (if vegetables > 0 then 1 else 0) + (if trees > 0 then 1 else 0)
            && r.phases[0] == t.phases[0]
            && (vegetables > 0 ==> r.phases[1] == LP.Phase("VegetablePlots", 90.0 * vegetables as real / (vegetables + trees) as real, 0.0, false))
            && (trees > 0 ==> r.phases[|r.phases| - 1] == LP.Phase("FruitTrees", 90.0 * trees as real / (vegetables + trees) as real, 0.0, false))
  {
    var total := vegetables + trees;
    assert Share(vegetables, total) + Share(trees, total) == 90.0 by {
      assert total as real == vegetables as real + trees as real;
      SharesSum(90.0, vegetables as real, trees as real);
    }
    assert LP.Find(t.phases, "VegetablePlots").None? && LP.Find(t.phases, "FruitTrees").None?;
    var t1 := if vegetables > 0 then LP.RegisterPhase(t, "VegetablePlots", Share(vegetables, total)) else t;
    assert t1.totalWeight == 10.0 + Share(vegetables, total);
    assert LP.Find(t1.phases, "FruitTrees").None? by {
      assert forall i :: 0 <= i < |t1.phases| ==> t1.phases[i].name != "FruitTrees";
    }
  }

  /** The phases after registration: the completed "GettingPlots" first,
      then "VegetablePlots" at index 1 when there are vegetable plots, and
      "FruitTrees" last when there are trees; there is no other phase. */
  lemma LoadPhasesLayout(t: LP.Tracker, vegetables: nat, trees: nat)
    requires LP.Valid(t)
    requires t.phases == [LP.Phase("GettingPlots", 10.0, 1.0, true)] && t.totalWeight == 10.0
    requires vegetables + trees > 0
    ensures var r := RegisterLoadPhases(t, vegetables, trees);
            && |r.phases| >= 2 && r.phases[0].complete
            && (vegetables > 0 ==> LP.Find(r.phases, "VegetablePlots") == Some(1))
            && (trees > 0 ==> LP.Find(r.phases, "FruitTrees") == Some(|r.phases| - 1))
            && |r.phases| == 1 + (if vegetables > 0 then 1 else 0) + (if trees > 0 then 1 else 0)
  {
    var r := RegisterLoadPhases(t, vegetables, trees);
    LoadingWeightsSumToHundred(t, vegetables, trees);
    var ps := r.phases;
    if vegetables > 0 {
      assert ps[0].name != "VegetablePlots" && ps[1].name == "VegetablePlots";
      assert LP.Find(ps[1..], "VegetablePlots") == Some(0);
    }
    if trees > 0 {
      var last := |ps| - 1;
      assert ps[last].name == "FruitTrees";
      assert LP.Find(ps[last..], "FruitTrees") == Some(0);
      if vegetables > 0 {
        assert ps[1].name != "FruitTrees";
        assert ps[1..][1..] == ps[last..];
        assert LP.Find(ps[1..], "FruitTrees") == Some(1);
      }
      assert ps[0].name != "FruitTrees";
    }
  }

  /** Building both kinds over a layout whose first phase is complete and
      whose other phases belong to kinds with items completes every phase. */
  lemma KindsCompleteAfterLayout(t: LP.Tracker, vegetables: seq<Plot>, trees: seq<Plot>)
    requires LP.Valid(t)
    requires |t.phases| >= 2 && t.phases[0].complete
    requires |vegetables| > 0 ==> LP.Find(t.phases, "VegetablePlots") == Some(1)
    requires |trees| > 0 ==> LP.Find(t.phases, "FruitTrees") == Some(|t.phases| - 1)
    requires |t.phases| == 1 + (if |vegetables| > 0 then 1 else 0) + (if |trees| > 0 then 1 else 0)
    ensures LP.IsComplete(BuildKind(BuildKind(t, "VegetablePlots", vegetables), "FruitTrees", trees))
  {
    var n := |t.phases|;
    var t6 := BuildKind(t, "VegetablePlots", vegetables);
    FindDependsOnNames(t.phases, t6.phases, "FruitTrees");
    var t8 := BuildKind(t6, "FruitTrees", trees);
    assert |t6.phases| == n && |t8.phases| == n;
    // The first phase, and the vegetable phase when there is one.
    assert t6.phases[0].complete && t8.phases[0].complete;
    if |vegetables| > 0 {
      assert t6.phases[1].complete && t8.phases[1].complete;
    }
    // The fruit-tree phase, last when there is one.
    if |trees| > 0 {
      assert LP.Find(t6.phases, "FruitTrees") == Some(n - 1);
      assert t8.phases[n - 1].complete;
    }
    forall i | 0 <= i < n
      ensures t8.phases[i].complete
    {
      assert i == 0 || (|vegetables| > 0 && i == 1) || (|trees| > 0 && i == n - 1);
    }
  }

  /** After the first phase, building both kinds completes every phase:
      the first was completed before, and each kind that registered a phase
      has at least one item. */
  lemma BuiltKindsComplete(t: LP.Tracker, vegetables: seq<Plot>, trees: seq<Plot>)
    requires LP.Valid(t)
    requires t.phases == [LP.Phase("GettingPlots", 10.0, 1.0, true)] && t.totalWeight == 10.0
    requires |vegetables| + |trees| > 0
    ensures var t4 := RegisterLoadPhases(t, |vegetables|, |trees|);
            LP.IsComplete(BuildKind(BuildKind(t4, "VegetablePlots", vegetables), "FruitTrees", trees))
  {
    LoadPhasesLayout(t, |vegetables|, |trees|);
    KindsCompleteAfterLayout(RegisterLoadPhases(t, |vegetables|, |trees|), vegetables, trees);
  }

  /** Loading into a fresh tracker leaves every phase it registered complete. */
  lemma LoadPlotsCompletesEveryPhase(spinner: Option<LP.Display>, plots: seq<Plot>)
    ensures LP.IsComplete(LoadPlots(LP.New(spinner), plots))
  {
    var t3 := StartLoad(LP.New(spinner));
    var vegetables := FilterWhere(plots, true);
    var trees := FilterWhere(plots, false);
    if |vegetables| + |trees| > 0 {
      BuiltKindsComplete(t3, vegetables, trees);
    }
  }
}
